=== FILE: README.md ===
# Jarvis action core in Dafny

This project models the three layers behind Jarvis's `/chat` endpoint:

- **Operations on the Windows machine** (`actions_windows.py`):
  - files and folders: create, list, read, write, append, copy, move, delete to the Jarvis trash and restore from it, duplicate;
  - text search over a directory walk, and project scaffolding;
  - the daily JSON action log;
  - browser lookup and the program-name normalisation of `abrir_app`;
  - media-control rule tables;
  - Google and YouTube search URLs.
- **The dispatcher** `ejecutar_accion` and the `/chat` routing (`app.py`). The routing covers a batch of actions, one action, or a plain answer.
- **The brain** (`brain_lmstudio.py`): how the chat messages are built, how the model's raw reply is cleaned (special tokens, code fences, the first balanced `{…}` object), and how the result is turned into an intent dictionary.

How the world is represented:

- **Disk.** An abstract filesystem `FS` maps paths to nodes. A path is a sequence of components and a node is `Dir` or `File(content)`. `Valid(fs)` says that every path's parent is a directory.
- **Environment.** The user's home and the clock (date and timestamp strings) are parameters. So is the order in which `os.scandir` / `os.listdir` / `os.walk` return names; `IsListing` and `IsWalk` describe a legal order.
- **Operations seen from the dispatcher.** They are an oracle `Call<W> = (Invocation, W) -> (Outcome, W)` over an arbitrary world `W`. An operation either returns a value or raises with a message. `guardar_log` is an oracle too.
- **The brain's external parts.** The language-model HTTP round trip is an oracle `seq<Message> -> Result<string, string>`, and `json.loads` is an oracle `string -> Result<Json, string>`.
- **Python values** passed between the layers are the datatype `PyValue.Json`. `PyValue` also gives `.get`, `in`, `[]` and `str()`, with the Python exceptions they raise on values of the wrong type.

Modules follow the source:

- `Fs`: the filesystem primitives of `os` / `shutil`.
- `Files`: the file operations.
- `TrashBin`: trash listing and restore.
- `Search`, `Scaffold`, `ActionLog`, `Browser`, `Urls`, `Media`: the rest of `actions_windows.py`.
- `Dispatch` and `Chat`: `app.py`.
- `Brain`: `brain_lmstudio.py`.
- `Base` and `PyValue`: shared string and Python-value helpers.

## Model

| member | source | states |
|---|---|---|
| Fs.Mkdirs | actions_windows.py:39 | `os.makedirs(exist_ok=True)` creates only directories, all on the target path, and changes nothing that existed. On a well-formed tree it succeeds exactly when no file sits on the path, and the tree stays well formed |
| Fs.WriteFile | actions_windows.py:94-95 | Opening for `"w"` succeeds exactly when the path is writable. The file then holds exactly the new text and every other path is unchanged |
| Fs.AppendFile | actions_windows.py:100-102 | Opening for `"a"` extends an existing file with the text, or creates it with the text. Nothing else changes |
| Fs.RemoveTree | actions_windows.py:126-130 | `shutil.rmtree` / `os.remove` leave exactly the paths outside the removed subtree, unchanged, and keep the tree well formed |
| Fs.RelocateEffect | actions_windows.py:118 | After a move, every path of the moved subtree appears rebased under the target with the same node. Paths outside both subtrees are untouched, and nothing else appears |
| Fs.MoveResult | actions_windows.py:118 | `shutil.move` onto an existing directory moves into it; otherwise it moves to the target path itself |
| Fs.MovePreservesValid | actions_windows.py:118 | A successful move keeps every path's parent a directory |
| Fs.CopyFile | actions_windows.py:113 | `shutil.copy2` succeeds exactly when the source is a file, the target is a different path, and the target is writable. The target then holds the source's node, every other path is unchanged, and the tree stays well formed |
| Fs.CopyTree | actions_windows.py:111 | `shutil.copytree(origen, destino, dirs_exist_ok=True)`: a source that is not a directory fails and changes nothing. Otherwise the destination is a directory afterwards, and the call succeeds exactly when no reached entry is blocked (a folder landing on a file, or a file landing on a folder or on itself). Every copied folder and file lands at its rebased place with the same node, paths outside the destination are unchanged, and the tree stays well formed. Below the destination, an entry that existed once the destination was created and is no copy's target keeps its node, and every new path is on the destination's own path or is a copy's target |
| Fs.CopyTreeComplete | actions_windows.py:111 | After a successful copy, every folder below the source is a folder at its rebased place and every file below it holds the same content there |
| Fs.CopyTreeIntoFresh | actions_windows.py:111 | Copying a folder to a new path whose parent is a folder succeeds, and every path at or below the source appears rebased under the new path with the same node |
| Fs.CopyAllFrame | actions_windows.py:111 | Copying a tree overwrites only the places its copies land on: every other entry keeps its node, and every new path is on the destination's path or is a copy's target |
| Files.CrearCarpeta | actions_windows.py:37-40 | Returns `ruta`, which is afterwards a directory. Everything that existed is unchanged. On a well-formed tree it fails exactly when a file blocks the path |
| Files.CrearCarpetaIdempotent | actions_windows.py:37-40 | Creating the same folder a second time succeeds and changes nothing |
| Files.CrearCarpetaEnEscritorio | actions_windows.py:42-46 | The folder is `Desktop/nombre`. It is a directory afterwards, and the call fails exactly when a file blocks that path |
| Files.ListarCarpeta | actions_windows.py:48-71 | Fails exactly when `ruta` is not a directory: `FileNotFoundError` when it is missing, `NotADirectoryError` when it is a file |
| Files.ListEntries | actions_windows.py:55-67 | Every entry listed is a child kept by the filter. Every child that the filter keeps is listed |
| Files.ListarCarpetaExact | actions_windows.py:48-71 | An entry is in the listing if and only if it describes a child of `ruta` that the filter keeps |
| Files.DotFilterDropsFolders | actions_windows.py:61-65 | With a filter starting with `.`, only files whose names end with the filter are listed, and no folders |
| Files.PlainFilterKeepsAll | actions_windows.py:61-67 | With no filter, or one not starting with `.`, every child is listed whatever its name |
| Files.LeerArchivo | actions_windows.py:73-87 | Returns the file's text exactly when it is a file of at most `limite_mb` MiB in UTF-8 bytes. A missing path gives `FileNotFoundError` and an over-size file gives `ValueError` |
| Files.CrearTxt | actions_windows.py:89-96 | The file holds exactly `contenido`. Only the file and missing parent folders are added. On a well-formed tree it fails exactly when `ruta` is a directory or a file blocks the parent path |
| Files.EditarArchivo | actions_windows.py:98-106 | `agregar` appends to the old text and any other mode overwrites it. The call succeeds exactly when the path is writable, and no other path changes |
| Files.AppendTwice | actions_windows.py:100-102 | Appending `a` then `b` gives the same file as appending `a + b` |
| Files.CopiarArchivo | actions_windows.py:108-114 | A missing source gives `FileNotFoundError` and changes nothing. A file copy succeeds exactly when `shutil.copy2` can write the target, which then holds the source's content. A folder copy succeeds exactly when no file blocks the destination and no entry is blocked, and then reproduces the whole subtree. When the destination cannot be created nothing changes; otherwise an entry that is no copy's target keeps its node and every new path is on the destination's path or a copy's target. Nothing outside the destination changes, and the tree stays well formed |
| Files.CopiarFolderToFresh | actions_windows.py:108-111 | Copying a folder to a new path inside an existing folder succeeds, and every entry at or below the folder reappears under the new path with the same node |
| Files.CopiarIntoOwnSubfolder | actions_windows.py:108-111 | Copying a folder into a new sub-folder of itself succeeds, as `copytree` lists the folder before it creates the destination, and the copy holds everything the folder held |
| Files.MoverArchivo | actions_windows.py:116-119 | The move succeeds exactly when `shutil.move` can relocate the source, when the source is a folder whose target's missing parents can be created first, or when the source is a folder moved onto itself. A legal move relocates the subtree as `shutil.move` does, onto the tree with those parents made when needed, and keeps the tree well formed. A destination folder that already holds the source's name gives "already exists" before the source is looked at; otherwise a missing source gives `FileNotFoundError` |
| Files.MoverFolderMakesParents | actions_windows.py:116-119 | A folder moved to a path whose parent folders are missing succeeds: the parents are created and the folder's subtree appears under the new path, gone from its old place |
| Files.Eliminar | actions_windows.py:121-138 | A missing path raises. A permanent delete removes exactly the subtree and keeps every other entry unchanged. Otherwise the call succeeds exactly when the entry can be moved into the trash under the name `stamp_basename` (for a folder, also when the trash folder is missing and is created on the way), and then it is relocated there; the tree stays well formed |
| Files.EliminarToTrash | actions_windows.py:132-138 | Sending to the trash moves the whole subtree under the trash entry and leaves every other path as it was |
| Files.SplitExt | actions_windows.py:146-148 | `os.path.splitext`: the two parts concatenate to the name. The extension is empty or one dot followed by no dot. A leading dot does not start an extension. When some character before the last dot is not a dot, the extension is exactly the text from that last dot |
| Files.ExtStart | actions_windows.py:147 | The extension of `os.path.splitext` starts at the last dot when some earlier character is not a dot, and is empty otherwise |
| Files.SplitExtPlain | actions_windows.py:147 | `informe.txt` splits into `informe` and `.txt` |
| Files.SplitExtHidden | actions_windows.py:147 | `.bashrc` has no extension |
| Files.CopyNameLastDot | actions_windows.py:146-148 | Only the last extension is kept after `_copia`: `datos.tar.gz` becomes `datos.tar_copia.gz` |
| Files.CopyNameNoExtension | actions_windows.py:146-148 | A name without an extension just gets `_copia` appended |
| Files.Duplicar | actions_windows.py:140-151 | A missing source raises and changes nothing. A success returns the target next to the source, under the given name or the `_copia` name. A file duplicate succeeds exactly when the copy can be written and then holds the source's content. A folder duplicate succeeds exactly when no entry is blocked, and then reproduces the subtree; an entry that is no copy's target keeps its node and every new path is on the target's path or a copy's target. Nothing outside the target changes, and the tree stays well formed |
| Files.DuplicarFile | actions_windows.py:140-151 | Duplicating a file under any name whose target is neither a folder nor the file itself creates that sibling with the same content and changes nothing else |
| Files.DuplicarSameName | actions_windows.py:140-151 | Duplicating a file under its own name fails with `SameFileError` and changes nothing |
| Files.DuplicarFolder | actions_windows.py:140-151 | Duplicating a folder to a name not yet taken succeeds, and the whole subtree appears under the new name with the same nodes |
| Files.DefaultDuplicateIsNew | actions_windows.py:146-148 | Without a new name, the target is the `_copia` sibling, which is never the source itself |
| TrashBin.Candidates | actions_windows.py:682 | The candidates are exactly the trash entries whose names end with `_` + the requested name |
| TrashBin.Newest | actions_windows.py:684-687 | No candidate means `None`. Otherwise the result is a candidate that no other candidate exceeds in string order, as `sorted(...)[-1]` picks |
| TrashBin.Restaurar | actions_windows.py:680-694 | A missing trash raises `FileNotFoundError`, a trash that is a file raises `NotADirectoryError`, and no matching entry raises. With a match, the restore succeeds exactly when `shutil.move` of the newest match succeeds, and otherwise raises the move's error. A restore moves the newest match to the desktop (or `destino`) under the original name |
| TrashBin.SuffixMatchIsLoose | actions_windows.py:682 | Asking for `b.txt` also matches an entry that was trashed as `x_b.txt` |
| TrashBin.TrashChildAfterDelete | actions_windows.py:132-138 | After the deletion, a trash slot is taken exactly when it holds the new entry or held an older entry other than the deleted path |
| TrashBin.ListingAfterDelete | actions_windows.py:682 | A listing of the trash taken right after the deletion names exactly the new entry and the older entries other than the deleted path |
| TrashBin.NewestAfterDelete | actions_windows.py:682-687 | Right after an entry is trashed, it is the newest match for its name in any listing of the trash taken then, provided the stamp is later than older entries' stamps |
| TrashBin.EliminarThenRestaurar | actions_windows.py:680-694 | Sending a path to the trash and then restoring it by name brings its whole subtree back at `Desktop/<basename>`, not at its original place, and every path outside the deleted subtree is unchanged |
| TrashBin.TrashItems | actions_windows.py:699-705 | Lists exactly the files among the trash entries, each with its name, modification time and UTF-8 size |
| TrashBin.ListarPapelera | actions_windows.py:696-706 | Fails exactly when the trash folder is not a directory. Otherwise every item listed is a file in the trash |
| TrashBin.ListarPapeleraComplete | actions_windows.py:696-706 | Every file in the trash appears in the listing |
| Search.MatchingLines | actions_windows.py:600-602 | The line numbers listed are 1-based and strictly increasing. Each names a matching line, and every matching line is listed |
| Search.LineNumbersMeaning | actions_windows.py:599-603 | At most ten numbers, increasing, each a line containing the lowered text. Fewer than ten means every such line is there |
| Search.Suffix | actions_windows.py:591 | `Path.suffix`: empty, or a dot followed by no dot, ending the name and shorter than it. When the last dot is neither the first nor the last character, the suffix is exactly the text from that dot |
| Search.SearchFiles | actions_windows.py:589-606 | Fails exactly when the extension filter cannot be tested on some walked file. Otherwise every hit is a filtered file containing the text with its lines, and every such file is reported |
| Search.BuscarTexto | actions_windows.py:580-608 | A missing root raises. Otherwise the search runs with the effective extension list |
| Search.EffectiveExtensions | actions_windows.py:583 | An empty or missing extension list becomes the default list, which is never empty |
| Search.DefaultExtensionsJson | actions_windows.py:583 | The default list holds exactly the six default extensions |
| Search.BuscarTextoExact | actions_windows.py:580-608 | A walked file is reported if and only if its lowered suffix is accepted and its lowered content contains the lowered text |
| Search.DefaultExtensionFilter | actions_windows.py:583-593 | With no list given, a file is accepted exactly when its lowered suffix is one of the defaults |
| Search.DefaultExtensionExamples | actions_windows.py:591-593 | `notas.TXT` is searched by default and `Makefile` is not |
| Search.StringExtensionsQuirk | actions_windows.py:592 | A string passed as the list is tested by substring, so the empty suffix of `Makefile` is accepted by `".py"` |
| Search.ReportedFileHasLine | actions_windows.py:598-603 | A file reported as matching has at least one listed line, and the first one contains the text |
| Scaffold.TemplatesDistinct | actions_windows.py:621-633 | Every template creates entries with pairwise distinct names |
| Scaffold.CrearProyecto | actions_windows.py:614-635 | A success returns the project root. A file on the root's path makes it fail with nothing changed. Otherwise the root is a folder afterwards, the tree stays well formed, and paths not strictly below the root keep their nodes. When nothing existed below the root, the call succeeds and the root holds exactly the template's entries, each with its content |
| Scaffold.BasicTemplateIsReadme | actions_windows.py:632-633 | `basico`, and any unknown template such as `vue`, writes only the README |
| ActionLog.GuardarLog | actions_windows.py:653-678 | Only the day's log file and its folders can change. Without an error, the prior log was a list and the file exists afterwards |
| ActionLog.DaysApart | actions_windows.py:658 | Different days write different files |
| ActionLog.CorruptLogDiscarded | actions_windows.py:667-673 | An undecodable log file is replaced by a list holding only the new entry |
| ActionLog.NonListLogKept | actions_windows.py:671-675 | A log holding a dictionary makes `append` raise, and the file is left as it was |
| ActionLog.LogAllAppends | actions_windows.py:653-678 | A sequence of log calls on the same day leaves the prior entries followed by one entry per call, in order, for every log and parameters that `json.load` can return (no dictionary repeats a key) |
| ActionLog.AppendEntryNoDupKeys | actions_windows.py:660-665 | The entry written for a call binds each of its four keys once, so the list after appending it still decodes to itself |
| ActionLog.OtherDayUntouched | actions_windows.py:658-678 | Logging never changes another day's file |
| Browser.Candidates | actions_windows.py:169-180 | The ten candidate paths in the source's order |
| Browser.FirstMatch | actions_windows.py:183-210 | The first candidate whose lowered path contains the marker and that exists, or `None` exactly when there is none |
| Browser.LookupSound | actions_windows.py:164-212 | A path found is one of the candidates, or the bare `chrome.exe` when `where chrome` succeeds, and it exists |
| Browser.UnknownBrowser | actions_windows.py:182-212 | A name mentioning no known browser finds nothing |
| Browser.UserChromeFirst | actions_windows.py:183-186 | For Chrome, the per-user install wins when present |
| Browser.BraveMatchesChromeInProfile | actions_windows.py:195-198 | As written, with a profile folder `Bravermann`, asking for Brave returns the per-user Chrome executable |
| Browser.FirstOfKind | actions_windows.py:195-198 | The corrected lookup returns only a candidate of the requested browser that exists |
| Browser.FixedBraveIsBrave | actions_windows.py:195-198 | The corrected lookup for Brave only ever returns a Brave candidate |
| Browser.FixedBraveInProfile | actions_windows.py:195-198 | In the profile above, the corrected lookup returns the Brave install |
| Browser.FixedBraveFindsProfileBrave | actions_windows.py:169-198 | Whenever a Brave install exists in the user's profile, the corrected lookup for Brave returns it, whatever else is installed |
| Browser.AbrirApp | actions_windows.py:214-247 | A found browser is one launch. Anything else gives three launch attempts, each a fallback tried only when the one before it raised |
| Browser.AbrirAppPlainName | actions_windows.py:226-247 | A name mentioning no browser is launched unchanged: by the shell, through `where`, then with `start` |
| Browser.AbrirAppFoundBrowser | actions_windows.py:220-224 | A browser that was found is started from its path and nothing else is tried |
| Browser.AbrirAppChromeNotFound | actions_windows.py:226-236 | A Chrome that was not found is first tried as `chrome.exe` |
| Browser.NormaliseIdempotent | actions_windows.py:226-234 | Normalising an already normalised name changes nothing |
| Browser.NormaliseFirstRuleWins | actions_windows.py:227-228 | A name mentioning Chrome and Firefox becomes `chrome.exe`: the rules are tried in order |
| Browser.NormaliseBraveAnyName | actions_windows.py:233-234 | Any name mentioning Brave becomes `brave.exe` |
| Browser.NormaliseOtherName | actions_windows.py:226-234 | Other names are kept |
| Urls.Utf8RoundTrip | actions_windows.py:304 | The UTF-8 encoding that `quote` applies decodes back to the text |
| Urls.Utf8Length | actions_windows.py:59 | The UTF-8 byte count used as the file size is the length of the encoding |
| Urls.QuoteRoundTrip | actions_windows.py:304 | `urllib.parse.quote` is undone by percent-decoding followed by UTF-8 decoding |
| Urls.QuoteInjective | actions_windows.py:304 | Different queries give different quoted strings |
| Urls.QuoteAlphabet | actions_windows.py:304-305 | The quoted query holds only unreserved characters, `/`, `%` and hex digits: no space, `&`, `+`, `#` or `?` |
| Urls.QuoteExamples | actions_windows.py:304 | `lo fi/2` becomes `lo%20fi/2`, and `ñ` becomes `%C3%B1` |
| Urls.YoutubeUrl | actions_windows.py:305 | The URL starts with the YouTube search prefix |
| Urls.YoutubeUrlRecoversQuery | actions_windows.py:304-305 | The part after the prefix unquotes to the query |
| Urls.GoogleUrl | actions_windows.py:299 | The URL starts with the Google search prefix |
| Urls.GoogleUrlRecoversQuery | actions_windows.py:299 | For a query without `+`, the URL has no space, and turning `+` back into spaces gives the query |
| Urls.GoogleUrlQuirks | actions_windows.py:299 | Without quoting, `c++` and `c  ` give the same URL and `&` passes through |
| Media.FirstRule | actions_windows.py:346-363 | The `if`/`elif` chain: the first rule with a word in the text, or none exactly when no rule matches |
| Media.Decide | actions_windows.py:343-363 | The effect is that of the earliest matching rule, and `None` exactly when nothing matches |
| Media.Control | actions_windows.py:329-413 | Without pyautogui, `ImportError` and no effect. Otherwise, after opening the site, the matched key or click, or `ValueError` exactly when nothing matches |
| Media.ControlSpotify | actions_windows.py:489-516 | A matched command presses its key. Any other command opens Spotify, and raises only when it asks for a search |
| Media.YoutubePlaylistIsSpace | actions_windows.py:348-355 | `playlist` presses space, because it contains `play` |
| Media.PlayShadowsPlaylist | actions_windows.py:346-355 | Every YouTube command mentioning `play` presses space |
| Media.TiktokLikeIsDoubleClick | actions_windows.py:379-386 | A TikTok `like` is a double click |
| Media.UnmatchedRaises | actions_windows.py:404-413 | An Instagram command matching no rule raises `ValueError` after the site was opened |
| Media.SpotifySearchRaises | actions_windows.py:509-516 | `buscar jazz` opens Spotify and then raises `NotImplementedError`, while `abrir` only opens it |
| Dispatch.Invoke | app.py:43-45 | Exactly one operation runs. Its returned value builds the reply, and an exception becomes the error outcome |
| Dispatch.ItemsAt | app.py:56-57 | `item["nombre"]` over the items: fails exactly when some item cannot be indexed by the key |
| Dispatch.Texts | app.py:56-57 | The names that `"\n".join(...)` joins: fails exactly when some value is not a string, and otherwise gives every value's text in order |
| Dispatch.FileActions | app.py:41-121 | Runs at most one operation, and the world changes only through it. A routed action follows its route: the route's operation with the route's arguments when the needed parameters are true, and the route's message with nothing run when one is not. `none` gives the answer and an unknown action the refusal |
| Dispatch.SystemActions | app.py:124-155 | For every action this branch handles, runs the route's operation with its arguments exactly when the needed parameters are true, and otherwise only the route's message. At most one operation runs, and its exception becomes the error reply |
| Dispatch.WebActions | app.py:158-194 | For every action this branch handles, runs the route's operation with its arguments exactly when the needed parameters are true, and otherwise only the route's message. At most one operation runs, and its exception becomes the error reply |
| Dispatch.PlatformActions | app.py:197-225 | For every action this branch handles, runs the route's operation with its arguments exactly when the needed parameters are true, and otherwise only the route's message. At most one operation runs, and its exception becomes the error reply |
| Dispatch.OfficeActions | app.py:228-255 | For every action this branch handles, runs the route's operation with its arguments exactly when the needed parameters are true, and otherwise only the route's message. At most one operation runs, and its exception becomes the error reply |
| Dispatch.IntegrationActions | app.py:258-300 | For every action this branch handles, runs the route's operation with its arguments exactly when the needed parameters are true, and otherwise only the route's message. At most one operation runs, and its exception becomes the error reply |
| Dispatch.DevActions | app.py:303-373 | For every action this branch handles, runs the route's operation with its arguments exactly when the needed parameters are true, and otherwise only the route's message. At most one operation runs, and its exception becomes the error reply |
| Dispatch.Body | app.py:39-373 | The whole `if`/`elif` chain: a routed action follows its route, `none` answers, and an unknown or non-string action gives the refusal. At most one operation runs, and its exception becomes the error reply |
| Dispatch.EjecutarAccion | app.py:33-389 | A non-dictionary intent escapes with `AttributeError`, and nothing runs or is logged. Otherwise one log call records action, params and reply. A routed action calls its route's operation with the route's arguments exactly when the needed parameters are true, and otherwise replies with the route's message. Its exception gives `❌ Error al ejecutar la acción: …` |
| Dispatch.CrearCarpetaBranch | app.py:41-51 | `crear_carpeta`: a true `ruta` calls `crear_carpeta(ruta)`; otherwise `crear_carpeta_en_escritorio(nombre)` with `CarpetaIA` as default. A non-dictionary `params` raises before any call, at most one operation runs, and its exception becomes the error reply |
| Dispatch.ListarCarpetaBranch | app.py:52-60 | `listar_carpeta(ruta, filtro)` is called with both parameters as given. A non-dictionary `params` raises before any call, at most one operation runs, and its exception becomes the error reply |
| Dispatch.LeerArchivoBranch | app.py:61-67 | `leer_archivo(ruta)` is called with `ruta` as given. A non-dictionary `params` raises before any call, at most one operation runs, and its exception becomes the error reply |
| Dispatch.CrearTxtBranch | app.py:68-76 | `crear_txt(ruta, contenido)` runs exactly when `ruta` is true; otherwise the missing-path message and nothing runs. A non-dictionary `params` raises before any call, at most one operation runs, and its exception becomes the error reply |
| Dispatch.EditarArchivoBranch | app.py:77-86 | `editar_archivo(ruta, contenido, modo)` runs exactly when `ruta` is true, with the default content and mode. A non-dictionary `params` raises before any call, at most one operation runs, and its exception becomes the error reply |
| Dispatch.CopyMoveBranch | app.py:87-104 | Copy or move runs exactly when both `origen` and `destino` are true; otherwise the missing-ends message and nothing runs. A non-dictionary `params` raises before any call, at most one operation runs, and its exception becomes the error reply |
| Dispatch.EliminarBranch | app.py:105-113 | `eliminar(ruta, permanente)` runs exactly when `ruta` is true, with `permanente` defaulting to false. A non-dictionary `params` raises before any call, at most one operation runs, and its exception becomes the error reply |
| Dispatch.DuplicarBranch | app.py:114-122 | `duplicar(ruta, nuevo_nombre)` runs exactly when `ruta` is true. A non-dictionary `params` raises before any call, at most one operation runs, and its exception becomes the error reply |
| Dispatch.AbrirCarpetaBranch | app.py:124-131 | `abrir_carpeta(ruta)` runs exactly when `ruta` is true. A non-dictionary `params` raises before any call, at most one operation runs, and its exception becomes the error reply |
| Dispatch.AbrirAppBranch | app.py:132-139 | `abrir_app(nombre)` runs exactly when `nombre` is true. A non-dictionary `params` raises before any call, at most one operation runs, and its exception becomes the error reply |
| Dispatch.CerrarAppBranch | app.py:140-147 | `cerrar_app` calls `cerrar_app_por_nombre(nombre)` exactly when `nombre` is true. A non-dictionary `params` raises before any call, at most one operation runs, and its exception becomes the error reply |
| Dispatch.ScreenshotBranch | app.py:152-156 | `tomar_screenshot(ruta)` is called with `ruta` as given. A non-dictionary `params` raises before any call, at most one operation runs, and its exception becomes the error reply |
| Dispatch.AbrirUrlBranch | app.py:158-167 | `abrir_url(url, navegador)` runs exactly when `url` is true. A non-dictionary `params` raises before any call, at most one operation runs, and its exception becomes the error reply |
| Dispatch.BuscarGoogleBranch | app.py:168-177 | `buscar_google(consulta)` runs exactly when `consulta` is true. A non-dictionary `params` raises before any call, at most one operation runs, and its exception becomes the error reply |
| Dispatch.BuscarYoutubeBranch | app.py:178-187 | `buscar_youtube(consulta, navegador)` runs exactly when `consulta` is true. A non-dictionary `params` raises before any call, at most one operation runs, and its exception becomes the error reply |
| Dispatch.YoutubeInBrowserBranch | app.py:188-195 | `abrir_youtube_en_navegador(navegador)` runs exactly when `navegador` is true. A non-dictionary `params` raises before any call, at most one operation runs, and its exception becomes the error reply |
| Dispatch.ControlBranch | app.py:197-226 | The YouTube, TikTok and Instagram controls run exactly when `accion` is true. A non-dictionary `params` raises before any call, at most one operation runs, and its exception becomes the error reply |
| Dispatch.GoogleDocBranch | app.py:228-236 | `crear_doc_google_docs` runs exactly when `nombre` is true. A non-dictionary `params` raises before any call, at most one operation runs, and its exception becomes the error reply |
| Dispatch.DocxBranch | app.py:237-246 | `crear_docx` runs exactly when `ruta` is true. A non-dictionary `params` raises before any call, at most one operation runs, and its exception becomes the error reply |
| Dispatch.PptBranch | app.py:247-256 | `crear_ppt` runs exactly when `ruta` is true. A non-dictionary `params` raises before any call, at most one operation runs, and its exception becomes the error reply |
| Dispatch.SpotifyBranch | app.py:266-273 | `control_spotify(accion)` runs exactly when `accion` is true. A non-dictionary `params` raises before any call, at most one operation runs, and its exception becomes the error reply |
| Dispatch.PromptBranch | app.py:274-293 | The ChatGPT and Gemini prompt senders run exactly when `prompt` is true. A non-dictionary `params` raises before any call, at most one operation runs, and its exception becomes the error reply |
| Dispatch.CursorBranch | app.py:294-301 | `enviar_prompt_cursor(prompt)` runs exactly when `prompt` is true. A non-dictionary `params` raises before any call, at most one operation runs, and its exception becomes the error reply |
| Dispatch.SearchBranch | app.py:303-320 | `buscar_texto_en_archivos` runs exactly when both `ruta` and `texto` are true. A non-dictionary `params` raises before any call, at most one operation runs, and its exception becomes the error reply |
| Dispatch.ProjectBranch | app.py:321-330 | `crear_proyecto(nombre, template, ruta)` runs exactly when `nombre` is true, with the `basico` template by default. A non-dictionary `params` raises before any call, at most one operation runs, and its exception becomes the error reply |
| Dispatch.VscodeBranch | app.py:331-335 | `abrir_vscode(ruta)` is called with `ruta` as given. A non-dictionary `params` raises before any call, at most one operation runs, and its exception becomes the error reply |
| Dispatch.CommandBranch | app.py:336-347 | `ejecutar_comando(comando, directorio)` runs exactly when `comando` is true. A non-dictionary `params` raises before any call, at most one operation runs, and its exception becomes the error reply |
| Dispatch.RestoreBranch | app.py:359-368 | `restaurar_desde_papelera(nombre_archivo, destino)` runs exactly when `nombre_archivo` is true. A non-dictionary `params` raises before any call, at most one operation runs, and its exception becomes the error reply |
| Dispatch.RouteOperation | app.py:41-368 | The operation each routed action calls is the action's own name, except `cerrar_app` calls `cerrar_app_por_nombre`, `cerrar_ventana` calls `cerrar_ventana_activa`, and `crear_carpeta` without a true `ruta` calls `crear_carpeta_en_escritorio` |
| Dispatch.RoutedActionCallsItsOperation | app.py:33-389 | For a routed action with dictionary parameters, `ejecutar_accion` runs nothing exactly when a needed parameter is not true, and otherwise runs exactly one operation, the one named above |
| Dispatch.NoActionAnswers | app.py:369-370 | An intent without `action` returns its `answer` or the default text, and runs nothing |
| Dispatch.UnknownActionInvokesNothing | app.py:372-381 | An unknown action runs no operation. It answers `❌ Acción desconocida: …` and is still logged |
| Dispatch.CrearTxtNeedsRuta | app.py:68-75 | `crear_txt` without a true `ruta` answers with its own message and runs nothing |
| Dispatch.CopyMoveNeedBothEnds | app.py:87-103 | Copy and move without both ends answer with their message and run nothing |
| Dispatch.CrearCarpetaDefault | app.py:46-50 | `crear_carpeta` without `ruta` or `nombre` creates `CarpetaIA` on the desktop |
| Dispatch.LogNeverChangesReply | app.py:375-389 | What the log call does never changes the reply or the operations run |
| Dispatch.TruncatedShape | app.py:64-66 | Texts up to 500 characters are kept. Longer ones become their first 500 characters plus the truncation marker |
| Dispatch.TruncatedIgnoresTail | app.py:64-66 | Two long texts that agree on their first 500 characters are shown the same |
| Dispatch.ListingReplyShape | app.py:52-59 | The listing reply names the first 20 entries, in order |
| Dispatch.ListingNames | app.py:56-57 | The first 20 names are collected exactly, in order |
| Chat.Batch | app.py:409-422 | Every action of the batch gets one numbered entry |
| Chat.BatchAppend | app.py:411-420 | Running a batch in two parts, with the numbering and the world carried over, is running it whole |
| Chat.NumberedAppend | app.py:411-420 | The same split holds whatever text each numbered entry is written as |
| Chat.BatchNumbering | app.py:412-418 | Entry `k` reports action `k + 1`, run on the world that the earlier actions left |
| Chat.BatchFirst | app.py:411-418 | The first entry reports the first action run on the initial world |
| Chat.RunBatch | app.py:411-420 | The loop computes exactly the batch entries, operations and final world |
| Chat.ErrorReplyMarkedDone | app.py:415-418 | An action that answered with `❌ …` is still listed with `✅` |
| Chat.DoneReplyRenumbered | app.py:415-418 | A `✅ …` reply has its own mark and blanks removed before the numbered mark is added |
| Chat.ContextValue | app.py:396-401 | A missing or empty context is an empty history. A context that decodes gives the decoded value, and one that does not decode gives an empty history |
| Chat.ChatEndpoint | app.py:391-440 | A failure of the brain becomes the 500 detail `Error al procesar el mensaje: …`, and nothing runs. Otherwise the operations and the world are the routing's; its reply is returned on success, and its exception becomes the 500 detail |
| Chat.ActionsTakePrecedence | app.py:409-422 | A non-empty `actions` list runs every action in order and replies with the numbered summary |
| Chat.NoneIsAnswered | app.py:423-427 | Action `none` returns the answer and runs nothing |
| Chat.SingleActionDispatched | app.py:428-430 | Any other single action is exactly one `ejecutar_accion` call |
| Chat.InvalidFormatReply | app.py:431-436 | Without `action`, `answer` or a usable `actions` list, the reply quotes the first 200 characters of the intent |
| Chat.InvalidFormatNeedsActions | app.py:431-436 | Every intent the brain hands over holds `action` or `actions` |
| Brain.Pairs | brain_lmstudio.py:267-270 | One user and one assistant message per history item. Fails exactly when an item is not a dictionary |
| Brain.PairsContent | brain_lmstudio.py:268-270 | Message `2i` is item `i`'s `user` text and message `2i+1` its `assistant` text, empty when missing |
| Brain.BuildMessages | brain_lmstudio.py:264-273 | The messages open with the system prompt and close with the user's text |
| Brain.BuildMessagesLayout | brain_lmstudio.py:264-273 | With a history, the system prompt comes first, then the history pairs in order, then the user's text |
| Brain.BuildMessagesRejects | brain_lmstudio.py:268-270 | A history item that is not a dictionary makes the call fail |
| Brain.RemoveTokens | brain_lmstudio.py:289 | Removing `<\|…\|>` tokens never lengthens the text |
| Brain.NoTokenUnchanged | brain_lmstudio.py:289 | A text without a token is unchanged |
| Brain.RemoveTokensExample | brain_lmstudio.py:287-289 | `<\|x\|>{}` becomes `{}` |
| Brain.RemoveTokensSinglePass | brain_lmstudio.py:289 | Removal is one left-to-right pass, so a token formed by the removal survives |
| Brain.StripFences | brain_lmstudio.py:292-297 | The result is the text with at most the opening fence and the closing fence cut off, and text without a fence at either end is unchanged |
| Brain.JsonFenceRoundTrip | brain_lmstudio.py:292-297 | A text wrapped in a ```` ```json ```` fence and a closing fence comes back exactly |
| Brain.BareFenceRoundTrip | brain_lmstudio.py:294-297 | A text wrapped in bare ```` ``` ```` fences comes back exactly, when it does not itself start with `json` |
| Brain.NoFenceUnchanged | brain_lmstudio.py:292-297 | A text that neither starts nor ends with a backtick is not changed by the fence removal |
| Brain.StripFencesExamples | brain_lmstudio.py:292-297 | Fenced JSON loses its fences, and unfenced text is kept |
| Brain.ExtractObjectLoop | brain_lmstudio.py:301-311 | The brace-counting loop computes the first balanced object from the first `{` |
| Brain.CloseIsFirstZero | brain_lmstudio.py:304-311 | The loop stops at the first position where the depth returns to zero, or finds none exactly when it never does |
| Brain.ExtractObjectUnbalanced | brain_lmstudio.py:301-311 | An object that never closes leaves the text unchanged |
| Brain.ExtractObjectShape | brain_lmstudio.py:301-311 | An object that closes is extracted from `{` to the matching `}`: its depth is zero and no proper prefix closes it |
| Brain.Cleanup | brain_lmstudio.py:285-316 | The cleaned text has no blank at either end. When brace counting finds a balanced object after the tokens and fences are removed, the result is exactly that object |
| Brain.FinalStrip | brain_lmstudio.py:313-316 | The last `strip` / backtick trimming leaves no blank at either end and passes a text from `{` to `}` through unchanged |
| Brain.BalancedObjectCloses | brain_lmstudio.py:301-311 | For a balanced object, brace counting closes at its last character |
| Brain.CleanupKeepsObject | brain_lmstudio.py:285-316 | A balanced object without `\|` comes out of the clean-up exactly as it went in |
| Brain.CleanupUnfencesObject | brain_lmstudio.py:285-316 | The same object inside a ```` ```json ```` fence comes out of the clean-up without the fence |
| Brain.IsIntent | brain_lmstudio.py:321 | `"action" in parsed` raises exactly for numbers, booleans and `null` |
| Brain.Interpret | brain_lmstudio.py:318-341 | The result is always an intent holding `action` or `actions`, and it fails exactly when the decoded value cannot be tested with `in`. A decoded intent is returned as it is, and any other decoded value becomes the plain answer holding the text |
| Brain.NoneShapeIsIntent | brain_lmstudio.py:325 | The plain-answer fallback is an intent |
| Brain.AskBrain | brain_lmstudio.py:263-341 | A successful call returns an intent holding `action` or `actions` |
| Brain.DecodeErrorNeverEscapes | brain_lmstudio.py:326-341 | Text that does not decode never raises: the brace slice is retried, then the text becomes a plain answer |
| Brain.NonIntentBecomesAnswer | brain_lmstudio.py:323-325 | A decoded value without `action` or `actions` turns into a plain answer holding the text |
| Brain.RetryFindsSlice | brain_lmstudio.py:328-336 | When the text fails to decode but the slice from the first `{` to the last `}` decodes to an intent, that intent is returned |
| PyValue.Lookup | app.py:35-36 | A key is found exactly when some entry has it, and the value returned belongs to such an entry |
| PyValue.PyGet | app.py:35-36 | `.get` succeeds exactly on a dictionary, and a missing key gives the default |
| PyValue.PyIn | app.py:409 | `key in value` raises exactly for `None`, booleans and numbers; on a dictionary it tests the keys, on a list it tests for an equal string element, and on a string it tests for a substring |
| PyValue.PyGetItem | app.py:409-412 | `value[key]` succeeds exactly on a dictionary holding the key, and returns that key's value |
| PyValue.PyStr | app.py:384 | `str()` of a string is the string itself |
| Base.NatToString | app.py:418 | The f-string conversion of an entry's number: decimal digits, no leading zero unless the number is 0, whose decimal value is the number |
| Base.Strip | app.py:417 | `str.strip()`: the result is a slice of the text with no blank at either end, and a text without blanks at its ends is unchanged |
| Base.Split | actions_windows.py:599 | `str.split(c)`: at least one part, none holding `c`, and joining the parts with `c` gives the text back |

## Left out

- Side effects with no bearing on the logic are recorded as effects or invocations, not performed. These are launching programs, opening browsers, pressing keys, `taskkill`, `time.sleep` and the Spotify `Popen`.
- The office documents, Google Docs, screenshots and prompt senders are seen only as dispatcher invocations. Their bodies are third-party library calls (docx, pptx, PIL, Google APIs).
- `ejecutar_comando` output is treated the same way: the dispatcher sees only the value returned or the exception raised.
- The HTTP request to LM Studio is an oracle. So are `json.loads` and `json.dump`: the log proofs assume only that decoding undoes encoding.
- The system prompt is a parameter. Its text has no effect on the parsing.
- `Lower` folds only ASCII letters. Python's full Unicode case folding is not modelled.
- File contents are text. The `errors="ignore"` decoding of the search and the `UnicodeDecodeError` of `leer_archivo` are not modelled.
- Windows path syntax, drive letters and separators are not modelled. A path is a sequence of components.
- Permissions, `PermissionError`, disk-full errors and concurrent changes to the disk are not modelled.
- The megabyte figure in the over-size message of `leer_archivo` is a float and is not reproduced. The model keeps the size check itself.
- An operation oracle that returns a value of the wrong shape for the reply template gives the message `Unexpected` rather than the exact Python exception text.
- The order of directory listings and walks is a parameter, constrained only to list each child once.
- Timestamps and dates are strings supplied by the caller. The clock is not modelled.
- `main.py`, `stt_groq.py` and the `/stt` endpoint are outside the action core and are not part of this model.
- Files.ListarCarpeta: for a filter starting with `.`, the model follows the code, which drops folders from the listing, rather than the documented intent of filtering only files.
- Browser.AbrirApp: its own contract states only the number of launch attempts, which are fallbacks tried in order. The launch contents are stated by AbrirAppPlainName, AbrirAppFoundBrowser and AbrirAppChromeNotFound.
- Brain.RemoveTokens: its contract states only that the text never grows. Exact behaviour is stated by NoTokenUnchanged and the two example lemmas.
- Fs.CopyTree: when the destination lies inside the source, Python lists a folder after entries were already written into it and may copy those again; the model copies from the tree as it was when the call started.
- `PyValue.Json` has no floating-point numbers. A float in the model's reply or in a log file is outside the model.
- PyValue.Lookup: with a duplicated key the first entry wins, while `json.loads` keeps the last one. A decoded dictionary with duplicated keys is therefore not modelled faithfully.
- File sizes (actions_windows.py:59, 79 and 704) are the UTF-8 length of the text. On Windows, text-mode writes turn each `\n` into `\r\n`, so the size on disk is larger by the number of line breaks; this is not modelled.
- PyValue.ReprStr: it escapes only the quote, the backslash and ASCII control characters. Python's `repr` also escapes other non-printable characters, such as `'\xa0'`, which the model leaves as they are.
- ActionLog.GuardarLog: it takes `accion` and `resultado` as strings, as the source's annotations say. The dispatcher's log record (`Dispatch.LogRecord`) holds JSON values, and the dispatcher sees the log only as an oracle, so a non-string action written to the log file is not modelled.

## Findings

| source | as written | input that shows it | evidently intended | confidence | as-written member | corrected member |
|---|---|---|---|---|---|---|
| actions_windows.py:195-198 | Brave is recognised by `"brave" in ruta.lower()` over the whole candidate path, and the per-user Chrome path comes first and contains the user's profile folder | user profile `C:\Users\Bravermann` with Chrome installed per user: `encontrar_navegador("brave")` returns that Chrome executable | only a Brave executable is returned for Brave | not executed | Browser.BraveMatchesChromeInProfile | Browser.FixedBraveIsBrave |

=== FILE: actionlog.dfy ===
/**
  `guardar_log`: the daily, append-only log of executed actions.  Each call
  adds one entry to `~/.jarvis/logs/actions_<day>.json`, a JSON list; a log
  that is missing or cannot be read or decoded counts as empty.

  The clock is two strings (the day stamp `%Y%m%d` and the ISO timestamp);
  the JSON encoder and decoder are parameters.
 */
module ActionLog {
  import opened Base
  import opened Fs
  import opened PyValue
  import opened Files

  function LogDir(env: Env): Path
  {
    env.home + [".jarvis", "logs"]
  }

  function LogFile(env: Env, day: string): Path
  {
    LogDir(env) + ["actions_" + day + ".json"]
  }

  /** The dictionary appended for one action. */
  function LogEntry(now: string, accion: string, params: Json, resultado: string): Json
  {
    JDict([("timestamp", JStr(now)), ("accion", JStr(accion)), ("params", params), ("resultado", JStr(resultado))])
  }

  /** Why logging fails: the file system refuses, or the old log is not a list. */
  datatype LogError = FileError(error: FsError) | NotAppendable(message: string)

  /** The file system after the call, and the exception it raised, if any. */
  datatype Logged = Logged(fs: FS, error: Option<LogError>)

  /**
    The log as the next call reads it: the decoded file, or an empty list when
    the file is missing, is not a regular file, or does not decode.
   */
  function PriorLog(fs: FS, file: Path, decode: string -> Option<Json>): Json
  {
    if IsFile(fs, file) then
      match decode(fs[file].content)
      case Some(v) => v
      case None => JList([])
    else JList([])
  }

  /**
    The encoder and the decoder agree: whatever is written reads back, for
    every value without repeated keys (the only values `json.load` returns).
   */
  ghost predicate RoundTrip(decode: string -> Option<Json>, encode: Json -> string)
  {
    forall j | NoDupKeys(j) :: decode(encode(j)) == Some(j)
  }

  /** `guardar_log(accion, params, resultado)` */
  function GuardarLog(fs: FS, env: Env, day: string, now: string,
                      decode: string -> Option<Json>, encode: Json -> string,
                      accion: string, params: Json, resultado: string): (r: Logged)
    ensures Valid(fs) ==> Valid(r.fs)
    ensures forall q | q in fs && q != LogFile(env, day) :: q in r.fs && r.fs[q] == fs[q]
    ensures forall q | q in r.fs && q !in fs :: q <= LogFile(env, day)
    ensures Valid(fs) ==>
      (r.error.None? <==> NoFileOnPath(fs, LogDir(env)) && !IsDir(fs, LogFile(env, day))
                          && PriorLog(fs, LogFile(env, day), decode).JList?)
    ensures r.error.None? ==> PriorLog(fs, LogFile(env, day), decode).JList? && IsFile(r.fs, LogFile(env, day))
    ensures r.error.None? ==>
      r.fs[LogFile(env, day)].content == encode(JList(PriorLog(fs, LogFile(env, day), decode).items + [LogEntry(now, accion, params, resultado)]))
  {
    var dir := LogDir(env);
    var file := LogFile(env, day);
    assert Parent(file) == dir;
    match Mkdirs(fs, dir)
    case Err(e) => Logged(fs, Some(FileError(e)))
    case Ok(fs1) =>
      assert !(file <= dir);
      assert IsFile(fs1, file) == IsFile(fs, file) && (IsFile(fs, file) ==> fs1[file] == fs[file]);
      var logs := PriorLog(fs1, file, decode);
      if !logs.JList? then Logged(fs1, Some(NotAppendable(NoAttribute(logs, "append"))))
      else
        match WriteFile(fs1, file, encode(JList(logs.items + [LogEntry(now, accion, params, resultado)])))
        case Err(e) => Logged(fs1, Some(FileError(e)))
        case Ok(fs2) => Logged(fs2, None)
  }

  // ---------------------------------------------------------------------------
  // Properties
  // ---------------------------------------------------------------------------

  /** A log file name determines its day, so two days never share a file. */
  lemma DaysApart(env: Env, d1: string, d2: string)
    requires d1 != d2
    ensures LogFile(env, d1) != LogFile(env, d2)
  {
    var n1 := "actions_" + d1 + ".json";
    var n2 := "actions_" + d2 + ".json";
    assert d1 == n1[8..|n1| - 5];
    assert d2 == n2[8..|n2| - 5];
    assert LogFile(env, d1)[|LogDir(env)|] == n1;
    assert LogFile(env, d2)[|LogDir(env)|] == n2;
  }

  /** A log that does not decode is discarded: the file then holds the new entry alone. */
  lemma CorruptLogDiscarded(fs: FS, env: Env, day: string, now: string,
                            decode: string -> Option<Json>, encode: Json -> string,
                            accion: string, params: Json, resultado: string)
    requires Valid(fs) && NoFileOnPath(fs, LogDir(env))
    requires IsFile(fs, LogFile(env, day)) && decode(fs[LogFile(env, day)].content).None?
    ensures var r := GuardarLog(fs, env, day, now, decode, encode, accion, params, resultado);
      && r.error.None?
      && r.fs[LogFile(env, day)] == File(encode(JList([LogEntry(now, accion, params, resultado)])))
  {
    assert [] + [LogEntry(now, accion, params, resultado)] == [LogEntry(now, accion, params, resultado)];
  }

  lemma DictHasNoAppend()
    ensures NoAttribute(JDict([]), "append") == "'dict' object has no attribute 'append'"
  {
    var m := NoAttribute(JDict([]), "append");
    assert m == "'" + "dict" + "' object has no attribute '" + "append" + "'";
    var e := "'dict' object has no attribute 'append'";
    assert |m| == |e|;
    forall i | 0 <= i < |m| ensures m[i] == e[i] {
    }
  }

  /**
    A log that decodes to something other than a list makes `logs.append`
    raise; the file is left as it was.
   */
  lemma NonListLogKept(fs: FS, env: Env, day: string, now: string,
                       decode: string -> Option<Json>, encode: Json -> string,
                       accion: string, params: Json, resultado: string)
    requires Valid(fs) && NoFileOnPath(fs, LogDir(env))
    requires IsFile(fs, LogFile(env, day)) && decode(fs[LogFile(env, day)].content) == Some(JDict([]))
    ensures var r := GuardarLog(fs, env, day, now, decode, encode, accion, params, resultado);
      && r.error == Some(NotAppendable("'dict' object has no attribute 'append'"))
      && r.fs[LogFile(env, day)] == fs[LogFile(env, day)]
  {
    DictHasNoAppend();
  }

  /** One action to be logged. */
  datatype Call = Call(now: string, accion: string, params: Json, resultado: string)

  function EntryOf(c: Call): Json
  {
    LogEntry(c.now, c.accion, c.params, c.resultado)
  }

  /** Every call's `params` came from `json.loads`, so none repeats a key. */
  predicate ParamsDecoded(calls: seq<Call>)
  {
    forall i | 0 <= i < |calls| :: NoDupKeys(calls[i].params)
  }

  /** A log entry repeats no key when its `params` does not, and appending it keeps a log free of repeats. */
  lemma AppendEntryNoDupKeys(xs: seq<Json>, c: Call)
    requires NoDupKeys(JList(xs)) && NoDupKeys(c.params)
    ensures NoDupKeys(EntryOf(c)) && NoDupKeys(JList(xs + [EntryOf(c)]))
  {
    var es := EntryOf(c).entries;
    assert es[0].0 == "timestamp" && es[1].0 == "accion" && es[2].0 == "params" && es[3].0 == "resultado";
    assert es[0].0[0] == 't' && es[1].0[0] == 'a' && es[2].0[0] == 'p' && es[3].0[0] == 'r';
    forall a, b | 0 <= a < b < |es| ensures es[a].0 != es[b].0 {
      assert es[a].0[0] != es[b].0[0];
    }
    var ys := xs + [EntryOf(c)];
    forall i | 0 <= i < |ys| ensures NoDupKeys(ys[i]) {
      if i < |xs| { assert ys[i] == xs[i]; }
    }
  }

  function Entries(calls: seq<Call>): (r: seq<Json>)
    ensures |r| == |calls|
    ensures forall i | 0 <= i < |calls| :: r[i] == EntryOf(calls[i])
  {
    seq(|calls|, i requires 0 <= i < |calls| => EntryOf(calls[i]))
  }

  lemma EntriesCons(xs: seq<Json>, calls: seq<Call>)
    requires |calls| > 0
    ensures (xs + [EntryOf(calls[0])]) + Entries(calls[1..]) == xs + Entries(calls)
  {
    assert Entries(calls) == [EntryOf(calls[0])] + Entries(calls[1..]);
  }

  /** Several actions logged on one day, each call seeing the file system the previous one left. */
  function LogAll(fs: FS, env: Env, day: string, decode: string -> Option<Json>, encode: Json -> string,
                  calls: seq<Call>): FS
    decreases |calls|
  {
    if |calls| == 0 then fs
    else
      var c := calls[0];
      LogAll(GuardarLog(fs, env, day, c.now, decode, encode, c.accion, c.params, c.resultado).fs,
             env, day, decode, encode, calls[1..])
  }

  /** The day's log can be appended to: its folder exists and it is not a folder itself. */
  predicate Ready(fs: FS, env: Env, day: string)
  {
    IsDir(fs, LogDir(env)) && !IsDir(fs, LogFile(env, day))
  }

  /** The first call of a day creates the log folder when needed and appends its entry. */
  lemma FirstCall(fs: FS, env: Env, day: string, decode: string -> Option<Json>, encode: Json -> string,
                  c: Call, xs: seq<Json>)
    requires Valid(fs) && RoundTrip(decode, encode)
    requires NoFileOnPath(fs, LogDir(env)) && !IsDir(fs, LogFile(env, day))
    requires PriorLog(fs, LogFile(env, day), decode) == JList(xs)
    requires NoDupKeys(JList(xs)) && NoDupKeys(c.params)
    ensures var r := GuardarLog(fs, env, day, c.now, decode, encode, c.accion, c.params, c.resultado).fs;
      && Ready(r, env, day)
      && PriorLog(r, LogFile(env, day), decode) == JList(xs + [EntryOf(c)])
  {
    AppendEntryNoDupKeys(xs, c);
    var file := LogFile(env, day);
    var g := GuardarLog(fs, env, day, c.now, decode, encode, c.accion, c.params, c.resultado);
    assert g.fs[file].content == encode(JList(xs + [EntryOf(c)]));
    assert LogDir(env) != file by { assert |LogDir(env)| < |file|; }
    if LogDir(env) in fs {
      assert g.fs[LogDir(env)] == fs[LogDir(env)];
      assert LogDir(env)[..|LogDir(env)|] == LogDir(env);
    } else {
      assert LogDir(env) <= LogDir(env) + [file[|file| - 1]];
      assert g.fs[LogDir(env)] == Dir;
    }
  }

  /** Once the folder exists, each call appends its entry and the log stays ready. */
  lemma NextCall(fs: FS, env: Env, day: string, decode: string -> Option<Json>, encode: Json -> string,
                 c: Call, xs: seq<Json>)
    requires Ready(fs, env, day) && RoundTrip(decode, encode)
    requires PriorLog(fs, LogFile(env, day), decode) == JList(xs)
    requires NoDupKeys(JList(xs)) && NoDupKeys(c.params)
    ensures var r := GuardarLog(fs, env, day, c.now, decode, encode, c.accion, c.params, c.resultado).fs;
      && Ready(r, env, day)
      && PriorLog(r, LogFile(env, day), decode) == JList(xs + [EntryOf(c)])
  {
    AppendEntryNoDupKeys(xs, c);
    var file := LogFile(env, day);
    assert Mkdirs(fs, LogDir(env)) == Ok(fs);
    assert Parent(file) == LogDir(env);
    var g := GuardarLog(fs, env, day, c.now, decode, encode, c.accion, c.params, c.resultado);
    assert LogDir(env) != file by { assert |LogDir(env)| < |file|; }
    assert g.fs[LogDir(env)] == fs[LogDir(env)];
  }

  /** Calls made once the folder exists append their entries in order. */
  lemma {:induction false} LogAllReady(fs: FS, env: Env, day: string,
                                       decode: string -> Option<Json>, encode: Json -> string,
                                       calls: seq<Call>, xs: seq<Json>)
    requires Ready(fs, env, day) && RoundTrip(decode, encode)
    requires PriorLog(fs, LogFile(env, day), decode) == JList(xs)
    requires NoDupKeys(JList(xs)) && ParamsDecoded(calls)
    ensures var r := LogAll(fs, env, day, decode, encode, calls);
      && Ready(r, env, day)
      && PriorLog(r, LogFile(env, day), decode) == JList(xs + Entries(calls))
    decreases |calls|
  {
    if |calls| == 0 {
      assert xs + Entries(calls) == xs;
    } else {
      var c := calls[0];
      NextCall(fs, env, day, decode, encode, c, xs);
      var fs1 := GuardarLog(fs, env, day, c.now, decode, encode, c.accion, c.params, c.resultado).fs;
      AppendEntryNoDupKeys(xs, c);
      assert ParamsDecoded(calls[1..]) by {
        forall i | 0 <= i < |calls[1..]| ensures NoDupKeys(calls[1..][i].params) { assert calls[1..][i] == calls[i + 1]; }
      }
      LogAllReady(fs1, env, day, decode, encode, calls[1..], xs + [EntryOf(c)]);
      EntriesCons(xs, calls);
    }
  }

  /**
    The log is append-only: when the encoder and decoder agree, the day's log
    after a run of calls is the old log followed by one entry per call, in
    call order.
   */
  lemma LogAllAppends(fs: FS, env: Env, day: string,
                      decode: string -> Option<Json>, encode: Json -> string,
                      calls: seq<Call>, xs: seq<Json>)
    requires Valid(fs) && RoundTrip(decode, encode)
    requires NoFileOnPath(fs, LogDir(env)) && !IsDir(fs, LogFile(env, day))
    requires PriorLog(fs, LogFile(env, day), decode) == JList(xs)
    requires NoDupKeys(JList(xs)) && ParamsDecoded(calls)
    ensures PriorLog(LogAll(fs, env, day, decode, encode, calls), LogFile(env, day), decode) == JList(xs + Entries(calls))
  {
    if |calls| == 0 {
      assert xs + Entries(calls) == xs;
    } else {
      var c := calls[0];
      FirstCall(fs, env, day, decode, encode, c, xs);
      var fs1 := GuardarLog(fs, env, day, c.now, decode, encode, c.accion, c.params, c.resultado).fs;
      AppendEntryNoDupKeys(xs, c);
      assert ParamsDecoded(calls[1..]) by {
        forall i | 0 <= i < |calls[1..]| ensures NoDupKeys(calls[1..][i].params) { assert calls[1..][i] == calls[i + 1]; }
      }
      LogAllReady(fs1, env, day, decode, encode, calls[1..], xs + [EntryOf(c)]);
      EntriesCons(xs, calls);
    }
  }

  /** Logging leaves every other day's log alone. */
  lemma OtherDayUntouched(fs: FS, env: Env, day: string, other: string, now: string,
                          decode: string -> Option<Json>, encode: Json -> string,
                          accion: string, params: Json, resultado: string)
    requires day != other && LogFile(env, other) in fs
    ensures var r := GuardarLog(fs, env, day, now, decode, encode, accion, params, resultado);
      LogFile(env, other) in r.fs && r.fs[LogFile(env, other)] == fs[LogFile(env, other)]
  {
    DaysApart(env, day, other);
  }
}

=== FILE: base.dfy ===
/**
  Shared vocabulary: optional values, results, and the handful of Python
  string operations the assistant relies on (`startswith`, `endswith`, `in`,
  `find`, `rfind`, `strip`, `lower`, `join`, `split`, `str(int)`).
 */
module Base {

  datatype Option<T> = None | Some(value: T)

  datatype Result<T, E> = Ok(value: T) | Err(error: E)

  function Min(a: int, b: int): int
  {
    if a <= b then a else b
  }

  // ---------------------------------------------------------------------------
  // Prefixes, suffixes, substrings
  // ---------------------------------------------------------------------------

  predicate StartsWith(s: string, prefix: string)
  {
    |prefix| <= |s| && s[..|prefix|] == prefix
  }

  predicate EndsWith(s: string, suffix: string)
  {
    |suffix| <= |s| && s[|s| - |suffix|..] == suffix
  }

  /** `t` occurs in `s` starting at index `i`. */
  predicate OccursAt(s: string, t: string, i: int)
  {
    0 <= i && i + |t| <= |s| && s[i..i + |t|] == t
  }

  /** Python's `t in s` on strings (the empty string occurs everywhere). */
  predicate Contains(s: string, t: string)
  {
    exists i :: 0 <= i <= |s| - |t| && OccursAt(s, t, i)
  }

  lemma ContainsWitness(s: string, t: string, i: int)
    requires OccursAt(s, t, i)
    ensures Contains(s, t)
  {
  }

  /** A text holding a character that `s` lacks does not occur in `s`. */
  lemma NotContainsByChar(s: string, t: string, c: char)
    requires c in t && c !in s
    ensures !Contains(s, t)
  {
  }

  /** Python's `s.find(c)` for one character: first index, or -1. */
  function Find(s: string, c: char): (r: int)
    ensures -1 <= r < |s|
    ensures r == -1 <==> c !in s
    ensures r >= 0 ==> s[r] == c && c !in s[..r]
  {
    if |s| == 0 then -1
    else if s[0] == c then 0
    else
      var k := Find(s[1..], c);
      assert s[1..][..if k < 0 then 0 else k] == s[1..if k < 0 then 1 else k + 1];
      if k == -1 then -1 else k + 1
  }

  /** Python's `s.rfind(c)` for one character: last index, or -1. */
  function RFind(s: string, c: char): (r: int)
    ensures -1 <= r < |s|
    ensures r == -1 <==> c !in s
    ensures r >= 0 ==> s[r] == c && c !in s[r + 1..]
  {
    if |s| == 0 then -1
    else if s[|s| - 1] == c then |s| - 1
    else
      var k := RFind(s[..|s| - 1], c);
      assert s == s[..|s| - 1] + [s[|s| - 1]];
      k
  }

  /** `s[i]` is the last `c` in `s`. */
  predicate LastAt(s: string, c: char, i: int)
  {
    0 <= i < |s| && s[i] == c && c !in s[i + 1..]
  }

  /** `RFind` reports the last occurrence. */
  lemma RFindLast(s: string, c: char)
    ensures forall i | LastAt(s, c, i) :: RFind(s, c) == i
  {
    forall i | LastAt(s, c, i) ensures RFind(s, c) == i {
      var k := RFind(s, c);
      assert s[i] in s;
      forall m | i < m < |s| ensures s[m] != c { assert s[i + 1..][m - i - 1] == s[m]; }
      forall m | k < m < |s| ensures s[m] != c { assert s[k + 1..][m - k - 1] == s[m]; }
    }
  }

  /** Python's `s[:n]` for a non-negative `n`. */
  function Take<T>(s: seq<T>, n: nat): (r: seq<T>)
    ensures |r| == Min(n, |s|)
    ensures r <= s
  {
    if n <= |s| then s[..n] else s
  }

  // ---------------------------------------------------------------------------
  // Character classes, stripping, case
  // ---------------------------------------------------------------------------

  /** The characters Python's `str.isspace()` accepts (and `str.strip()` removes). */
  predicate IsSpace(c: char)
  {
    var n := c as int;
    n == 0x20 || (0x09 <= n <= 0x0D) || (0x1C <= n <= 0x1F) || n == 0x85 || n == 0xA0
    || n == 0x1680 || (0x2000 <= n <= 0x200A) || n == 0x2028 || n == 0x2029
    || n == 0x202F || n == 0x205F || n == 0x3000
  }

  /** Number of leading characters of `s` that satisfy `drop`. */
  function LeadCount(s: string, drop: char -> bool): (k: nat)
    ensures k <= |s|
    ensures forall j :: 0 <= j < k ==> drop(s[j])
    ensures k < |s| ==> !drop(s[k])
  {
    if |s| == 0 || !drop(s[0]) then 0 else 1 + LeadCount(s[1..], drop)
  }

  /** Number of trailing characters of `s` that satisfy `drop`. */
  function TrailCount(s: string, drop: char -> bool): (k: nat)
    ensures k <= |s|
    ensures forall j :: |s| - k <= j < |s| ==> drop(s[j])
    ensures k < |s| ==> !drop(s[|s| - k - 1])
  {
    if |s| == 0 || !drop(s[|s| - 1]) then 0 else 1 + TrailCount(s[..|s| - 1], drop)
  }

  /** Python's `s.lstrip(chars)`. */
  function StripLeft(s: string, drop: char -> bool): string
  {
    s[LeadCount(s, drop)..]
  }

  /** Python's `s.rstrip(chars)`. */
  function StripRight(s: string, drop: char -> bool): string
  {
    s[..|s| - TrailCount(s, drop)]
  }

  /** Python's `s.strip()`: whitespace removed at both ends. */
  function Strip(s: string): (r: string)
    ensures r == [] || (!IsSpace(r[0]) && !IsSpace(r[|r| - 1]))
    ensures exists i, j :: 0 <= i <= j <= |s| && r == s[i..j]
    ensures s == [] || (!IsSpace(s[0]) && !IsSpace(s[|s| - 1])) ==> r == s
  {
    var a := StripLeft(s, IsSpace);
    var r := StripRight(a, IsSpace);
    var i := LeadCount(s, IsSpace);
    var j := i + |a| - TrailCount(a, IsSpace);
    assert r == s[i..j];
    r
  }

  /** ASCII case folding; every other character is left as it is. */
  function LowerChar(c: char): char
  {
    if 'A' <= c <= 'Z' then (c as int + 32) as char else c
  }

  /** Python's `s.lower()`, restricted to the ASCII letters. */
  function Lower(s: string): (r: string)
    ensures |r| == |s|
    ensures forall i :: 0 <= i < |s| ==> r[i] == LowerChar(s[i])
  {
    seq(|s|, i requires 0 <= i < |s| => LowerChar(s[i]))
  }

  lemma LowerAppend(a: string, b: string)
    ensures Lower(a + b) == Lower(a) + Lower(b)
  {
  }

  // ---------------------------------------------------------------------------
  // Joining, splitting, numbers
  // ---------------------------------------------------------------------------

  /** Python's `sep.join(xs)`. */
  function Join(sep: string, xs: seq<string>): string
  {
    if |xs| == 0 then ""
    else if |xs| == 1 then xs[0]
    else xs[0] + sep + Join(sep, xs[1..])
  }

  /** Python's `s.split(c)` for a one-character separator. */
  function Split(s: string, c: char): (r: seq<string>)
    ensures |r| >= 1
    ensures Join([c], r) == s
    ensures forall i :: 0 <= i < |r| ==> c !in r[i]
    decreases |s|
  {
    var k := Find(s, c);
    if k == -1 then [s]
    else
      var rest := Split(s[k + 1..], c);
      var r := [s[..k]] + rest;
      assert r[0] == s[..k] && r[1..] == rest;
      assert Join([c], r) == s[..k] + [c] + Join([c], rest);
      assert s == s[..k] + [c] + s[k + 1..];
      r
  }

  function DigitChar(d: nat): char
    requires d < 10
  {
    "0123456789"[d]
  }

  /** The digit `DigitChar(d)` stands for `d`. */
  lemma DigitCharValue(d: nat)
    requires d < 10
    ensures DigitChar(d) as int - '0' as int == d
  {
    if d == 0 {} else if d == 1 {} else if d == 2 {} else if d == 3 {} else if d == 4 {}
    else if d == 5 {} else if d == 6 {} else if d == 7 {} else if d == 8 {} else {}
  }

  /** The number a string of decimal digits denotes, read left to right. */
  function DecimalValue(s: string): int
  {
    PrefixValue(s, |s|)
  }

  /** The value of the first `k` characters of `s` read as decimal digits. */
  function PrefixValue(s: string, k: nat): int
    requires k <= |s|
  {
    if k == 0 then 0 else 10 * PrefixValue(s, k - 1) + (s[k - 1] as int - '0' as int)
  }

  /** Characters after the first `k` do not change the value of the first `k`. */
  lemma {:induction false} PrefixValueExtend(s: string, t: string, k: nat)
    requires k <= |s|
    ensures PrefixValue(s + t, k) == PrefixValue(s, k)
  {
    if k > 0 {
      PrefixValueExtend(s, t, k - 1);
    }
  }

  /** Python's `str(n)` for a natural number: its decimal digits, with no leading zero. */
  function NatToString(n: nat): (r: string)
    ensures |r| >= 1
    ensures forall i :: 0 <= i < |r| ==> '0' <= r[i] <= '9'
    ensures DecimalValue(r) == n
    ensures r[0] == '0' ==> r == "0"
  {
    if n < 10 then
      DigitCharValue(n);
      assert PrefixValue([DigitChar(n)], 0) == 0;
      [DigitChar(n)]
    else
      var p := NatToString(n / 10);
      DigitCharValue(n % 10);
      PrefixValueExtend(p, [DigitChar(n % 10)], |p|);
      p + [DigitChar(n % 10)]
  }

  /** Python's `str(i)` for an integer. */
  function IntToString(i: int): string
  {
    if i < 0 then "-" + NatToString(-i) else NatToString(i)
  }

  // ---------------------------------------------------------------------------
  // Ordering and sizes
  // ---------------------------------------------------------------------------

  /** Python's `a < b` on strings: lexicographic by code point. */
  predicate LexLt(a: string, b: string)
    decreases |a|
  {
    |b| > 0 && (|a| == 0 || a[0] < b[0] || (a[0] == b[0] && LexLt(a[1..], b[1..])))
  }

  lemma {:induction false} LexLtIrreflexive(a: string)
    ensures !LexLt(a, a)
    decreases |a|
  {
    if |a| > 0 { LexLtIrreflexive(a[1..]); }
  }

  lemma {:induction false} LexLtTransitive(a: string, b: string, c: string)
    requires LexLt(a, b) && LexLt(b, c)
    ensures LexLt(a, c)
    decreases |a|
  {
    if |a| > 0 && a[0] == b[0] && b[0] == c[0] {
      LexLtTransitive(a[1..], b[1..], c[1..]);
    }
  }

  lemma {:induction false} LexLtAsymmetric(a: string, b: string)
    requires LexLt(a, b)
    ensures !LexLt(b, a)
    decreases |a|
  {
    if |a| > 0 && a[0] == b[0] { LexLtAsymmetric(a[1..], b[1..]); }
  }

  lemma {:induction false} LexLtTotal(a: string, b: string)
    requires a != b
    ensures LexLt(a, b) || LexLt(b, a)
    decreases |a|
  {
    if |a| > 0 && |b| > 0 && a[0] == b[0] {
      assert a == [a[0]] + a[1..];
      assert b == [b[0]] + b[1..];
      LexLtTotal(a[1..], b[1..]);
    }
  }

  /** `sorted(xs)[-1]`: the greatest string of a non-empty list. */
  function MaxString(xs: seq<string>): (m: string)
    requires |xs| > 0
    ensures m in xs
    ensures forall x | x in xs :: x == m || LexLt(x, m)
  {
    if |xs| == 1 then xs[0]
    else
      var rest := MaxString(xs[1..]);
      var m := if LexLt(xs[0], rest) then rest else xs[0];
      assert forall x | x in xs :: x == m || LexLt(x, m) by {
        forall x | x in xs ensures x == m || LexLt(x, m) {
          if x != xs[0] { assert x in xs[1..]; }
          if m == xs[0] && x != m {
            if x == rest {
              LexLtTotal(x, xs[0]);
            } else if rest != xs[0] {
              LexLtTotal(rest, xs[0]);
              LexLtTransitive(x, rest, xs[0]);
            }
          }
        }
      }
      m
  }

  /** A string greater than every other candidate is the one `MaxString` picks. */
  lemma MaxStringUnique(xs: seq<string>, a: string)
    requires a in xs && forall x | x in xs :: x == a || LexLt(x, a)
    ensures MaxString(xs) == a
  {
    var m := MaxString(xs);
    if LexLt(m, a) { LexLtAsymmetric(m, a); }
  }

  /** How many bytes the UTF-8 encoding of `c` takes. */
  function Utf8Width(c: char): nat
  {
    var n := c as int;
    if n < 0x80 then 1 else if n < 0x800 then 2 else if n < 0x10000 then 3 else 4
  }

  /** The size in bytes of `s` written as UTF-8. */
  function ByteSize(s: string): nat
  {
    if |s| == 0 then 0 else ByteSize(s[..|s| - 1]) + Utf8Width(s[|s| - 1])
  }
}

=== FILE: brain.dfy ===
/**
  `ask_brain(user_text, context)`: the chat messages sent to the local
  language model, and the clean-up that turns the model's raw text into a
  JSON candidate and then into an intent.

  The HTTP round trip is an oracle `llm` from the messages to the reply's
  text (or the message of the exception it raised), and `json.loads` is an
  oracle `decode` from a text to a value (or the message of its
  JSONDecodeError).  The system prompt is a parameter.
 */
module Brain {
  import opened Base
  import opened PyValue

  datatype Message = Message(role: string, content: Json)

  /** The user/assistant pairs of the context, in order; `ctx.get` raises on an item that is not a dictionary. */
  function Pairs(items: seq<Json>): (r: Result<seq<Message>, string>)
    ensures r.Ok? ==> |r.value| == 2 * |items|
    ensures r.Ok? <==> forall i | 0 <= i < |items| :: items[i].JDict?
  {
    if |items| == 0 then Ok([])
    else if !items[0].JDict? then Err(NoAttribute(items[0], "get"))
    else
      match Pairs(items[1..])
      case Err(e) =>
        var i :| 0 <= i < |items[1..]| && !items[1..][i].JDict?;
        assert items[i + 1] == items[1..][i];
        Err(e)
      case Ok(rest) =>
        assert forall i | 1 <= i < |items| :: items[i] == items[1..][i - 1];
        var u := GetOr(items[0].entries, "user", JStr(""));
        var a := GetOr(items[0].entries, "assistant", JStr(""));
        Ok([Message("user", u), Message("assistant", a)] + rest)
  }

  /** Item `i` of the context becomes messages `2i` (the user's) and `2i+1` (the assistant's). */
  lemma {:induction false} PairsContent(items: seq<Json>)
    requires Pairs(items).Ok?
    ensures var r := Pairs(items).value;
      forall i | 0 <= i < |items| ::
        r[2 * i] == Message("user", GetOr(items[i].entries, "user", JStr("")))
        && r[2 * i + 1] == Message("assistant", GetOr(items[i].entries, "assistant", JStr("")))
  {
    if |items| > 0 {
      PairsContent(items[1..]);
      var r := Pairs(items).value;
      var rest := Pairs(items[1..]).value;
      assert r[2..] == rest;
      forall i | 1 <= i < |items|
        ensures r[2 * i] == Message("user", GetOr(items[i].entries, "user", JStr("")))
        ensures r[2 * i + 1] == Message("assistant", GetOr(items[i].entries, "assistant", JStr("")))
      {
        assert items[i] == items[1..][i - 1];
        assert r[2 * i] == rest[2 * (i - 1)] && r[2 * i + 1] == rest[2 * (i - 1) + 1];
      }
    }
  }

  /**
    The message list: the system prompt, one user/assistant pair per context
    item (when the context is true), and the user's text.
   */
  function BuildMessages(system: string, userText: string, context: Json): (r: Result<seq<Message>, string>)
    ensures r.Ok? ==>
      (|r.value| >= 2 && r.value[0] == Message("system", JStr(system))
       && r.value[|r.value| - 1] == Message("user", JStr(userText)))
  {
    var middle :=
      if !Truthy(context) then Ok([])
      else match PyIter(context)
        case Err(e) => Err(e)
        case Ok(items) => Pairs(items);
    match middle
    case Err(e) => Err(e)
    case Ok(pairs) => Ok([Message("system", JStr(system))] + pairs + [Message("user", JStr(userText))])
  }

  /** The context's items become pairs, in order, between the system prompt and the text. */
  lemma BuildMessagesLayout(system: string, userText: string, items: seq<Json>)
    requires items != [] && forall i | 0 <= i < |items| :: items[i].JDict?
    ensures var r := BuildMessages(system, userText, JList(items));
      && r.Ok? && |r.value| == 2 * |items| + 2
      && forall i | 0 <= i < |items| ::
           r.value[2 * i + 1] == Message("user", GetOr(items[i].entries, "user", JStr("")))
           && r.value[2 * i + 2] == Message("assistant", GetOr(items[i].entries, "assistant", JStr("")))
  {
    PairsContent(items);
    var pairs := Pairs(items).value;
    var r := [Message("system", JStr(system))] + pairs + [Message("user", JStr(userText))];
    assert PyIter(JList(items)) == Ok(items);
    assert BuildMessages(system, userText, JList(items)) == Ok(r);
    forall i | 0 <= i < |items|
      ensures r[2 * i + 1] == Message("user", GetOr(items[i].entries, "user", JStr("")))
      ensures r[2 * i + 2] == Message("assistant", GetOr(items[i].entries, "assistant", JStr("")))
    {
      assert r[2 * i + 1] == pairs[2 * i] && r[2 * i + 2] == pairs[2 * i + 1];
    }
  }

  /** An item that is not a dictionary makes `ctx.get` raise, and no message is sent. */
  lemma BuildMessagesRejects(system: string, userText: string, items: seq<Json>, k: nat)
    requires k < |items| && !items[k].JDict?
    ensures BuildMessages(system, userText, JList(items)).Err?
  {
  }

  // ---------------------------------------------------------------------------
  // Special tokens: re.sub(r'<\|[^|]+\|>', '', content)
  // ---------------------------------------------------------------------------

  /** The length of the run of characters other than `|` starting at `i`. */
  function BarFree(s: string, i: nat): (n: nat)
    requires i <= |s|
    ensures i + n <= |s|
    ensures forall j | i <= j < i + n :: s[j] != '|'
    ensures i + n < |s| ==> s[i + n] == '|'
    decreases |s| - i
  {
    if i == |s| || s[i] == '|' then 0 else 1 + BarFree(s, i + 1)
  }

  /** Where a token `<|name|>` starting at `i` ends, if one starts there. */
  function TokenAt(s: string, i: nat): (r: Option<nat>)
    requires i <= |s|
    ensures r.Some? ==> i + 5 <= r.value <= |s|
  {
    if i + 2 <= |s| && s[i] == '<' && s[i + 1] == '|' then
      var n := BarFree(s, i + 2);
      var j := i + 2 + n;
      if n >= 1 && j + 2 <= |s| && s[j] == '|' && s[j + 1] == '>' then Some(j + 2) else None
    else None
  }

  /** The leftmost-first, non-overlapping removal `re.sub` performs. */
  function RemoveTokens(s: string): (r: string)
    ensures |r| <= |s|
    decreases |s|
  {
    if |s| == 0 then ""
    else match TokenAt(s, 0)
      case Some(e) => RemoveTokens(s[e..])
      case None => [s[0]] + RemoveTokens(s[1..])
  }

  /** A text in which no token starts anywhere is left as it is. */
  lemma {:induction false} NoTokenUnchanged(s: string)
    requires forall i | 0 <= i <= |s| :: TokenAt(s, i).None?
    ensures RemoveTokens(s) == s
    decreases |s|
  {
    if |s| > 0 {
      forall i | 0 <= i <= |s[1..]| ensures TokenAt(s[1..], i).None? {
        TokenShift(s, i);
      }
      NoTokenUnchanged(s[1..]);
    }
  }

  /** A token found in `s[1..]` is one found in `s`, one place later. */
  lemma TokenShift(s: string, i: nat)
    requires 1 <= |s| && i <= |s| - 1
    ensures TokenAt(s[1..], i).Some? ==> TokenAt(s, i + 1) == Some(TokenAt(s[1..], i).value + 1)
  {
    if TokenAt(s[1..], i).Some? {
      BarFreeShift(s, i + 2);
    }
  }

  lemma {:induction false} BarFreeShift(s: string, i: nat)
    requires 1 <= i <= |s|
    ensures BarFree(s[1..], i - 1) == BarFree(s, i)
    decreases |s| - i
  {
    if i < |s| && s[i] != '|' {
      BarFreeShift(s, i + 1);
    }
  }

  /** A model's channel marker goes, and the JSON behind it stays. */
  lemma RemoveTokensExample()
    ensures RemoveTokens("<|x|>{}") == "{}"
  {
    var s := "<|x|>{}";
    assert BarFree(s, 2) == 1;
    assert TokenAt(s, 0) == Some(5);
    assert s[5..] == "{}";
    assert TokenAt("{}", 0).None? && TokenAt("}", 0).None?;
    assert "{}"[1..] == "}";
  }

  /** The removal makes a single pass: a token split by another one survives it. */
  lemma RemoveTokensSinglePass()
    ensures RemoveTokens("<|<|a|>b|>") == "<|b|>"
  {
    var t := "<|<|a|>b|>";
    assert BarFree(t, 2) == 1;
    assert TokenAt(t, 0).None?;
    assert t[1..] == "|<|a|>b|>";
    assert TokenAt(t[1..], 0).None?;
    var u := "<|a|>b|>";
    assert t[1..][1..] == u;
    assert BarFree(u, 2) == 1;
    assert TokenAt(u, 0) == Some(5);
    assert u[5..] == "b|>";
    assert TokenAt("b|>", 0).None? && TokenAt("|>", 0).None? && TokenAt(">", 0).None?;
    assert "b|>"[1..] == "|>" && "|>"[1..] == ">" && ">"[1..] == "";
  }

  // ---------------------------------------------------------------------------
  // Code fences
  // ---------------------------------------------------------------------------

  /** A leading ```` ```json ```` (or else ```` ``` ````) goes, and then one trailing ```` ``` ````. */
  function StripFences(c: string): (r: string)
    ensures exists i, j :: 0 <= i <= j <= |c| && r == c[i..j] && i <= 7 && |c| - j <= 3
    ensures !StartsWith(c, "```") && !EndsWith(c, "```") ==> r == c
  {
    var a := if StartsWith(c, "```json") then c[7..] else if StartsWith(c, "```") then c[3..] else c;
    var i := |c| - |a|;
    assert a == c[i..];
    if EndsWith(a, "```") then
      assert a[..|a| - 3] == c[i..|c| - 3];
      a[..|a| - 3]
    else
      assert a == c[i..|c|];
      a
  }

  lemma StripFencesExamples()
    ensures StripFences("```json\n{}\n```") == "\n{}\n"
    ensures StripFences("```{}```") == "{}"
    ensures StripFences("{}") == "{}"
    ensures StripFences("``````") == ""
  {
    JsonFenceExample();
    BareFenceExample();
    NoFenceUnchanged("{}");
    EmptyFenceExample();
  }

  lemma JsonFenceExample()
    ensures StripFences("```json\n{}\n```") == "\n{}\n"
  {
    JsonFenceRoundTrip("\n{}\n");
    assert "```json" + "\n{}\n" + "```" == "```json\n{}\n```";
  }

  lemma BareFenceExample()
    ensures StripFences("```{}```") == "{}"
  {
    assert !StartsWith("{}", "json");
    BareFenceRoundTrip("{}");
    assert "```" + "{}" + "```" == "```{}```";
  }

  lemma EmptyFenceExample()
    ensures StripFences("``````") == ""
  {
    BareFenceRoundTrip("");
    assert "```" + "" + "```" == "``````";
  }

  /** A text that neither starts nor ends with a backtick has no fence to cut. */
  lemma NoFenceUnchanged(c: string)
    requires |c| > 0 && c[0] != '`' && c[|c| - 1] != '`'
    ensures StripFences(c) == c
  {
    assert !StartsWith(c, "```") by {
      if |c| >= 3 { assert c[..3][0] == c[0]; }
    }
    assert !EndsWith(c, "```") by {
      if |c| >= 3 { assert c[|c| - 3..][2] == c[|c| - 1]; }
    }
  }

  /** A ```` ```json ```` fence around any text comes off whole. */
  lemma JsonFenceRoundTrip(x: string)
    ensures StripFences("```json" + x + "```") == x
  {
    var c := "```json" + x + "```";
    assert c[..7] == "```json";
    assert c[7..] == x + "```";
    assert (x + "```")[|x|..] == "```";
    assert (x + "```")[..|x|] == x;
  }

  /** A bare ```` ``` ```` fence comes off whole around a text that does not start with `json`. */
  lemma BareFenceRoundTrip(x: string)
    requires !StartsWith(x, "json")
    ensures StripFences("```" + x + "```") == x
  {
    var c := "```" + x + "```";
    assert c[..3] == "```";
    assert !StartsWith(c, "```json") by {
      if |x| >= 4 {
        assert c[3..7] == x[..4];
      } else if |x| > 0 {
        assert c[6] == '`';
      }
    }
    assert c[3..] == x + "```";
    assert (x + "```")[|x|..] == "```";
    assert (x + "```")[..|x|] == x;
  }

  // ---------------------------------------------------------------------------
  // The first balanced object, by counting braces
  // ---------------------------------------------------------------------------

  function Delta(c: char): int
  {
    if c == '{' then 1 else if c == '}' then -1 else 0
  }

  /** Opening minus closing braces in `s`; braces inside string literals count too. */
  function Depth(s: string): int
  {
    if |s| == 0 then 0 else Depth(s[..|s| - 1]) + Delta(s[|s| - 1])
  }

  /** The loop over `range(start, len(content))` with the count `d`, from index `i`. */
  function Close(s: string, i: nat, d: int): (r: Option<nat>)
    requires i <= |s|
    ensures r.Some? ==> i <= r.value < |s|
    decreases |s| - i
  {
    if i == |s| then None
    else if s[i] == '{' then Close(s, i + 1, d + 1)
    else if s[i] == '}' then (if d - 1 == 0 then Some(i) else Close(s, i + 1, d - 1))
    else Close(s, i + 1, d)
  }

  /** The candidate after brace counting: the first balanced `{…}`, or the text unchanged. */
  function ExtractObject(c: string): string
  {
    var start := Find(c, '{');
    if start == -1 then c
    else match Close(c, start, 0)
      case Some(k) => c[start..k + 1]
      case None => c
  }

  /** `ExtractObject` as the source computes it, with its loop. */
  method ExtractObjectLoop(c: string) returns (r: string)
    ensures r == ExtractObject(c)
  {
    r := c;
    var start := Find(c, '{');
    if start != -1 {
      var count := 0;
      var i := start;
      while i < |c|
        invariant start <= i <= |c|
        invariant Close(c, start, 0) == Close(c, i, count)
        decreases |c| - i
      {
        if c[i] == '{' {
          count := count + 1;
        } else if c[i] == '}' {
          count := count - 1;
          if count == 0 {
            r := c[start..i + 1];
            return;
          }
        }
        i := i + 1;
      }
    }
  }

  /** More braces have been opened than closed in `s[start..j]`. */
  predicate Open(s: string, start: nat, j: nat)
    requires start <= j <= |s|
  {
    Depth(s[start..j]) > 0
  }

  lemma DepthSnoc(s: string, a: nat, b: nat)
    requires a <= b < |s|
    ensures Depth(s[a..b + 1]) == Depth(s[a..b]) + Delta(s[b])
  {
    assert s[a..b + 1][..b - a] == s[a..b];
  }

  /**
    The scan from `i` with count `d` finds the first `k` at which the depth
    of `s[start..k+1]` comes back to zero, and reports nothing if it never
    does.
   */
  lemma {:induction false} CloseIsFirstZero(s: string, start: nat, i: nat, d: int)
    requires start < i <= |s| && s[start] == '{'
    requires d == Depth(s[start..i]) && d > 0
    requires forall j | start < j <= i :: Open(s, start, j)
    ensures var r := Close(s, i, d);
      && (r.Some? ==> i <= r.value < |s| && s[r.value] == '}' && Depth(s[start..r.value + 1]) == 0
                      && forall j | start < j <= r.value :: Open(s, start, j))
      && (r.None? ==> forall j | start < j <= |s| :: Open(s, start, j))
    decreases |s| - i
  {
    if i < |s| {
      DepthSnoc(s, start, i);
      if s[i] == '}' && d - 1 == 0 {
      } else {
        CloseIsFirstZero(s, start, i + 1, d + Delta(s[i]));
      }
    }
  }

  /**
    Brace counting from the first `{` fails exactly when no prefix from it
    is balanced, and then the text is kept.
   */
  lemma ExtractObjectUnbalanced(c: string)
    requires Find(c, '{') != -1
    ensures var start := Find(c, '{');
      && (Close(c, start, 0).None? <==> forall j | start < j <= |c| :: Open(c, start, j))
      && (Close(c, start, 0).None? ==> ExtractObject(c) == c)
  {
    var start := Find(c, '{');
    ScanFromFirstBrace(c, start);
    var cl := Close(c, start, 0);
    if cl.Some? {
      assert !Open(c, start, cl.value + 1);
    }
  }

  /**
    When brace counting succeeds, the candidate opens with `{`, closes with
    `}`, is balanced, and no shorter prefix of it is.
   */
  lemma ExtractObjectShape(c: string)
    requires Find(c, '{') != -1 && Close(c, Find(c, '{'), 0).Some?
    ensures var r := ExtractObject(c);
      r[0] == '{' && r[|r| - 1] == '}' && Depth(r) == 0 && forall j | 0 < j < |r| :: Open(r, 0, j)
  {
    var start := Find(c, '{');
    ScanFromFirstBrace(c, start);
    var k := Close(c, start, 0).value;
    assert ExtractObject(c) == c[start..k + 1];
    BalancedSlice(c, start, k);
  }

  /** The scan from the first brace, started with count zero, as `CloseIsFirstZero` describes it. */
  lemma ScanFromFirstBrace(c: string, start: nat)
    requires start < |c| && c[start] == '{'
    ensures var r := Close(c, start, 0);
      && (r.Some? ==> start < r.value < |c| && c[r.value] == '}' && Depth(c[start..r.value + 1]) == 0
                      && forall j | start < j <= r.value :: Open(c, start, j))
      && (r.None? ==> forall j | start < j <= |c| :: Open(c, start, j))
  {
    OneBrace(c, start);
    assert Close(c, start, 0) == Close(c, start + 1, 1);
    CloseIsFirstZero(c, start, start + 1, 1);
  }

  /** The slice holding just the opening brace has depth one. */
  lemma OneBrace(c: string, start: nat)
    requires start < |c| && c[start] == '{'
    ensures Depth(c[start..start + 1]) == 1
    ensures forall j | start < j <= start + 1 :: Open(c, start, j)
  {
    assert c[start..start + 1][..0] == [];
  }

  /** The facts about the scan, restated about the slice it cuts out. */
  lemma BalancedSlice(c: string, start: nat, k: nat)
    requires start <= k < |c| && c[start] == '{' && c[k] == '}'
    requires Depth(c[start..k + 1]) == 0
    requires forall j | start < j <= k :: Open(c, start, j)
    ensures var r := c[start..k + 1];
      r[0] == '{' && r[|r| - 1] == '}' && Depth(r) == 0 && forall j | 0 < j < |r| :: Open(r, 0, j)
  {
    var r := c[start..k + 1];
    forall j | 0 < j < |r| ensures Open(r, 0, j) {
      assert r[0..j] == c[start..start + j];
      assert Open(c, start, start + j);
    }
  }

  // ---------------------------------------------------------------------------
  // The whole clean-up
  // ---------------------------------------------------------------------------

  predicate IsBacktick(c: char)
  {
    c == '`'
  }

  /**
    `strip`, token removal, fences, brace counting, `strip`, then backticks
    off both ends and a last `strip`.
   */
  function Cleanup(raw: string): (r: string)
    ensures r == [] || (!IsSpace(r[0]) && !IsSpace(r[|r| - 1]))
    ensures var c := StripFences(RemoveTokens(Strip(raw)));
      Find(c, '{') != -1 && Close(c, Find(c, '{'), 0).Some? ==> r == ExtractObject(c)
  {
    var f := StripFences(RemoveTokens(Strip(raw)));
    ExtractedEnds(f);
    FinalStrip(ExtractObject(f))
  }

  /** An object found by brace counting opens with `{` and closes with `}`. */
  lemma ExtractedEnds(f: string)
    ensures Find(f, '{') != -1 && Close(f, Find(f, '{'), 0).Some? ==>
      var c := ExtractObject(f); |c| > 0 && c[0] == '{' && c[|c| - 1] == '}'
  {
    if Find(f, '{') != -1 && Close(f, Find(f, '{'), 0).Some? {
      ExtractObjectShape(f);
    }
  }

  /** The last `strip`, backticks off both ends, and `strip` again; an extracted object goes through untouched. */
  function FinalStrip(c: string): (r: string)
    ensures r == [] || (!IsSpace(r[0]) && !IsSpace(r[|r| - 1]))
    ensures |c| > 0 && c[0] == '{' && c[|c| - 1] == '}' ==> r == c
  {
    BracedPassesFinalStrip(c);
    Strip(StripRight(StripLeft(Strip(c), IsBacktick), IsBacktick))
  }

  /** Neither blanks nor backticks can be trimmed from a text running from `{` to `}`. */
  lemma BracedPassesFinalStrip(c: string)
    ensures |c| > 0 && c[0] == '{' && c[|c| - 1] == '}' ==>
      Strip(StripRight(StripLeft(Strip(c), IsBacktick), IsBacktick)) == c
  {
    if |c| > 0 && c[0] == '{' && c[|c| - 1] == '}' {
      assert Strip(c) == c;
      assert LeadCount(c, IsBacktick) == 0;
      assert StripLeft(c, IsBacktick) == c by { assert c[0..] == c; }
      assert TrailCount(c, IsBacktick) == 0;
      assert StripRight(c, IsBacktick) == c by { assert c[..|c|] == c; }
    }
  }

  /**
    A balanced object is found whole by brace counting: the scan from its
    opening brace first comes back to depth zero at its last character.
   */
  lemma BalancedObjectCloses(o: string)
    requires |o| > 0 && o[0] == '{' && Depth(o) == 0 && forall j | 0 < j < |o| :: Open(o, 0, j)
    ensures Close(o, 0, 0) == Some(|o| - 1)
  {
    ScanFromFirstBrace(o, 0);
    assert o[0..|o|] == o;
    assert !Open(o, 0, |o|);
    assert Close(o, 0, 0).Some? ==> !Open(o, 0, Close(o, 0, 0).value + 1);
  }

  /**
    A balanced object with no `|` in it, as the model is asked to answer,
    comes out of the clean-up exactly as it went in.
   */
  lemma CleanupKeepsObject(o: string)
    requires |o| > 0 && o[0] == '{' && Depth(o) == 0 && forall j | 0 < j < |o| :: Open(o, 0, j)
    requires forall i | 0 <= i < |o| :: o[i] != '|'
    ensures Cleanup(o) == o
  {
    BalancedObjectCloses(o);
    BalancedObjectEnds(o);
    var f := StripFences(RemoveTokens(Strip(o)));
    ObjectPassesFences(o);
    ObjectIsExtracted(o);
    assert ExtractObject(f) == o;
    assert FinalStrip(o) == o;
  }

  /** The balanced object ends with its closing brace. */
  lemma BalancedObjectEnds(o: string)
    requires |o| > 0 && o[0] == '{' && Close(o, 0, 0) == Some(|o| - 1)
    ensures o[|o| - 1] == '}'
  {
    ScanFromFirstBrace(o, 0);
  }

  /** Neither `strip`, token removal nor fence stripping touches such an object. */
  lemma ObjectPassesFences(o: string)
    requires |o| > 0 && o[0] == '{' && Close(o, 0, 0) == Some(|o| - 1)
    requires forall i | 0 <= i < |o| :: o[i] != '|'
    ensures StripFences(RemoveTokens(Strip(o))) == o
  {
    BalancedObjectEnds(o);
    assert Strip(o) == o;
    NoBarNoToken(o);
    NoTokenUnchanged(o);
    NoFenceUnchanged(o);
  }

  /** Brace counting keeps such an object whole. */
  lemma ObjectIsExtracted(o: string)
    requires |o| > 0 && o[0] == '{' && Close(o, 0, 0) == Some(|o| - 1)
    ensures ExtractObject(o) == o
  {
    assert Find(o, '{') == 0;
    assert o[0..|o|] == o;
  }

  /** The same object inside a ```` ```json ```` fence on lines of its own comes out bare. */
  lemma CleanupUnfencesObject(o: string)
    requires |o| > 0 && o[0] == '{' && Depth(o) == 0 && forall j | 0 < j < |o| :: Open(o, 0, j)
    requires forall i | 0 <= i < |o| :: o[i] != '|'
    ensures Cleanup("```json\n" + o + "\n```") == o
  {
    BalancedObjectCloses(o);
    BalancedObjectEnds(o);
    var f := "\n" + o + "\n";
    FencedObjectPassesFences(o, f);
    FencedObjectIsExtracted(o, f);
    assert FinalStrip(o) == o;
  }

  lemma FencedObjectPassesFences(o: string, f: string)
    requires forall i | 0 <= i < |o| :: o[i] != '|'
    requires f == "\n" + o + "\n"
    ensures StripFences(RemoveTokens(Strip("```json\n" + o + "\n```"))) == f
  {
    var raw := "```json" + f + "```";
    assert raw == "```json\n" + o + "\n```";
    assert Strip(raw) == raw by { assert raw[0] == '`' && raw[|raw| - 1] == '`'; }
    forall i | 0 <= i < |raw| ensures raw[i] != '|' {
      if 7 <= i < 7 + |f| {
        assert raw[i] == f[i - 7];
        if 1 <= i - 7 < |f| - 1 { assert f[i - 7] == o[i - 8]; }
      }
    }
    NoBarNoToken(raw);
    NoTokenUnchanged(raw);
    JsonFenceRoundTrip(f);
  }

  lemma FencedObjectIsExtracted(o: string, f: string)
    requires |o| > 0 && o[0] == '{' && Close(o, 0, 0) == Some(|o| - 1)
    requires f == "\n" + o + "\n"
    ensures ExtractObject(f) == o
  {
    assert f[..1] == "\n" && f[1] == '{';
    assert Find(f, '{') == 1;
    assert f[1..|o| + 1] == o;
    CloseShift(f, 1, o);
  }

  /** No token starts in a text without `|`. */
  lemma NoBarNoToken(s: string)
    requires forall i | 0 <= i < |s| :: s[i] != '|'
    ensures forall i | 0 <= i <= |s| :: TokenAt(s, i).None?
  {
  }

  /** Brace counting on `o` placed at `start` inside `f` reaches the same place, shifted. */
  lemma {:induction false} CloseShift(f: string, start: nat, o: string)
    requires start + |o| <= |f| && f[start..start + |o|] == o
    requires Close(o, 0, 0).Some?
    ensures Close(f, start, 0) == Some(Close(o, 0, 0).value + start)
  {
    CloseShiftFrom(f, start, o, 0, 0);
  }

  lemma {:induction false} CloseShiftFrom(f: string, start: nat, o: string, i: nat, d: int)
    requires start + |o| <= |f| && f[start..start + |o|] == o && i <= |o|
    requires Close(o, i, d).Some?
    ensures Close(f, start + i, d) == Some(Close(o, i, d).value + start)
    decreases |o| - i
  {
    assert f[start + i] == o[i];
    if o[i] == '{' {
      CloseShiftFrom(f, start, o, i + 1, d + 1);
    } else if o[i] == '}' {
      if d - 1 != 0 {
        CloseShiftFrom(f, start, o, i + 1, d - 1);
      }
    } else {
      CloseShiftFrom(f, start, o, i + 1, d);
    }
  }

  // ---------------------------------------------------------------------------
  // From the candidate to an intent
  // ---------------------------------------------------------------------------

  /** The reply shape used when the model's text is not an intent. */
  function NoneShape(answer: string): Json
  {
    JDict([("action", JStr("none")), ("answer", JStr(answer))])
  }

  /** `"action" in parsed or "actions" in parsed`, with the TypeError for scalars. */
  function IsIntent(parsed: Json): (r: Result<bool, string>)
    ensures r.Err? <==> parsed.JNull? || parsed.JBool? || parsed.JInt?
  {
    match PyIn("action", parsed)
    case Err(e) => Err(e)
    case Ok(true) => Ok(true)
    case Ok(false) => PyIn("actions", parsed)
  }

  /** The second attempt on `content[start:end+1]`, when both braces exist in order. */
  function Retry(content: string, decode: string -> Result<Json, string>): (string, Option<Json>)
  {
    var start := Find(content, '{');
    var end := RFind(content, '}');
    if start != -1 && end != -1 && end > start then
      var slice := content[start..end + 1];
      match decode(slice)
      case Ok(p) => (slice, if IsIntent(p) == Ok(true) then Some(p) else None)
      case Err(_) => (slice, None)
    else (content, None)
  }

  /**
    The `try` around `json.loads(content)`.  Only a JSONDecodeError is caught:
    the TypeError of `"action" in 5` escapes.
   */
  function Interpret(content: string, decode: string -> Result<Json, string>): (r: Result<Json, string>)
    ensures r.Err? <==> decode(content).Ok? && IsIntent(decode(content).value).Err?
    ensures r.Ok? ==> IsIntent(r.value) == Ok(true)
    ensures decode(content).Ok? && IsIntent(decode(content).value) == Ok(true) ==> r == Ok(decode(content).value)
    ensures decode(content).Ok? && IsIntent(decode(content).value) == Ok(false) ==> r == Ok(NoneShape(content))
  {
    match decode(content)
    case Ok(parsed) =>
      (match IsIntent(parsed)
       case Err(e) => Err(e)
       case Ok(true) => Ok(parsed)
       case Ok(false) =>
         assert IsIntent(NoneShape(content)) == Ok(true) by { NoneShapeIsIntent(content); }
         Ok(NoneShape(content)))
    case Err(e) =>
      var (shown, p) := Retry(content, decode);
      match p
      case Some(v) => Ok(v)
      case None =>
        var answer := "Error al parsear JSON: " + e + "\n\nContenido recibido: " + Take(shown, 200);
        assert IsIntent(NoneShape(answer)) == Ok(true) by { NoneShapeIsIntent(answer); }
        Ok(NoneShape(answer))
  }

  lemma NoneShapeIsIntent(answer: string)
    ensures IsIntent(NoneShape(answer)) == Ok(true)
  {
    assert HasKey([("action", JStr("none")), ("answer", JStr(answer))], "action");
  }

  /**
    `ask_brain`: build the messages, ask the model, clean its text up and
    interpret it.  `Err` is an exception leaving `ask_brain`.
   */
  function AskBrain(system: string, userText: string, context: Json,
                    llm: seq<Message> -> Result<string, string>,
                    decode: string -> Result<Json, string>): (r: Result<Json, string>)
    ensures r.Ok? ==> IsIntent(r.value) == Ok(true)
  {
    match BuildMessages(system, userText, context)
    case Err(e) => Err(e)
    case Ok(messages) =>
      match llm(messages)
      case Err(e) => Err(e)
      case Ok(raw) => Interpret(Cleanup(raw), decode)
  }

  // ---------------------------------------------------------------------------
  // Properties of the interpretation
  // ---------------------------------------------------------------------------

  /** A decode error never escapes: the answer is the second attempt or the none shape. */
  lemma DecodeErrorNeverEscapes(content: string, decode: string -> Result<Json, string>)
    requires decode(content).Err?
    ensures Interpret(content, decode).Ok?
    ensures var (shown, p) := Retry(content, decode);
      p.None? ==> Interpret(content, decode) == Ok(NoneShape(
        "Error al parsear JSON: " + decode(content).error + "\n\nContenido recibido: " + Take(shown, 200)))
  {
  }

  /** A decoded value that is not an intent becomes an answer holding the candidate text. */
  lemma NonIntentBecomesAnswer(content: string, decode: string -> Result<Json, string>)
    requires decode(content).Ok? && IsIntent(decode(content).value) == Ok(false)
    ensures Interpret(content, decode) == Ok(NoneShape(content))
  {
  }

  /** The second attempt succeeds on the slice between the outer braces when that slice is an intent. */
  lemma RetryFindsSlice(content: string, decode: string -> Result<Json, string>)
    requires decode(content).Err?
    requires Find(content, '{') != -1 && RFind(content, '}') > Find(content, '{')
    requires var slice := content[Find(content, '{')..RFind(content, '}') + 1];
      decode(slice).Ok? && IsIntent(decode(slice).value) == Ok(true)
    ensures Interpret(content, decode) == Ok(decode(content[Find(content, '{')..RFind(content, '}') + 1]).value)
  {
    var slice := content[Find(content, '{')..RFind(content, '}') + 1];
    assert Retry(content, decode) == (slice, Some(decode(slice).value));
  }
}

=== FILE: browser.dfy ===
/**
  `encontrar_navegador` and the name handling of `abrir_app`.

  The browser lookup walks a fixed list of install locations, in order, and
  returns the first one that belongs to the requested browser and exists.
  Whether a path exists, and whether `where chrome.exe` succeeds, are
  parameters; the user's profile folder (what `~` expands to) is `home`.
 */
module Browser {
  import opened Base

  const ChromeTail := "\\AppData\\Local\\Google\\Chrome\\Application\\chrome.exe"
  const BraveTail := "\\AppData\\Local\\BraveSoftware\\Brave-Browser\\Application\\brave.exe"

  /** The ten places looked at, in the order they are tried. */
  function Candidates(home: string): (r: seq<string>)
    ensures |r| == 10
  {
    [ home + ChromeTail,
      "C:\\Program Files\\Google\\Chrome\\Application\\chrome.exe",
      "C:\\Program Files (x86)\\Google\\Chrome\\Application\\chrome.exe",
      home + BraveTail,
      "C:\\Program Files\\BraveSoftware\\Brave-Browser\\Application\\brave.exe",
      "C:\\Program Files (x86)\\BraveSoftware\\Brave-Browser\\Application\\brave.exe",
      "C:\\Program Files\\Mozilla Firefox\\firefox.exe",
      "C:\\Program Files (x86)\\Mozilla Firefox\\firefox.exe",
      "C:\\Program Files (x86)\\Microsoft\\Edge\\Application\\msedge.exe",
      "C:\\Program Files\\Microsoft\\Edge\\Application\\msedge.exe" ]
  }

  /** The candidate `p` qualifies: its lowered text holds `marker` and it exists. */
  predicate Qualifies(p: string, marker: string, exists_: string -> bool)
  {
    Contains(Lower(p), marker) && exists_(p)
  }

  /** `for ruta in rutas: if marker in ruta.lower() and os.path.exists(ruta): return ruta` */
  function FirstMatch(cands: seq<string>, marker: string, exists_: string -> bool): (r: Option<string>)
    ensures r.None? <==> forall i | 0 <= i < |cands| :: !Qualifies(cands[i], marker, exists_)
    ensures r.Some? ==> exists i | 0 <= i < |cands| ::
      cands[i] == r.value && Qualifies(cands[i], marker, exists_)
      && forall j | 0 <= j < i :: !Qualifies(cands[j], marker, exists_)
  {
    if |cands| == 0 then None
    else if Qualifies(cands[0], marker, exists_) then Some(cands[0])
    else
      var r := FirstMatch(cands[1..], marker, exists_);
      assert forall i | 1 <= i < |cands| :: cands[i] == cands[1..][i - 1];
      if r.Some? then
        var i :| 0 <= i < |cands[1..]| && cands[1..][i] == r.value && Qualifies(cands[1..][i], marker, exists_)
          && forall j | 0 <= j < i :: !Qualifies(cands[1..][j], marker, exists_);
        assert forall j | 0 <= j < i + 1 :: !Qualifies(cands[j], marker, exists_) by {
          forall j | 0 <= j < i + 1 ensures !Qualifies(cands[j], marker, exists_) {
            if j > 0 { assert cands[j] == cands[1..][j - 1]; }
          }
        }
        r
      else r
  }

  /** Falls through to `b` when `a` found nothing. */
  function OrElse(a: Option<string>, b: Option<string>): Option<string>
  {
    if a.Some? then a else b
  }

  /**
    `encontrar_navegador(nombre)`, as written: the Chrome paths, then
    `chrome.exe` when `where` finds it; then Brave, Firefox and Edge, each
    asked only when the name mentions it.
   */
  function EncontrarNavegador(nombre: string, home: string, exists_: string -> bool, whereChrome: bool): Option<string>
  {
    Lookup(Lower(nombre), Candidates(home), exists_, whereChrome)
  }

  /** The lookup over a candidate list, shared by the as-written and the corrected form. */
  function Lookup(n: string, cands: seq<string>, exists_: string -> bool, whereChrome: bool): Option<string>
  {
    var chrome :=
      if Contains(n, "chrome") || Contains(n, "google chrome") then
        OrElse(FirstMatch(cands, "chrome.exe", exists_), if whereChrome then Some("chrome.exe") else None)
      else None;
    var brave := if Contains(n, "brave") then FirstMatch(cands, "brave", exists_) else None;
    var firefox := if Contains(n, "firefox") then FirstMatch(cands, "firefox.exe", exists_) else None;
    var edge := if Contains(n, "edge") then FirstMatch(cands, "msedge.exe", exists_) else None;
    OrElse(chrome, OrElse(brave, OrElse(firefox, edge)))
  }

  /** Whatever the lookup returns is `chrome.exe` or an existing candidate. */
  lemma LookupSound(nombre: string, home: string, exists_: string -> bool, whereChrome: bool)
    ensures var r := EncontrarNavegador(nombre, home, exists_, whereChrome);
      r.Some? ==> (r.value == "chrome.exe" && whereChrome) || (r.value in Candidates(home) && exists_(r.value))
  {
    LookupFindsCandidate(Lower(nombre), Candidates(home), exists_, whereChrome);
  }

  /** `LookupSound` for any candidate list. */
  lemma LookupFindsCandidate(n: string, cands: seq<string>, exists_: string -> bool, whereChrome: bool)
    ensures var r := Lookup(n, cands, exists_, whereChrome);
      r.Some? ==> (r.value == "chrome.exe" && whereChrome) || (r.value in cands && exists_(r.value))
  {
  }

  /** A name that mentions no known browser finds nothing. */
  lemma UnknownBrowser(nombre: string, home: string, exists_: string -> bool, whereChrome: bool)
    requires !Contains(Lower(nombre), "chrome") && !Contains(Lower(nombre), "brave")
    requires !Contains(Lower(nombre), "firefox") && !Contains(Lower(nombre), "edge")
    ensures EncontrarNavegador(nombre, home, exists_, whereChrome).None?
  {
    assert !Contains(Lower(nombre), "google chrome") by {
      if Contains(Lower(nombre), "google chrome") {
        var i :| 0 <= i <= |Lower(nombre)| - 13 && OccursAt(Lower(nombre), "google chrome", i);
        assert Lower(nombre)[i + 7..i + 13] == "chrome";
        assert OccursAt(Lower(nombre), "chrome", i + 7);
      }
    }
  }

  /** The per-user Chrome install is preferred to every other location, and to `where`. */
  lemma UserChromeFirst(nombre: string, home: string, exists_: string -> bool, whereChrome: bool)
    requires Contains(Lower(nombre), "chrome") && exists_(home + ChromeTail)
    ensures EncontrarNavegador(nombre, home, exists_, whereChrome) == Some(home + ChromeTail)
  {
    var p := home + ChromeTail;
    LowerAppend(home, ChromeTail);
    assert Lower(ChromeTail)[|ChromeTail| - 10..] == "chrome.exe";
    assert OccursAt(Lower(p), "chrome.exe", |Lower(p)| - 10);
    assert Candidates(home)[0] == p;
  }

  // ---------------------------------------------------------------------------
  // The Brave test looks at the whole path, profile folder included
  // ---------------------------------------------------------------------------

  const ProfileWithBrave := "C:\\Users\\Bravermann"

  /**
    For a user whose profile folder name contains "brave", asking for Brave
    returns the Chrome executable: the per-user Chrome path is the first
    candidate and its lowered text holds "brave".
   */
  lemma BraveMatchesChromeInProfile()
    ensures EncontrarNavegador("brave", ProfileWithBrave, p => p == ProfileWithBrave + ChromeTail, false)
         == Some(ProfileWithBrave + ChromeTail)
  {
    var p := ProfileWithBrave + ChromeTail;
    var ex := (q: string) => q == ProfileWithBrave + ChromeTail;
    assert Lower(p)[9..14] == "brave";
    assert OccursAt(Lower(p), "brave", 9);
    assert Candidates(ProfileWithBrave)[0] == p;
    BraveNameOnly();
    assert FirstMatch(Candidates(ProfileWithBrave), "brave", ex) == Some(p);
  }

  /** The browser each candidate location belongs to. */
  datatype Kind = Chrome | Brave | Firefox | Edge

  const CandidateKinds: seq<Kind> := [Chrome, Chrome, Chrome, Brave, Brave, Brave, Firefox, Firefox, Edge, Edge]

  /** The first existing candidate, from index `i` on, that belongs to browser `kind`. */
  function FirstOfKind(home: string, kind: Kind, exists_: string -> bool, i: nat): (r: Option<string>)
    requires i <= 10
    ensures r.Some? ==> exists k | i <= k < 10 ::
      r.value == Candidates(home)[k] && CandidateKinds[k] == kind && exists_(r.value)
    decreases 10 - i
  {
    if i == 10 then None
    else if CandidateKinds[i] == kind && exists_(Candidates(home)[i]) then Some(Candidates(home)[i])
    else FirstOfKind(home, kind, exists_, i + 1)
  }

  /** The lookup with each candidate recognised by the browser it belongs to, whatever the profile folder is called. */
  function EncontrarNavegadorFixed(nombre: string, home: string, exists_: string -> bool, whereChrome: bool): Option<string>
  {
    var n := Lower(nombre);
    var chrome :=
      if Contains(n, "chrome") || Contains(n, "google chrome") then
        OrElse(FirstOfKind(home, Chrome, exists_, 0), if whereChrome then Some("chrome.exe") else None)
      else None;
    var brave := if Contains(n, "brave") then FirstOfKind(home, Brave, exists_, 0) else None;
    var firefox := if Contains(n, "firefox") then FirstOfKind(home, Firefox, exists_, 0) else None;
    var edge := if Contains(n, "edge") then FirstOfKind(home, Edge, exists_, 0) else None;
    OrElse(chrome, OrElse(brave, OrElse(firefox, edge)))
  }

  /** Corrected: asking for Brave alone can only return an existing Brave install. */
  lemma FixedBraveIsBrave(home: string, exists_: string -> bool, whereChrome: bool)
    ensures var r := EncontrarNavegadorFixed("brave", home, exists_, whereChrome);
      r.Some? ==> exists k | 0 <= k < 10 :: CandidateKinds[k] == Brave && r.value == Candidates(home)[k] && exists_(r.value)
  {
    BraveNameOnly();
  }

  /** The Brave install in the same profile folder is the one found, even though Chrome is also there. */
  lemma FixedBraveInProfile()
    ensures var ex := (p: string) => p == ProfileWithBrave + ChromeTail || p == ProfileWithBrave + BraveTail;
      EncontrarNavegadorFixed("brave", ProfileWithBrave, ex, false) == Some(ProfileWithBrave + BraveTail)
  {
    var ex := (p: string) => p == ProfileWithBrave + ChromeTail || p == ProfileWithBrave + BraveTail;
    FixedBraveFindsProfileBrave(ProfileWithBrave, ex, false);
  }

  /** With a Brave install in the user's profile, the corrected lookup for Brave returns it, whatever else is installed. */
  lemma FixedBraveFindsProfileBrave(home: string, exists_: string -> bool, whereChrome: bool)
    requires exists_(home + BraveTail)
    ensures EncontrarNavegadorFixed("brave", home, exists_, whereChrome) == Some(home + BraveTail)
  {
    BraveNameOnly();
    assert CandidateKinds[0] != Brave && CandidateKinds[1] != Brave && CandidateKinds[2] != Brave;
    assert CandidateKinds[3] == Brave && Candidates(home)[3] == home + BraveTail;
    assert FirstOfKind(home, Brave, exists_, 3) == Some(home + BraveTail);
    assert FirstOfKind(home, Brave, exists_, 0) == FirstOfKind(home, Brave, exists_, 3);
  }

  /** The name "brave" mentions Brave and no other browser. */
  lemma BraveNameOnly()
    ensures Lower("brave") == "brave" && Contains("brave", "brave")
    ensures !Contains("brave", "chrome") && !Contains("brave", "google chrome")
    ensures !Contains("brave", "firefox") && !Contains("brave", "edge")
  {
    assert OccursAt("brave", "brave", 0);
    NotContainsByChar("brave", "chrome", 'c');
    NotContainsByChar("brave", "google chrome", 'c');
    NotContainsByChar("brave", "firefox", 'f');
    NotContainsByChar("brave", "edge", 'd');
  }

  // ---------------------------------------------------------------------------
  // abrir_app
  // ---------------------------------------------------------------------------

  const BrowserWords: seq<string> := ["chrome", "brave", "firefox", "edge", "navegador"]

  /** The common executable name `abrir_app` substitutes for a browser name. */
  function Normalise(nombre: string): string
  {
    var n := Lower(nombre);
    if Contains(n, "chrome") && !EndsWith(n, ".exe") then "chrome.exe"
    else if Contains(n, "firefox") && !EndsWith(n, ".exe") then "firefox.exe"
    else if Contains(n, "edge") && !EndsWith(n, ".exe") then "msedge.exe"
    else if Contains(n, "brave") then "brave.exe"
    else nombre
  }

  /** How `abrir_app` starts a program. */
  datatype Launch =
    | Exec(path: string)      // subprocess.Popen([path])
    | Shell(command: string)  // subprocess.Popen(command, shell=True)
    | WhereThenExec(name: string) // `where name`, then the first path it prints
    | Start(command: string)  // the `start "" "name"` fallback

  /**
    `abrir_app(nombre)`: the launches tried, in order; each later one runs
    only when the one before it raised.  `found` is `encontrar_navegador(nombre)`,
    consulted only when the name mentions a browser.
   */
  function AbrirApp(nombre: string, found: Option<string>): (r: seq<Launch>)
    ensures |r| == 1 || |r| == 3
  {
    var n := Lower(nombre);
    var isBrowser := exists w | w in BrowserWords :: Contains(n, w);
    if isBrowser && found.Some? then [Exec(found.value)]
    else
      var name := Normalise(nombre);
      [Shell(name), WhereThenExec(name), Start("start \"\" \"" + name + "\"")]
  }

  /** A name that mentions no browser is launched as given: by the shell, then through `where`, then with `start`. */
  lemma AbrirAppPlainName(nombre: string, found: Option<string>)
    requires forall w | w in BrowserWords :: !Contains(Lower(nombre), w)
    ensures AbrirApp(nombre, found) == [Shell(nombre), WhereThenExec(nombre), Start("start \"\" \"" + nombre + "\"")]
  {
    assert "chrome" in BrowserWords && "firefox" in BrowserWords && "edge" in BrowserWords && "brave" in BrowserWords;
    assert Normalise(nombre) == nombre;
  }

  /** A browser that `encontrar_navegador` found is started from its path, and nothing else is tried. */
  lemma AbrirAppFoundBrowser(nombre: string, path: string)
    requires Contains(Lower(nombre), "navegador")
    ensures AbrirApp(nombre, Some(path)) == [Exec(path)]
  {
    assert "navegador" in BrowserWords;
  }

  /** A Chrome that was not found is still started by its usual executable name. */
  lemma AbrirAppChromeNotFound(nombre: string)
    requires Contains(Lower(nombre), "chrome") && !EndsWith(Lower(nombre), ".exe")
    ensures AbrirApp(nombre, None)[0] == Shell("chrome.exe")
  {
  }

  lemma ChromeExeStable()
    ensures Normalise("chrome.exe") == "chrome.exe"
  {
    assert Lower("chrome.exe") == "chrome.exe";
    assert EndsWith("chrome.exe", ".exe");
    NotContainsByChar("chrome.exe", "brave", 'b');
  }

  lemma FirefoxExeStable()
    ensures Normalise("firefox.exe") == "firefox.exe"
  {
    assert Lower("firefox.exe") == "firefox.exe";
    assert EndsWith("firefox.exe", ".exe");
    NotContainsByChar("firefox.exe", "chrome", 'c');
    NotContainsByChar("firefox.exe", "brave", 'b');
  }

  lemma EdgeExeStable()
    ensures Normalise("msedge.exe") == "msedge.exe"
  {
    assert Lower("msedge.exe") == "msedge.exe";
    assert EndsWith("msedge.exe", ".exe");
    NotContainsByChar("msedge.exe", "chrome", 'c');
    NotContainsByChar("msedge.exe", "firefox", 'f');
    NotContainsByChar("msedge.exe", "brave", 'b');
  }

  lemma BraveExeStable()
    ensures Normalise("brave.exe") == "brave.exe"
  {
    assert Lower("brave.exe") == "brave.exe";
    assert OccursAt("brave.exe", "brave", 0);
    NotContainsByChar("brave.exe", "chrome", 'c');
    NotContainsByChar("brave.exe", "firefox", 'f');
    NotContainsByChar("brave.exe", "edge", 'd');
  }

  /** Normalising is idempotent: an executable name it produces is kept as it is. */
  lemma NormaliseIdempotent(nombre: string)
    ensures Normalise(Normalise(nombre)) == Normalise(nombre)
  {
    ChromeExeStable();
    FirefoxExeStable();
    EdgeExeStable();
    BraveExeStable();
  }

  /** The first rule that applies wins: a name mentioning Chrome and Firefox opens Chrome. */
  lemma NormaliseFirstRuleWins()
    ensures Normalise("Chrome o Firefox") == "chrome.exe"
  {
    var a := Lower("Chrome o Firefox");
    assert a == "chrome o firefox";
    assert OccursAt(a, "chrome", 0);
    assert !EndsWith(a, ".exe");
  }

  /** The Brave rule ignores the `.exe` test: any name mentioning Brave becomes `brave.exe`. */
  lemma NormaliseBraveAnyName()
    ensures Normalise("mi-brave.EXE") == "brave.exe"
  {
    var b := Lower("mi-brave.EXE");
    assert b == "mi-brave.exe";
    assert OccursAt(b, "brave", 3);
    NotContainsByChar(b, "chrome", 'c');
    NotContainsByChar(b, "firefox", 'f');
    NotContainsByChar(b, "edge", 'g');
  }

  /** Other names are kept as given. */
  lemma NormaliseOtherName()
    ensures Normalise("notepad") == "notepad"
  {
    var c := Lower("notepad");
    assert c == "notepad";
    NotContainsByChar(c, "chrome", 'c');
    NotContainsByChar(c, "firefox", 'f');
    NotContainsByChar(c, "edge", 'g');
    NotContainsByChar(c, "brave", 'b');
  }
}

=== FILE: chat.dfy ===
/**
  The `/chat` endpoint: the intent from `ask_brain` is routed to a batch of
  actions, a single action, or a plain answer, and any exception becomes an
  HTTP 500 whose detail is returned here as `Err`.
 */
module Chat {
  import opened Base
  import opened PyValue
  import opened Dispatch
  import opened Brain

  /** The numbered entries of a batch, the operations run, and the world afterwards. */
  datatype BatchRun<W> = BatchRun(entries: seq<string>, invoked: seq<Invocation>, world: W)

  /** The reply of `/chat` (or the 500 detail), the operations run, and the world afterwards. */
  datatype ChatRun<W> = ChatRun(reply: Result<Json, string>, invoked: seq<Invocation>, world: W)

  /**
    Entry `i` of a batch.  A reply starting with `✅` loses it (and the
    surrounding blanks) before `"i. ✅ "` is put in front; any other string,
    error replies included, gets the same prefix; an exception from
    `ejecutar_accion` or from `startswith` on a non-string gives `"i. ❌ Error: …"`.
   */
  function BatchEntry(i: nat, result: Result<Json, string>): string
  {
    match result
    case Err(e) => NatToString(i) + ". ❌ Error: " + e
    case Ok(v) =>
      if !v.JStr? then NatToString(i) + ". ❌ Error: " + NoAttribute(v, "startswith")
      else if StartsWith(v.s, "✅") then NatToString(i) + ". ✅ " + Strip(v.s[1..])
      else NatToString(i) + ". ✅ " + v.s
  }

  /** `ejecutar_accion` as one step of a batch. */
  function Runner<W>(call: Call<W>, log: Log<W>): (Json, W) -> Run<W>
  {
    (p, v) => EjecutarAccion(p, v, call, log)
  }

  /**
    The loop over `enumerate(parsed["actions"], i)` with `run` for
    `ejecutar_accion`: every item runs, in order, on the world the previous
    one left.
   */
  function Batch<W>(items: seq<Json>, i: nat, w: W, run: (Json, W) -> Run<W>): (b: BatchRun<W>)
    ensures |b.entries| == |items|
  {
    Numbered(items, i, w, run, BatchEntry)
  }

  /** The same loop with `entry` writing the line for each numbered result. */
  function Numbered<W>(items: seq<Json>, i: nat, w: W, run: (Json, W) -> Run<W>, entry: (nat, Result<Json, string>) -> string): (b: BatchRun<W>)
    ensures |b.entries| == |items|
    decreases |items|
  {
    if |items| == 0 then BatchRun([], [], w)
    else
      var r := run(items[0], w);
      var rest := Numbered(items[1..], i + 1, r.world, run, entry);
      BatchRun([entry(i, r.result)] + rest.entries, r.invoked + rest.invoked, rest.world)
  }

  /** Running `xs + ys` is running `xs`, then `ys` numbered on from where `xs` stopped. */
  lemma BatchAppend<W>(xs: seq<Json>, ys: seq<Json>, i: nat, w: W, run: (Json, W) -> Run<W>)
    ensures var a := Batch(xs, i, w, run);
      var b := Batch(ys, i + |xs|, a.world, run);
      Batch(xs + ys, i, w, run) == BatchRun(a.entries + b.entries, a.invoked + b.invoked, b.world)
  {
    NumberedAppend(xs, ys, i, w, run, BatchEntry);
  }

  /** `BatchAppend` for any way of writing the entries. */
  lemma {:induction false} NumberedAppend<W>(xs: seq<Json>, ys: seq<Json>, i: nat, w: W, run: (Json, W) -> Run<W>, entry: (nat, Result<Json, string>) -> string)
    ensures var a := Numbered(xs, i, w, run, entry);
      var b := Numbered(ys, i + |xs|, a.world, run, entry);
      Numbered(xs + ys, i, w, run, entry) == BatchRun(a.entries + b.entries, a.invoked + b.invoked, b.world)
    decreases |xs|
  {
    if |xs| == 0 {
      assert xs + ys == ys;
    } else {
      var r := run(xs[0], w);
      var a1 := Numbered(xs[1..], i + 1, r.world, run, entry);
      var b := Numbered(ys, i + |xs|, a1.world, run, entry);
      NumberedAppend(xs[1..], ys, i + 1, r.world, run, entry);
      ConsAppend(xs, ys);
      Regroup([entry(i, r.result)], a1.entries, b.entries);
      Regroup(r.invoked, a1.invoked, b.invoked);
    }
  }

  lemma ConsAppend<T>(xs: seq<T>, ys: seq<T>)
    requires |xs| > 0
    ensures (xs + ys)[0] == xs[0] && (xs + ys)[1..] == xs[1..] + ys
  {
  }

  lemma TakeOneMore<T>(s: seq<T>, k: nat)
    requires k < |s|
    ensures s[..k + 1] == s[..k] + [s[k]]
  {
  }

  lemma Regroup<T>(x: seq<T>, a: seq<T>, b: seq<T>)
    ensures x + (a + b) == (x + a) + b
  {
  }

  /** The world after the first `k` items of a batch. */
  function WorldAfter<W>(items: seq<Json>, k: nat, w: W, run: (Json, W) -> Run<W>): W
    requires k <= |items|
  {
    Batch(items[..k], 1, w, run).world
  }

  /**
    Entry `k` of a batch is numbered `k + 1` and reports item `k` as run on
    the world the earlier items left, whatever happened to them.
   */
  lemma BatchNumbering<W>(items: seq<Json>, k: nat, w: W, run: (Json, W) -> Run<W>)
    requires k < |items|
    ensures Batch(items, 1, w, run).entries[k] == BatchEntry(k + 1, run(items[k], WorldAfter(items, k, w, run)).result)
  {
    var pre := items[..k];
    var suf := items[k..];
    assert items == pre + suf;
    BatchAppend(pre, suf, 1, w, run);
    var a := Batch(pre, 1, w, run);
    var b := Batch(suf, 1 + k, a.world, run);
    BatchFirst(suf, 1 + k, a.world, run);
    assert Batch(items, 1, w, run).entries[k] == b.entries[0];
  }

  lemma BatchFirst<W>(items: seq<Json>, i: nat, w: W, run: (Json, W) -> Run<W>)
    requires |items| > 0
    ensures Batch(items, i, w, run).entries[0] == BatchEntry(i, run(items[0], w).result)
  {
  }

  /** A batch of one item is that item's entry, operations and world. */
  lemma BatchSingle<W>(item: Json, i: nat, w: W, run: (Json, W) -> Run<W>)
    ensures var r := run(item, w);
      Batch([item], i, w, run) == BatchRun([BatchEntry(i, r.result)], r.invoked, r.world)
  {
    var r := run(item, w);
    assert [item][1..] == [];
    assert Numbered([], i + 1, r.world, run, BatchEntry) == BatchRun([], [], r.world);
  }

  /** The batch as `chat` runs it: a loop appending one entry per item. */
  method RunBatch<W>(items: seq<Json>, w: W, run: (Json, W) -> Run<W>) returns (b: BatchRun<W>)
    ensures b == Batch(items, 1, w, run)
  {
    b := BatchRun([], [], w);
    var k := 0;
    while k < |items|
      invariant 0 <= k <= |items|
      invariant b == Batch(items[..k], 1, w, run)
    {
      var r := run(items[k], b.world);
      BatchAppend(items[..k], [items[k]], 1, w, run);
      TakeOneMore(items, k);
      BatchSingle(items[k], k + 1, b.world, run);
      b := BatchRun(b.entries + [BatchEntry(k + 1, r.result)], b.invoked + r.invoked, r.world);
      k := k + 1;
    }
    assert items[..|items|] == items;
  }

  /** A reply that is an error message still gets the success mark: `"i. ✅ ❌ …"`. */
  lemma ErrorReplyMarkedDone(i: nat, s: string)
    requires |s| > 0 && s[0] == '❌'
    ensures BatchEntry(i, Ok(JStr(s))) == NatToString(i) + ". ✅ " + s
  {
    assert s[..1] != "✅";
  }

  /** A successful reply keeps its text, without its own mark, behind the entry's number. */
  lemma DoneReplyRenumbered(i: nat, s: string)
    requires |s| > 0 && s[0] == '✅'
    ensures BatchEntry(i, Ok(JStr(s))) == NatToString(i) + ". ✅ " + Strip(s[1..])
  {
    assert s[..1] == "✅";
  }

  const InvalidFormat := "❌ Formato de respuesta inválido del modelo.\n\nRecibido: "

  const NoAnswer := "No entiendo qué quieres hacer."

  /** The routing inside `chat`, once `ask_brain` returned `parsed`. */
  function Route<W>(parsed: Json, w: W, call: Call<W>, log: Log<W>): (r: ChatRun<W>)
  {
    match PyIn("actions", parsed)
    case Err(e) => ChatRun(Err(e), [], w)
    case Ok(hasActions) =>
      var batch: Result<Option<seq<Json>>, string> :=
        if !hasActions then Ok(None)
        else match PyGetItem(parsed, "actions")
          case Err(e) => Err(e)
          case Ok(v) => Ok(if v.JList? && |v.items| > 0 then Some(v.items) else None);
      match batch
      case Err(e) => ChatRun(Err(e), [], w)
      case Ok(Some(items)) =>
        var b := Batch(items, 1, w, Runner(call, log));
        ChatRun(Ok(JStr("✅ Acciones completadas:\n\n" + Join("\n\n", b.entries))), b.invoked, b.world)
      case Ok(None) =>
        match PyIn("action", parsed)
        case Err(e) => ChatRun(Err(e), [], w)
        case Ok(true) =>
          (match PyGetItem(parsed, "action")
           case Err(e) => ChatRun(Err(e), [], w)
           case Ok(a) =>
             if a == JStr("none") then
               (match PyGet(parsed, "answer", JStr(NoAnswer))
                case Err(e) => ChatRun(Err(e), [], w)
                case Ok(answer) => ChatRun(Ok(answer), [], w))
             else
               var run := EjecutarAccion(parsed, w, call, log);
               ChatRun(run.result, run.invoked, run.world))
        case Ok(false) =>
          match PyIn("answer", parsed)
          case Err(e) => ChatRun(Err(e), [], w)
          case Ok(true) =>
            (match PyGetItem(parsed, "answer")
             case Err(e) => ChatRun(Err(e), [], w)
             case Ok(answer) => ChatRun(Ok(answer), [], w))
          case Ok(false) => ChatRun(Ok(JStr(InvalidFormat + Take(PyStr(parsed), 200))), [], w)
  }

  /** `json.loads(context)` when a context was sent; anything unreadable counts as none. */
  function ContextValue(context: Option<string>, decode: string -> Result<Json, string>): (c: Json)
    ensures context.None? || context == Some("") ==> c == JList([])
    ensures context.Some? && context.value != "" && decode(context.value).Ok? ==> c == decode(context.value).value
    ensures context.Some? && context.value != "" && decode(context.value).Err? ==> c == JList([])
  {
    if context.None? || context.value == "" then JList([])
    else match decode(context.value)
      case Ok(j) => j
      case Err(_) => JList([])
  }

  /** `chat(message, context)`: `Err` is the detail of the HTTP 500. */
  function ChatEndpoint<W>(system: string, message: string, context: Option<string>,
                           llm: seq<Message> -> Result<string, string>, decode: string -> Result<Json, string>,
                           w: W, call: Call<W>, log: Log<W>): (r: ChatRun<W>)
    ensures AskBrain(system, message, ContextValue(context, decode), llm, decode).Err? ==>
      r == ChatRun(Err("Error al procesar el mensaje: " + AskBrain(system, message, ContextValue(context, decode), llm, decode).error), [], w)
    ensures AskBrain(system, message, ContextValue(context, decode), llm, decode).Ok? ==>
      var routed := Route(AskBrain(system, message, ContextValue(context, decode), llm, decode).value, w, call, log);
      && r.invoked == routed.invoked && r.world == routed.world
      && (routed.reply.Ok? ==> r.reply == routed.reply)
      && (routed.reply.Err? ==> r.reply == Err("Error al procesar el mensaje: " + routed.reply.error))
  {
    var asked := AskBrain(system, message, ContextValue(context, decode), llm, decode);
    if asked.Err? then ChatRun(Err("Error al procesar el mensaje: " + asked.error), [], w)
    else
      var routed := Route(asked.value, w, call, log);
      ChatRun(if routed.reply.Ok? then routed.reply else Err("Error al procesar el mensaje: " + routed.reply.error),
              routed.invoked, routed.world)
  }

  // ---------------------------------------------------------------------------
  // Routing properties
  // ---------------------------------------------------------------------------

  /** A non-empty `actions` list wins over `action`: every item runs and is reported. */
  lemma ActionsTakePrecedence<W>(entries: seq<(string, Json)>, items: seq<Json>, w: W, call: Call<W>, log: Log<W>)
    requires Lookup(entries, "actions") == Some(JList(items)) && items != []
    ensures var b := Batch(items, 1, w, Runner(call, log));
      Route(JDict(entries), w, call, log)
        == ChatRun(Ok(JStr("✅ Acciones completadas:\n\n" + Join("\n\n", b.entries))), b.invoked, b.world)
  {
  }

  /** Without a usable `actions` list, an intent whose action is `"none"` is answered without running anything. */
  lemma NoneIsAnswered<W>(entries: seq<(string, Json)>, w: W, call: Call<W>, log: Log<W>)
    requires !HasKey(entries, "actions")
    requires Lookup(entries, "action") == Some(JStr("none"))
    ensures Route(JDict(entries), w, call, log) == ChatRun(Ok(GetOr(entries, "answer", JStr(NoAnswer))), [], w)
  {
  }

  /** Any other single action goes to `ejecutar_accion`. */
  lemma SingleActionDispatched<W>(entries: seq<(string, Json)>, a: Json, w: W, call: Call<W>, log: Log<W>)
    requires !HasKey(entries, "actions")
    requires Lookup(entries, "action") == Some(a) && a != JStr("none")
    ensures var run := EjecutarAccion(JDict(entries), w, call, log);
      Route(JDict(entries), w, call, log) == ChatRun(run.result, run.invoked, run.world)
  {
  }

  /**
    With no `action`, no `answer` and no usable `actions` list (an empty one
    included), the reply quotes the first 200 characters of `str(parsed)`.
   */
  lemma InvalidFormatReply<W>(entries: seq<(string, Json)>, w: W, call: Call<W>, log: Log<W>)
    requires !HasKey(entries, "action") && !HasKey(entries, "answer")
    requires Lookup(entries, "actions").Some? ==> !(Lookup(entries, "actions").value.JList? && |Lookup(entries, "actions").value.items| > 0)
    ensures Route(JDict(entries), w, call, log) == ChatRun(Ok(JStr(InvalidFormat + Take(PyStr(JDict(entries)), 200))), [], w)
  {
  }

  /**
    Every intent `ask_brain` can hand over holds `action` or `actions`, so the
    invalid-format reply is reached only through an empty or non-list
    `actions`.
   */
  lemma InvalidFormatNeedsActions<W>(system: string, message: string, context: Option<string>,
                                     llm: seq<Message> -> Result<string, string>, decode: string -> Result<Json, string>,
                                     w: W, call: Call<W>, log: Log<W>)
    requires AskBrain(system, message, ContextValue(context, decode), llm, decode).Ok?
    ensures var parsed := AskBrain(system, message, ContextValue(context, decode), llm, decode).value;
      PyIn("action", parsed) == Ok(true) || PyIn("actions", parsed) == Ok(true)
  {
  }
}

=== FILE: dispatch.dfy ===
/**
  `ejecutar_accion(parsed)`: one intent produced by the language model is
  turned into at most one call of an action operation and a reply string.

  The operations themselves are an oracle `call`: given an invocation (the
  operation's Python name and its positional arguments) and the current
  world, it answers with the returned value or the message of the exception
  raised, and the world afterwards.  `guardar_log` is an oracle `log` as
  well; whatever it does to the world is kept, and its failures are
  swallowed, exactly as the bare `except: pass` around it does.
 */
module Dispatch {
  import opened Base
  import opened PyValue

  datatype Invocation = Invocation(op: string, args: seq<Json>)

  /** What an operation did: returned a value, or raised an exception with this `str(e)`. */
  datatype Outcome = Returned(value: Json) | Raised(message: string)

  type Call<!W> = (Invocation, W) -> (Outcome, W)

  /** The arguments of one `guardar_log(action, params, resultado)` call. */
  datatype LogRecord = LogRecord(action: Json, params: Json, resultado: Json)

  type Log<!W> = (LogRecord, W) -> W

  /**
    The inside of the `try`: the value `resultado` ends with, or the message
    of the exception that left the block, with the invocations made.
   */
  datatype Step<W> = Step(outcome: Result<Json, string>, invoked: seq<Invocation>, world: W)

  /**
    A whole `ejecutar_accion` call: the value returned (or the message of an
    exception that escaped it), the invocations made, the log call made, and
    the world afterwards.
   */
  datatype Run<W> = Run(result: Result<Json, string>, invoked: seq<Invocation>, logged: Option<LogRecord>, world: W)

  function Say(s: string): Result<Json, string>
  {
    Ok(JStr(s))
  }

  /** A reply given without calling any operation. */
  function Refuse<W>(message: string, w: W): Step<W>
  {
    Step(Say(message), [], w)
  }

  /** `params.get(...)` on a `params` that is not a dictionary raises AttributeError. */
  function NoGet<W>(params: Json, w: W): Step<W>
  {
    Step(Err(NoAttribute(params, "get")), [], w)
  }

  /** The message used when an operation hands back a value of a shape its Python function never returns. */
  function Unexpected(op: string): string
  {
    "unexpected result from " + op
  }

  /** At most one invocation, threaded through the world, whose exception becomes the step's. */
  ghost predicate Sane<W>(s: Step<W>, w: W, call: Call<W>)
  {
    && |s.invoked| <= 1
    && (|s.invoked| == 0 ==> s.world == w)
    && (|s.invoked| == 1 ==>
          s.world == call(s.invoked[0], w).1
          && (call(s.invoked[0], w).0.Raised? ==> s.outcome == Err(call(s.invoked[0], w).0.message)))
  }

  /** Calls one operation; `k` builds the reply from the value it returned. */
  function Invoke<W>(op: string, args: seq<Json>, w: W, call: Call<W>, k: Json -> Result<Json, string>): (s: Step<W>)
    ensures s.invoked == [Invocation(op, args)]
    ensures Sane(s, w, call)
    ensures call(Invocation(op, args), w).0.Returned? ==> s.outcome == k(call(Invocation(op, args), w).0.value)
  {
    var (o, w1) := call(Invocation(op, args), w);
    match o
    case Raised(m) => Step(Err(m), [Invocation(op, args)], w1)
    case Returned(v) => Step(k(v), [Invocation(op, args)], w1)
  }

  /** `f" en {navegador}" if navegador else ""` */
  function NavText(navegador: Json): string
  {
    if Truthy(navegador) then " en " + PyStr(navegador) else ""
  }

  // ---------------------------------------------------------------------------
  // Truncated replies
  // ---------------------------------------------------------------------------

  /** `text[:500]`, followed by the truncation note when something was cut. */
  function Truncated(text: string): (r: string)
  {
    Take(text, 500) + (if |text| > 500 then "\n... (truncado)" else "")
  }

  /** The note that `n` items beyond the first `k` were left out, or nothing. */
  function More(n: nat, k: nat, tail: string): string
  {
    if n > k then "... y " + NatToString(n - k) + tail else ""
  }

  /** `[item[key] for item in items]`: the first missing key raises. */
  function ItemsAt(items: seq<Json>, key: string): (r: Result<seq<Json>, string>)
    ensures r.Ok? ==>
      (|r.value| == |items| && forall i | 0 <= i < |items| :: PyGetItem(items[i], key) == Ok(r.value[i]))
    ensures r.Err? <==> exists i | 0 <= i < |items| :: PyGetItem(items[i], key).Err?
  {
    if |items| == 0 then Ok([])
    else
      match PyGetItem(items[0], key)
      case Err(e) => Err(e)
      case Ok(v) =>
        match ItemsAt(items[1..], key)
        case Err(e) =>
          assert exists i | 0 <= i < |items[1..]| :: PyGetItem(items[1..][i], key).Err?;
          var i :| 0 <= i < |items[1..]| && PyGetItem(items[1..][i], key).Err?;
          assert items[1..][i] == items[i + 1];
          Err(e)
        case Ok(vs) =>
          assert forall i | 1 <= i < |items| :: items[i] == items[1..][i - 1];
          Ok([v] + vs)
  }

  /** The texts `"\n".join(values)` needs, or the TypeError for the first value that is not a string. */
  function Texts(values: seq<Json>, from: nat): (r: Result<seq<string>, string>)
    ensures r.Ok? ==>
      (|r.value| == |values| && forall i | 0 <= i < |values| :: values[i] == JStr(r.value[i]))
    ensures r.Err? <==> exists i | 0 <= i < |values| :: !values[i].JStr?
    decreases |values|
  {
    if |values| == 0 then Ok([])
    else if !values[0].JStr? then
      Err("sequence item " + NatToString(from) + ": expected str instance, " + TypeName(values[0]) + " found")
    else
      match Texts(values[1..], from + 1)
      case Err(e) =>
        var i :| 0 <= i < |values[1..]| && !values[1..][i].JStr?;
        assert values[i + 1] == values[1..][i];
        Err(e)
      case Ok(ts) =>
        assert forall i | 1 <= i < |values| :: values[i] == values[1..][i - 1];
        Ok([values[0].s] + ts)
  }

  /** The reply to `listar_carpeta`: the count, the first 20 names, and how many were left out. */
  function ListingReply(items: Json): Result<Json, string>
  {
    if !items.JList? then Err(Unexpected("listar_carpeta"))
    else
      match ItemsAt(Take(items.items, 20), "nombre")
      case Err(e) => Err(e)
      case Ok(values) =>
        match Texts(values, 0)
        case Err(e) => Err(e)
        case Ok(names) =>
          var n := |items.items|;
          var more := if n > 20 then "\n... y " + NatToString(n - 20) + " más" else "";
          Say("✅ Encontrados " + NatToString(n) + " elementos:\n" + Join("\n", names) + more)
  }

  /** The lines `- {archivo} (líneas: {lineas})` of the search reply. */
  function HitLines(hits: seq<Json>): Result<string, string>
  {
    if |hits| == 0 then Ok("")
    else
      match PyGetItem(hits[0], "archivo")
      case Err(e) => Err(e)
      case Ok(archivo) =>
        match PyGetItem(hits[0], "lineas")
        case Err(e) => Err(e)
        case Ok(lineas) =>
          match HitLines(hits[1..])
          case Err(e) => Err(e)
          case Ok(rest) => Ok("- " + PyStr(archivo) + " (líneas: " + PyStr(lineas) + ")\n" + rest)
  }

  /** The reply to `buscar_texto_en_archivos`. */
  function SearchReply(ruta: Json, texto: Json, hits: Json): Result<Json, string>
  {
    if !hits.JList? then Err(Unexpected("buscar_texto_en_archivos"))
    else if |hits.items| == 0 then Say("✅ No se encontró '" + PyStr(texto) + "' en " + PyStr(ruta))
    else
      var n := |hits.items|;
      match HitLines(Take(hits.items, 10))
      case Err(e) => Err(e)
      case Ok(lines) =>
        Say("✅ Encontrado '" + PyStr(texto) + "' en " + NatToString(n) + " archivos:\n" + lines
            + More(n, 10, " archivos más"))
  }

  /** The lines `- {nombre} ({fecha})` of the trash reply. */
  function TrashLines(items: seq<Json>): Result<string, string>
  {
    if |items| == 0 then Ok("")
    else
      match PyGetItem(items[0], "nombre")
      case Err(e) => Err(e)
      case Ok(nombre) =>
        match PyGetItem(items[0], "fecha")
        case Err(e) => Err(e)
        case Ok(fecha) =>
          match TrashLines(items[1..])
          case Err(e) => Err(e)
          case Ok(rest) => Ok("- " + PyStr(nombre) + " (" + PyStr(fecha) + ")\n" + rest)
  }

  /** The reply to `listar_papelera`. */
  function TrashReply(items: Json): Result<Json, string>
  {
    if !items.JList? then Err(Unexpected("listar_papelera"))
    else if |items.items| == 0 then Say("✅ La papelera está vacía.")
    else
      var n := |items.items|;
      match TrashLines(Take(items.items, 20))
      case Err(e) => Err(e)
      case Ok(lines) => Say("✅ Papelera (" + NatToString(n) + " archivos):\n" + lines + More(n, 20, " más"))
  }

  /** A text-valued result, truncated at 500 characters behind `header`. */
  function TextReply(op: string, header: string, v: Json): Result<Json, string>
  {
    if v.JStr? then Say(header + Truncated(v.s)) else Err(Unexpected(op))
  }

  /** `f"✅ VSCode abierto{' en ' + ruta if ruta else ''}"`; a true non-string `ruta` cannot be concatenated. */
  function VscodeReply(ruta: Json): Result<Json, string>
  {
    if !Truthy(ruta) then Say("✅ VSCode abierto")
    else if ruta.JStr? then Say("✅ VSCode abierto en " + ruta.s)
    else Err("can only concatenate str (not \"" + TypeName(ruta) + "\") to str")
  }

  // ---------------------------------------------------------------------------
  // Which operation each action runs
  // ---------------------------------------------------------------------------

  // The action ids of each group of branches, in source order.

  predicate IsFileAction(a: string)
  {
    a == "crear_carpeta" || a == "listar_carpeta" || a == "leer_archivo" || a == "crear_txt"
    || a == "editar_archivo" || a == "copiar_archivo" || a == "mover_archivo" || a == "eliminar"
    || a == "duplicar"
  }

  predicate IsSystemAction(a: string)
  {
    a == "abrir_carpeta" || a == "abrir_app" || a == "cerrar_app" || a == "cerrar_ventana"
    || a == "tomar_screenshot"
  }

  predicate IsWebAction(a: string)
  {
    a == "abrir_url" || a == "buscar_google" || a == "buscar_youtube"
    || a == "abrir_youtube_en_navegador"
  }

  predicate IsPlatformAction(a: string)
  {
    a == "control_youtube" || a == "control_tiktok" || a == "control_instagram"
  }

  predicate IsOfficeAction(a: string)
  {
    a == "crear_doc_google_docs" || a == "crear_docx" || a == "crear_ppt"
  }

  predicate IsIntegrationAction(a: string)
  {
    a == "abrir_canva" || a == "abrir_gamma" || a == "control_spotify"
    || a == "enviar_prompt_chatgpt" || a == "enviar_prompt_gemini" || a == "enviar_prompt_cursor"
  }

  predicate IsDevAction(a: string)
  {
    a == "buscar_texto_en_archivos" || a == "crear_proyecto" || a == "abrir_vscode"
    || a == "ejecutar_comando" || a == "listar_papelera" || a == "restaurar_desde_papelera"
  }

  // The ids handled by a group of branches or by one after it.

  predicate FromIntegration(a: string) { IsIntegrationAction(a) || IsDevAction(a) }
  predicate FromOffice(a: string) { IsOfficeAction(a) || FromIntegration(a) }
  predicate FromPlatform(a: string) { IsPlatformAction(a) || FromOffice(a) }
  predicate FromWeb(a: string) { IsWebAction(a) || FromPlatform(a) }
  predicate FromSystem(a: string) { IsSystemAction(a) || FromWeb(a) }

  /** Every action id that runs an operation. */
  predicate Routed(a: string) { IsFileAction(a) || FromSystem(a) }

  /** Every action id the chain recognises. */
  predicate Known(a: string) { Routed(a) || a == "none" }

  /** An argument read from `params`: `params.get(key)`, or `params.get(key, default)`. */
  datatype Arg = Key(key: string) | KeyOr(key: string, default: Json)

  function ArgValue(entries: seq<(string, Json)>, arg: Arg): Json
  {
    match arg
    case Key(k) => Get(entries, k)
    case KeyOr(k, d) => GetOr(entries, k, d)
  }

  /**
    How the chain handles an action: the operation it calls, the arguments it
    passes, the parameters that must be true for the call to happen, and the
    reply when one of them is not.
   */
  datatype Route = Route(op: string, args: seq<Arg>, needs: seq<string>, missing: string)

  /** A call that needs no true parameter. */
  function Always(op: string, args: seq<Arg>): Route
  {
    Route(op, args, [], "")
  }

  /** `crear_carpeta` calls `crear_carpeta` on a true `ruta`, and `crear_carpeta_en_escritorio` otherwise. */
  function CrearCarpetaRoute(entries: seq<(string, Json)>): Route
  {
    if Truthy(Get(entries, "ruta")) then Always("crear_carpeta", [Key("ruta")])
    else Always("crear_carpeta_en_escritorio", [KeyOr("nombre", JStr("CarpetaIA"))])
  }

  const ListarCarpetaRoute := Always("listar_carpeta", [Key("ruta"), Key("filtro")])
  const LeerArchivoRoute := Always("leer_archivo", [Key("ruta")])
  const CrearTxtRoute :=
    Route("crear_txt", [Key("ruta"), KeyOr("contenido", JStr(""))], ["ruta"], "❌ Error: falta la ruta del archivo.")
  const EditarArchivoRoute :=
    Route("editar_archivo", [Key("ruta"), KeyOr("contenido", JStr("")), KeyOr("modo", JStr("sobrescribir"))],
          ["ruta"], "❌ Error: falta la ruta del archivo.")

  /** `copiar_archivo` and `mover_archivo` share their checks and call the operation of their own name. */
  function CopyMoveRoute(a: string): Route
  {
    Route(a, [Key("origen"), Key("destino")], ["origen", "destino"], "❌ Error: falta origen o destino.")
  }

  const EliminarRoute :=
    Route("eliminar", [Key("ruta"), KeyOr("permanente", JBool(false))], ["ruta"], "❌ Error: falta la ruta.")
  const DuplicarRoute := Route("duplicar", [Key("ruta"), Key("nuevo_nombre")], ["ruta"], "❌ Error: falta la ruta.")

  const AbrirCarpetaRoute :=
    Route("abrir_carpeta", [Key("ruta")], ["ruta"], "❌ Error: falta la ruta de la carpeta.")
  const AbrirAppRoute :=
    Route("abrir_app", [Key("nombre")], ["nombre"], "❌ Error: falta el nombre de la aplicación.")
  const CerrarAppRoute :=
    Route("cerrar_app_por_nombre", [Key("nombre")], ["nombre"], "❌ Error: falta el nombre de la aplicación.")
  const CerrarVentanaRoute := Always("cerrar_ventana_activa", [])
  const ScreenshotRoute := Always("tomar_screenshot", [Key("ruta")])

  const AbrirUrlRoute := Route("abrir_url", [Key("url"), Key("navegador")], ["url"], "❌ Error: falta la URL.")
  const BuscarGoogleRoute := Route("buscar_google", [Key("consulta")], ["consulta"], "❌ Error: falta la consulta.")
  const BuscarYoutubeRoute :=
    Route("buscar_youtube", [Key("consulta"), Key("navegador")], ["consulta"], "❌ Error: falta la consulta.")
  const YoutubeInBrowserRoute :=
    Route("abrir_youtube_en_navegador", [Key("navegador")], ["navegador"], "❌ Error: falta el nombre del navegador.")

  /** The playback branches share their checks and call the operation of their own name. */
  function ControlRoute(a: string): Route
  {
    Route(a, [Key("accion"), Key("navegador")], ["accion"], "❌ Error: falta la acción.")
  }

  const GoogleDocRoute :=
    Route("crear_doc_google_docs", [Key("nombre"), Key("plantilla"), Key("contenido")], ["nombre"],
          "❌ Error: falta el nombre del documento.")
  const DocxRoute :=
    Route("crear_docx", [Key("ruta"), KeyOr("contenido", JStr("")), Key("plantilla")], ["ruta"],
          "❌ Error: falta la ruta del archivo.")
  const PptRoute :=
    Route("crear_ppt", [Key("ruta"), KeyOr("titulo", JStr("Presentación")), Key("plantilla")], ["ruta"],
          "❌ Error: falta la ruta del archivo.")

  const CanvaRoute := Always("abrir_canva", [])
  const GammaRoute := Always("abrir_gamma", [])
  const SpotifyRoute := Route("control_spotify", [Key("accion")], ["accion"], "❌ Error: falta la acción.")

  /** The ChatGPT and Gemini branches share their checks and call the operation of their own name. */
  function PromptRoute(a: string): Route
  {
    Route(a, [Key("prompt"), Key("navegador")], ["prompt"], "❌ Error: falta el prompt.")
  }

  const CursorRoute := Route("enviar_prompt_cursor", [Key("prompt")], ["prompt"], "❌ Error: falta el prompt.")

  const SearchRoute :=
    Route("buscar_texto_en_archivos", [Key("ruta"), Key("texto"), Key("extensiones")], ["ruta", "texto"],
          "❌ Error: falta ruta o texto a buscar.")
  const ProjectRoute :=
    Route("crear_proyecto", [Key("nombre"), KeyOr("template", JStr("basico")), Key("ruta")], ["nombre"],
          "❌ Error: falta el nombre del proyecto.")
  const VscodeRoute := Always("abrir_vscode", [Key("ruta")])
  const CommandRoute :=
    Route("ejecutar_comando", [Key("comando"), Key("directorio")], ["comando"], "❌ Error: falta el comando.")
  const TrashListRoute := Always("listar_papelera", [])
  const RestoreRoute :=
    Route("restaurar_desde_papelera", [Key("nombre_archivo"), Key("destino")], ["nombre_archivo"],
          "❌ Error: falta el nombre del archivo.")

  /**
    The route of a routed action, looked up in source order; the groups after
    the file branches are `SystemRoute`, `WebRoute` and so on, each handing on
    to the next. (Ids outside `Routed` end at the last route; they are never
    asked about.)
   */
  function RouteOf(a: string, entries: seq<(string, Json)>): Route
  {
    if a == "crear_carpeta" then CrearCarpetaRoute(entries)
    else if a == "listar_carpeta" then ListarCarpetaRoute
    else if a == "leer_archivo" then LeerArchivoRoute
    else if a == "crear_txt" then CrearTxtRoute
    else if a == "editar_archivo" then EditarArchivoRoute
    else if a == "copiar_archivo" || a == "mover_archivo" then CopyMoveRoute(a)
    else if a == "eliminar" then EliminarRoute
    else if a == "duplicar" then DuplicarRoute
    else SystemRoute(a)
  }

  function SystemRoute(a: string): Route
  {
    if a == "abrir_carpeta" then AbrirCarpetaRoute
    else if a == "abrir_app" then AbrirAppRoute
    else if a == "cerrar_app" then CerrarAppRoute
    else if a == "cerrar_ventana" then CerrarVentanaRoute
    else if a == "tomar_screenshot" then ScreenshotRoute
    else WebRoute(a)
  }

  function WebRoute(a: string): Route
  {
    if a == "abrir_url" then AbrirUrlRoute
    else if a == "buscar_google" then BuscarGoogleRoute
    else if a == "buscar_youtube" then BuscarYoutubeRoute
    else if a == "abrir_youtube_en_navegador" then YoutubeInBrowserRoute
    else PlatformRoute(a)
  }

  function PlatformRoute(a: string): Route
  {
    if a == "control_youtube" || a == "control_tiktok" || a == "control_instagram" then ControlRoute(a)
    else OfficeRoute(a)
  }

  function OfficeRoute(a: string): Route
  {
    if a == "crear_doc_google_docs" then GoogleDocRoute
    else if a == "crear_docx" then DocxRoute
    else if a == "crear_ppt" then PptRoute
    else IntegrationRoute(a)
  }

  function IntegrationRoute(a: string): Route
  {
    if a == "abrir_canva" then CanvaRoute
    else if a == "abrir_gamma" then GammaRoute
    else if a == "control_spotify" then SpotifyRoute
    else if a == "enviar_prompt_chatgpt" || a == "enviar_prompt_gemini" then PromptRoute(a)
    else if a == "enviar_prompt_cursor" then CursorRoute
    else DevRoute(a)
  }

  function DevRoute(a: string): Route
  {
    if a == "buscar_texto_en_archivos" then SearchRoute
    else if a == "crear_proyecto" then ProjectRoute
    else if a == "abrir_vscode" then VscodeRoute
    else if a == "ejecutar_comando" then CommandRoute
    else if a == "listar_papelera" then TrashListRoute
    else RestoreRoute
  }

  /** The entries of `params` when it is a dictionary. */
  function EntriesOf(params: Json): seq<(string, Json)>
  {
    if params.JDict? then params.entries else []
  }

  /** Every parameter named in `keys` is true. */
  predicate Present(entries: seq<(string, Json)>, keys: seq<string>)
  {
    forall k | k in keys :: Truthy(Get(entries, k))
  }

  /** `invoked` is the one call of `route`'s operation, with the arguments read from `entries`. */
  predicate CallsAlong(invoked: seq<Invocation>, route: Route, entries: seq<(string, Json)>)
  {
    && |invoked| == 1
    && invoked[0].op == route.op
    && |invoked[0].args| == |route.args|
    && forall i | 0 <= i < |route.args| :: invoked[0].args[i] == ArgValue(entries, route.args[i])
  }

  /**
    The step the chain takes along `route`: a route without arguments calls
    its operation; otherwise `params` must be a dictionary, and then the call
    happens with the arguments read from it exactly when the needed
    parameters are true, and the route's reply is given when they are not.
   */
  ghost predicate Follows<W>(route: Route, params: Json, s: Step<W>, w: W)
  {
    if route.args == [] then s.invoked == [Invocation(route.op, [])]
    else if !params.JDict? then s == NoGet(params, w)
    else if Present(params.entries, route.needs) then CallsAlong(s.invoked, route, params.entries)
    else s == Refuse(route.missing, w)
  }

  // ---------------------------------------------------------------------------
  // The branches, in source order
  // ---------------------------------------------------------------------------

  /** `crear_carpeta`: the folder `ruta` when it is true, otherwise the desktop folder `nombre`. */
  function CrearCarpetaBranch<W>(params: Json, w: W, call: Call<W>): (s: Step<W>)
    ensures Sane(s, w, call)
    ensures Follows(CrearCarpetaRoute(EntriesOf(params)), params, s, w)
  {
    if !params.JDict? then NoGet(params, w) else
    var ruta := Get(params.entries, "ruta");
    if Truthy(ruta) then
      Invoke("crear_carpeta", [ruta], w, call, _ => Say("✅ Carpeta creada: " + PyStr(ruta)))
    else
      var nombre := GetOr(params.entries, "nombre", JStr("CarpetaIA"));
      Invoke("crear_carpeta_en_escritorio", [nombre], w, call,
             _ => Say("✅ Carpeta '" + PyStr(nombre) + "' creada en el escritorio."))
  }

  /** `listar_carpeta`: the count and the first 20 names. */
  function ListarCarpetaBranch<W>(params: Json, w: W, call: Call<W>): (s: Step<W>)
    ensures Sane(s, w, call)
    ensures Follows(ListarCarpetaRoute, params, s, w)
  {
    if !params.JDict? then NoGet(params, w) else
    var ruta := Get(params.entries, "ruta");
    var filtro := Get(params.entries, "filtro");
    Invoke("listar_carpeta", [ruta, filtro], w, call, ListingReply)
  }

  /** `leer_archivo`: the text, cut at 500 characters. */
  function LeerArchivoBranch<W>(params: Json, w: W, call: Call<W>): (s: Step<W>)
    ensures Sane(s, w, call)
    ensures Follows(LeerArchivoRoute, params, s, w)
  {
    if !params.JDict? then NoGet(params, w) else
    var ruta := Get(params.entries, "ruta");
    Invoke("leer_archivo", [ruta], w, call,
           v => TextReply("leer_archivo", "✅ Contenido de " + PyStr(ruta) + ":\n", v))
  }

  /** `crear_txt`: needs `ruta`; `contenido` defaults to the empty text. */
  function CrearTxtBranch<W>(params: Json, w: W, call: Call<W>): (s: Step<W>)
    ensures Sane(s, w, call)
    ensures Follows(CrearTxtRoute, params, s, w)
  {
    if !params.JDict? then NoGet(params, w) else
    var ruta := Get(params.entries, "ruta");
    var contenido := GetOr(params.entries, "contenido", JStr(""));
    if Truthy(ruta) then
      Invoke("crear_txt", [ruta, contenido], w, call, _ => Say("✅ Archivo creado: " + PyStr(ruta)))
    else Refuse("❌ Error: falta la ruta del archivo.", w)
  }

  /** `editar_archivo`: needs `ruta`; the mode defaults to overwriting. */
  function EditarArchivoBranch<W>(params: Json, w: W, call: Call<W>): (s: Step<W>)
    ensures Sane(s, w, call)
    ensures Follows(EditarArchivoRoute, params, s, w)
  {
    if !params.JDict? then NoGet(params, w) else
    var ruta := Get(params.entries, "ruta");
    var contenido := GetOr(params.entries, "contenido", JStr(""));
    var modo := GetOr(params.entries, "modo", JStr("sobrescribir"));
    if Truthy(ruta) then
      Invoke("editar_archivo", [ruta, contenido, modo], w, call,
             _ => Say("✅ Archivo editado: " + PyStr(ruta) + " (modo: " + PyStr(modo) + ")"))
    else Refuse("❌ Error: falta la ruta del archivo.", w)
  }

  /** `copiar_archivo` and `mover_archivo`: both need `origen` and `destino`. */
  function CopyMoveBranch<W>(a: string, params: Json, w: W, call: Call<W>): (s: Step<W>)
    requires a == "copiar_archivo" || a == "mover_archivo"
    ensures Sane(s, w, call)
    ensures Follows(CopyMoveRoute(a), params, s, w)
  {
    if !params.JDict? then NoGet(params, w) else
    var origen := Get(params.entries, "origen");
    var destino := Get(params.entries, "destino");
    var verb := if a == "copiar_archivo" then "✅ Copiado: " else "✅ Movido: ";
    if Truthy(origen) && Truthy(destino) then
      Invoke(a, [origen, destino], w, call, _ => Say(verb + PyStr(origen) + " → " + PyStr(destino)))
    else Refuse("❌ Error: falta origen o destino.", w)
  }

  /** `eliminar`: needs `ruta`; `permanente` defaults to false. */
  function EliminarBranch<W>(params: Json, w: W, call: Call<W>): (s: Step<W>)
    ensures Sane(s, w, call)
    ensures Follows(EliminarRoute, params, s, w)
  {
    if !params.JDict? then NoGet(params, w) else
    var ruta := Get(params.entries, "ruta");
    var permanente := GetOr(params.entries, "permanente", JBool(false));
    if Truthy(ruta) then Invoke("eliminar", [ruta, permanente], w, call, v => Say("✅ " + PyStr(v)))
    else Refuse("❌ Error: falta la ruta.", w)
  }

  /** `duplicar`: needs `ruta`. */
  function DuplicarBranch<W>(params: Json, w: W, call: Call<W>): (s: Step<W>)
    ensures Sane(s, w, call)
    ensures Follows(DuplicarRoute, params, s, w)
  {
    if !params.JDict? then NoGet(params, w) else
    var ruta := Get(params.entries, "ruta");
    var nuevo := Get(params.entries, "nuevo_nombre");
    if Truthy(ruta) then Invoke("duplicar", [ruta, nuevo], w, call, v => Say("✅ Duplicado: " + PyStr(v)))
    else Refuse("❌ Error: falta la ruta.", w)
  }

  /** Files and folders. */
  function FileActions<W>(a: string, params: Json, intent: seq<(string, Json)>, w: W, call: Call<W>): (s: Step<W>)
    ensures Sane(s, w, call)
    ensures Routed(a) ==> Follows(RouteOf(a, EntriesOf(params)), params, s, w)
    ensures a == "none" ==> s == Step(Ok(NoneAnswer(intent)), [], w)
    ensures !Known(a) ==> s == Refuse("❌ Acción desconocida: " + a, w)
  {
    if a == "crear_carpeta" then CrearCarpetaBranch(params, w, call)
    else if a == "listar_carpeta" then ListarCarpetaBranch(params, w, call)
    else if a == "leer_archivo" then LeerArchivoBranch(params, w, call)
    else if a == "crear_txt" then CrearTxtBranch(params, w, call)
    else if a == "editar_archivo" then EditarArchivoBranch(params, w, call)
    else if a == "copiar_archivo" || a == "mover_archivo" then CopyMoveBranch(a, params, w, call)
    else if a == "eliminar" then EliminarBranch(params, w, call)
    else if a == "duplicar" then DuplicarBranch(params, w, call)
    else SystemActions(a, params, intent, w, call)
  }

  /** `abrir_carpeta`: needs `ruta`. */
  function AbrirCarpetaBranch<W>(params: Json, w: W, call: Call<W>): (s: Step<W>)
    ensures Sane(s, w, call)
    ensures Follows(AbrirCarpetaRoute, params, s, w)
  {
    if !params.JDict? then NoGet(params, w) else
    var ruta := Get(params.entries, "ruta");
    if Truthy(ruta) then Invoke("abrir_carpeta", [ruta], w, call, _ => Say("✅ Carpeta abierta: " + PyStr(ruta)))
    else Refuse("❌ Error: falta la ruta de la carpeta.", w)
  }

  /** `abrir_app`: needs `nombre`. */
  function AbrirAppBranch<W>(params: Json, w: W, call: Call<W>): (s: Step<W>)
    ensures Sane(s, w, call)
    ensures Follows(AbrirAppRoute, params, s, w)
  {
    if !params.JDict? then NoGet(params, w) else
    var nombre := Get(params.entries, "nombre");
    if Truthy(nombre) then
      Invoke("abrir_app", [nombre], w, call, _ => Say("✅ Aplicación '" + PyStr(nombre) + "' abierta."))
    else Refuse("❌ Error: falta el nombre de la aplicación.", w)
  }

  /** `cerrar_app`: needs `nombre`, and calls `cerrar_app_por_nombre`. */
  function CerrarAppBranch<W>(params: Json, w: W, call: Call<W>): (s: Step<W>)
    ensures Sane(s, w, call)
    ensures Follows(CerrarAppRoute, params, s, w)
  {
    if !params.JDict? then NoGet(params, w) else
    var nombre := Get(params.entries, "nombre");
    if Truthy(nombre) then
      Invoke("cerrar_app_por_nombre", [nombre], w, call, _ => Say("✅ Aplicación '" + PyStr(nombre) + "' cerrada."))
    else Refuse("❌ Error: falta el nombre de la aplicación.", w)
  }

  /** `tomar_screenshot`: `ruta` may be missing. */
  function ScreenshotBranch<W>(params: Json, w: W, call: Call<W>): (s: Step<W>)
    ensures Sane(s, w, call)
    ensures Follows(ScreenshotRoute, params, s, w)
  {
    if !params.JDict? then NoGet(params, w) else
    var ruta := Get(params.entries, "ruta");
    Invoke("tomar_screenshot", [ruta], w, call, v => Say("✅ Screenshot guardado: " + PyStr(v)))
  }

  /** Applications, windows and the screen. */
  function SystemActions<W>(a: string, params: Json, intent: seq<(string, Json)>, w: W, call: Call<W>): (s: Step<W>)
    ensures Sane(s, w, call)
    ensures FromSystem(a) ==> Follows(SystemRoute(a), params, s, w)
    ensures a == "none" ==> s == Step(Ok(NoneAnswer(intent)), [], w)
    ensures !Known(a) ==> s == Refuse("❌ Acción desconocida: " + a, w)
  {
    if a == "abrir_carpeta" then AbrirCarpetaBranch(params, w, call)
    else if a == "abrir_app" then AbrirAppBranch(params, w, call)
    else if a == "cerrar_app" then CerrarAppBranch(params, w, call)
    else if a == "cerrar_ventana" then Invoke("cerrar_ventana_activa", [], w, call, _ => Say("✅ Ventana cerrada."))
    else if a == "tomar_screenshot" then ScreenshotBranch(params, w, call)
    else WebActions(a, params, intent, w, call)
  }

  /** `abrir_url`: needs `url`; the browser is passed on. */
  function AbrirUrlBranch<W>(params: Json, w: W, call: Call<W>): (s: Step<W>)
    ensures Sane(s, w, call)
    ensures Follows(AbrirUrlRoute, params, s, w)
  {
    if !params.JDict? then NoGet(params, w) else
    var url := Get(params.entries, "url");
    var navegador := Get(params.entries, "navegador");
    if Truthy(url) then
      Invoke("abrir_url", [url, navegador], w, call, _ => Say("✅ URL abierta" + NavText(navegador) + ": " + PyStr(url)))
    else Refuse("❌ Error: falta la URL.", w)
  }

  /** `buscar_google`: needs `consulta`; the browser is named in the reply but not passed on. */
  function BuscarGoogleBranch<W>(params: Json, w: W, call: Call<W>): (s: Step<W>)
    ensures Sane(s, w, call)
    ensures Follows(BuscarGoogleRoute, params, s, w)
  {
    if !params.JDict? then NoGet(params, w) else
    var consulta := Get(params.entries, "consulta");
    var navegador := Get(params.entries, "navegador");
    if Truthy(consulta) then
      Invoke("buscar_google", [consulta], w, call,
             _ => Say("✅ Buscando en Google" + NavText(navegador) + ": " + PyStr(consulta)))
    else Refuse("❌ Error: falta la consulta.", w)
  }

  /** `buscar_youtube`: needs `consulta`; the browser is passed on. */
  function BuscarYoutubeBranch<W>(params: Json, w: W, call: Call<W>): (s: Step<W>)
    ensures Sane(s, w, call)
    ensures Follows(BuscarYoutubeRoute, params, s, w)
  {
    if !params.JDict? then NoGet(params, w) else
    var consulta := Get(params.entries, "consulta");
    var navegador := Get(params.entries, "navegador");
    if Truthy(consulta) then
      Invoke("buscar_youtube", [consulta, navegador], w, call,
             _ => Say("✅ Buscando en YouTube" + NavText(navegador) + ": " + PyStr(consulta)))
    else Refuse("❌ Error: falta la consulta.", w)
  }

  /** `abrir_youtube_en_navegador`: needs `navegador`. */
  function YoutubeInBrowserBranch<W>(params: Json, w: W, call: Call<W>): (s: Step<W>)
    ensures Sane(s, w, call)
    ensures Follows(YoutubeInBrowserRoute, params, s, w)
  {
    if !params.JDict? then NoGet(params, w) else
    var navegador := Get(params.entries, "navegador");
    if Truthy(navegador) then
      Invoke("abrir_youtube_en_navegador", [navegador], w, call, _ => Say("✅ YouTube abierto en " + PyStr(navegador)))
    else Refuse("❌ Error: falta el nombre del navegador.", w)
  }

  /** The browser and the web. */
  function WebActions<W>(a: string, params: Json, intent: seq<(string, Json)>, w: W, call: Call<W>): (s: Step<W>)
    ensures Sane(s, w, call)
    ensures FromWeb(a) ==> Follows(WebRoute(a), params, s, w)
    ensures a == "none" ==> s == Step(Ok(NoneAnswer(intent)), [], w)
    ensures !Known(a) ==> s == Refuse("❌ Acción desconocida: " + a, w)
  {
    if a == "abrir_url" then AbrirUrlBranch(params, w, call)
    else if a == "buscar_google" then BuscarGoogleBranch(params, w, call)
    else if a == "buscar_youtube" then BuscarYoutubeBranch(params, w, call)
    else if a == "abrir_youtube_en_navegador" then YoutubeInBrowserBranch(params, w, call)
    else PlatformActions(a, params, intent, w, call)
  }

  /** `control_youtube`, `control_tiktok` and `control_instagram`: need `accion`. */
  function ControlBranch<W>(a: string, params: Json, w: W, call: Call<W>): (s: Step<W>)
    requires IsPlatformAction(a)
    ensures Sane(s, w, call)
    ensures Follows(ControlRoute(a), params, s, w)
  {
    if !params.JDict? then NoGet(params, w) else
    var accion := Get(params.entries, "accion");
    var navegador := Get(params.entries, "navegador");
    var platform := if a == "control_youtube" then "YouTube" else if a == "control_tiktok" then "TikTok" else "Instagram";
    if Truthy(accion) then
      Invoke(a, [accion, navegador], w, call, _ => Say("✅ " + platform + ": " + PyStr(accion) + NavText(navegador)))
    else Refuse("❌ Error: falta la acción.", w)
  }

  /** YouTube, TikTok and Instagram playback. */
  function PlatformActions<W>(a: string, params: Json, intent: seq<(string, Json)>, w: W, call: Call<W>): (s: Step<W>)
    ensures Sane(s, w, call)
    ensures FromPlatform(a) ==> Follows(PlatformRoute(a), params, s, w)
    ensures a == "none" ==> s == Step(Ok(NoneAnswer(intent)), [], w)
    ensures !Known(a) ==> s == Refuse("❌ Acción desconocida: " + a, w)
  {
    if a == "control_youtube" || a == "control_tiktok" || a == "control_instagram" then ControlBranch(a, params, w, call)
    else OfficeActions(a, params, intent, w, call)
  }

  /** `crear_doc_google_docs`: needs `nombre`; the operation's value is the reply. */
  function GoogleDocBranch<W>(params: Json, w: W, call: Call<W>): (s: Step<W>)
    ensures Sane(s, w, call)
    ensures Follows(GoogleDocRoute, params, s, w)
  {
    if !params.JDict? then NoGet(params, w) else
    var nombre := Get(params.entries, "nombre");
    var plantilla := Get(params.entries, "plantilla");
    var contenido := Get(params.entries, "contenido");
    if Truthy(nombre) then Invoke("crear_doc_google_docs", [nombre, plantilla, contenido], w, call, v => Ok(v))
    else Refuse("❌ Error: falta el nombre del documento.", w)
  }

  /** `crear_docx`: needs `ruta`; `contenido` defaults to the empty text. */
  function DocxBranch<W>(params: Json, w: W, call: Call<W>): (s: Step<W>)
    ensures Sane(s, w, call)
    ensures Follows(DocxRoute, params, s, w)
  {
    if !params.JDict? then NoGet(params, w) else
    var ruta := Get(params.entries, "ruta");
    var contenido := GetOr(params.entries, "contenido", JStr(""));
    var plantilla := Get(params.entries, "plantilla");
    if Truthy(ruta) then
      Invoke("crear_docx", [ruta, contenido, plantilla], w, call, v => Say("✅ Archivo DOCX creado: " + PyStr(v)))
    else Refuse("❌ Error: falta la ruta del archivo.", w)
  }

  /** `crear_ppt`: needs `ruta`; `titulo` defaults to "Presentación". */
  function PptBranch<W>(params: Json, w: W, call: Call<W>): (s: Step<W>)
    ensures Sane(s, w, call)
    ensures Follows(PptRoute, params, s, w)
  {
    if !params.JDict? then NoGet(params, w) else
    var ruta := Get(params.entries, "ruta");
    var titulo := GetOr(params.entries, "titulo", JStr("Presentación"));
    var plantilla := Get(params.entries, "plantilla");
    if Truthy(ruta) then
      Invoke("crear_ppt", [ruta, titulo, plantilla], w, call, v => Say("✅ Archivo PPT creado: " + PyStr(v)))
    else Refuse("❌ Error: falta la ruta del archivo.", w)
  }

  /** Documents and presentations. */
  function OfficeActions<W>(a: string, params: Json, intent: seq<(string, Json)>, w: W, call: Call<W>): (s: Step<W>)
    ensures Sane(s, w, call)
    ensures FromOffice(a) ==> Follows(OfficeRoute(a), params, s, w)
    ensures a == "none" ==> s == Step(Ok(NoneAnswer(intent)), [], w)
    ensures !Known(a) ==> s == Refuse("❌ Acción desconocida: " + a, w)
  {
    if a == "crear_doc_google_docs" then GoogleDocBranch(params, w, call)
    else if a == "crear_docx" then DocxBranch(params, w, call)
    else if a == "crear_ppt" then PptBranch(params, w, call)
    else IntegrationActions(a, params, intent, w, call)
  }

  /** `control_spotify`: needs `accion`. */
  function SpotifyBranch<W>(params: Json, w: W, call: Call<W>): (s: Step<W>)
    ensures Sane(s, w, call)
    ensures Follows(SpotifyRoute, params, s, w)
  {
    if !params.JDict? then NoGet(params, w) else
    var accion := Get(params.entries, "accion");
    if Truthy(accion) then Invoke("control_spotify", [accion], w, call, _ => Say("✅ Spotify: " + PyStr(accion)))
    else Refuse("❌ Error: falta la acción.", w)
  }

  /** `enviar_prompt_chatgpt` and `enviar_prompt_gemini`: need `prompt`; the browser is passed on. */
  function PromptBranch<W>(a: string, params: Json, w: W, call: Call<W>): (s: Step<W>)
    requires a == "enviar_prompt_chatgpt" || a == "enviar_prompt_gemini"
    ensures Sane(s, w, call)
    ensures Follows(PromptRoute(a), params, s, w)
  {
    if !params.JDict? then NoGet(params, w) else
    var prompt := Get(params.entries, "prompt");
    var navegador := Get(params.entries, "navegador");
    var target := if a == "enviar_prompt_chatgpt" then "ChatGPT" else "Gemini";
    if Truthy(prompt) then
      Invoke(a, [prompt, navegador], w, call, _ => Say("✅ Prompt enviado a " + target + NavText(navegador)))
    else Refuse("❌ Error: falta el prompt.", w)
  }

  /** `enviar_prompt_cursor`: needs `prompt`. */
  function CursorBranch<W>(params: Json, w: W, call: Call<W>): (s: Step<W>)
    ensures Sane(s, w, call)
    ensures Follows(CursorRoute, params, s, w)
  {
    if !params.JDict? then NoGet(params, w) else
    var prompt := Get(params.entries, "prompt");
    if Truthy(prompt) then Invoke("enviar_prompt_cursor", [prompt], w, call, _ => Say("✅ Prompt enviado a Cursor"))
    else Refuse("❌ Error: falta el prompt.", w)
  }

  /** Canva, Gamma, Spotify and the chat assistants. */
  function IntegrationActions<W>(a: string, params: Json, intent: seq<(string, Json)>, w: W, call: Call<W>): (s: Step<W>)
    ensures Sane(s, w, call)
    ensures FromIntegration(a) ==> Follows(IntegrationRoute(a), params, s, w)
    ensures a == "none" ==> s == Step(Ok(NoneAnswer(intent)), [], w)
    ensures !Known(a) ==> s == Refuse("❌ Acción desconocida: " + a, w)
  {
    if a == "abrir_canva" then Invoke("abrir_canva", [], w, call, _ => Say("✅ Canva abierto"))
    else if a == "abrir_gamma" then Invoke("abrir_gamma", [], w, call, _ => Say("✅ Gamma.app abierto"))
    else if a == "control_spotify" then SpotifyBranch(params, w, call)
    else if a == "enviar_prompt_chatgpt" || a == "enviar_prompt_gemini" then PromptBranch(a, params, w, call)
    else if a == "enviar_prompt_cursor" then CursorBranch(params, w, call)
    else DevActions(a, params, intent, w, call)
  }

  /** `buscar_texto_en_archivos`: needs `ruta` and `texto`. */
  function SearchBranch<W>(params: Json, w: W, call: Call<W>): (s: Step<W>)
    ensures Sane(s, w, call)
    ensures Follows(SearchRoute, params, s, w)
  {
    if !params.JDict? then NoGet(params, w) else
    var ruta := Get(params.entries, "ruta");
    var texto := Get(params.entries, "texto");
    var extensiones := Get(params.entries, "extensiones");
    if Truthy(ruta) && Truthy(texto) then
      Invoke("buscar_texto_en_archivos", [ruta, texto, extensiones], w, call, v => SearchReply(ruta, texto, v))
    else Refuse("❌ Error: falta ruta o texto a buscar.", w)
  }

  /** `crear_proyecto`: needs `nombre`; the template defaults to "basico". */
  function ProjectBranch<W>(params: Json, w: W, call: Call<W>): (s: Step<W>)
    ensures Sane(s, w, call)
    ensures Follows(ProjectRoute, params, s, w)
  {
    if !params.JDict? then NoGet(params, w) else
    var nombre := Get(params.entries, "nombre");
    var template := GetOr(params.entries, "template", JStr("basico"));
    var ruta := Get(params.entries, "ruta");
    if Truthy(nombre) then
      Invoke("crear_proyecto", [nombre, template, ruta], w, call,
             v => Say("✅ Proyecto '" + PyStr(nombre) + "' creado: " + PyStr(v)))
    else Refuse("❌ Error: falta el nombre del proyecto.", w)
  }

  /** `abrir_vscode`: `ruta` may be missing. */
  function VscodeBranch<W>(params: Json, w: W, call: Call<W>): (s: Step<W>)
    ensures Sane(s, w, call)
    ensures Follows(VscodeRoute, params, s, w)
  {
    if !params.JDict? then NoGet(params, w) else
    var ruta := Get(params.entries, "ruta");
    Invoke("abrir_vscode", [ruta], w, call, _ => VscodeReply(ruta))
  }

  /** `ejecutar_comando`: needs `comando`; the output is cut at 500 characters. */
  function CommandBranch<W>(params: Json, w: W, call: Call<W>): (s: Step<W>)
    ensures Sane(s, w, call)
    ensures Follows(CommandRoute, params, s, w)
  {
    if !params.JDict? then NoGet(params, w) else
    var comando := Get(params.entries, "comando");
    var directorio := Get(params.entries, "directorio");
    if Truthy(comando) then
      Invoke("ejecutar_comando", [comando, directorio], w, call,
             v => TextReply("ejecutar_comando", "✅ Comando ejecutado:\n", v))
    else Refuse("❌ Error: falta el comando.", w)
  }

  /** `restaurar_desde_papelera`: needs `nombre_archivo`. */
  function RestoreBranch<W>(params: Json, w: W, call: Call<W>): (s: Step<W>)
    ensures Sane(s, w, call)
    ensures Follows(RestoreRoute, params, s, w)
  {
    if !params.JDict? then NoGet(params, w) else
    var nombre := Get(params.entries, "nombre_archivo");
    var destino := Get(params.entries, "destino");
    if Truthy(nombre) then
      Invoke("restaurar_desde_papelera", [nombre, destino], w, call, v => Say("✅ Archivo restaurado: " + PyStr(v)))
    else Refuse("❌ Error: falta el nombre del archivo.", w)
  }

  /** The answer of a `none` intent: its `answer`, or the default text. */
  function NoneAnswer(intent: seq<(string, Json)>): Json
  {
    GetOr(intent, "answer", JStr("No entiendo qué quieres hacer."))
  }

  /** Text search, projects, the editor, commands, and the trash; then `none`, then anything else. */
  function DevActions<W>(a: string, params: Json, intent: seq<(string, Json)>, w: W, call: Call<W>): (s: Step<W>)
    ensures Sane(s, w, call)
    ensures IsDevAction(a) ==> Follows(DevRoute(a), params, s, w)
    ensures a == "none" ==> s == Step(Ok(NoneAnswer(intent)), [], w)
    ensures !Known(a) ==> s == Refuse("❌ Acción desconocida: " + a, w)
  {
    if a == "buscar_texto_en_archivos" then SearchBranch(params, w, call)
    else if a == "crear_proyecto" then ProjectBranch(params, w, call)
    else if a == "abrir_vscode" then VscodeBranch(params, w, call)
    else if a == "ejecutar_comando" then CommandBranch(params, w, call)
    else if a == "listar_papelera" then Invoke("listar_papelera", [], w, call, TrashReply)
    else if a == "restaurar_desde_papelera" then RestoreBranch(params, w, call)
    else if a == "none" then Step(Ok(NoneAnswer(intent)), [], w)
    else Refuse("❌ Acción desconocida: " + a, w)
  }

  /** The `if`/`elif` chain: a non-string action matches no branch. */
  function Body<W>(action: Json, params: Json, intent: seq<(string, Json)>, w: W, call: Call<W>): (s: Step<W>)
    ensures Sane(s, w, call)
    ensures action.JStr? && Routed(action.s) ==> Follows(RouteOf(action.s, EntriesOf(params)), params, s, w)
    ensures action == JStr("none") ==> s == Step(Ok(NoneAnswer(intent)), [], w)
    ensures !(action.JStr? && Known(action.s)) ==> s == Refuse("❌ Acción desconocida: " + PyStr(action), w)
  {
    if action.JStr? then FileActions(action.s, params, intent, w, call)
    else Refuse("❌ Acción desconocida: " + PyStr(action), w)
  }

  const ErrorPrefix := "❌ Error al ejecutar la acción: "

  /**
    What `ejecutar_accion` did along `route`: a route without arguments calls
    its operation; otherwise a `params` that is not a dictionary is reported
    as the AttributeError of `params.get`, and a dictionary leads to the call
    with the arguments read from it exactly when the needed parameters are
    true, and to the route's reply, with no call, when one is not.
   */
  predicate Dispatched<W>(route: Route, params: Json, r: Run<W>)
  {
    if route.args == [] then r.invoked == [Invocation(route.op, [])]
    else if !params.JDict? then r.invoked == [] && r.result == Ok(JStr(ErrorPrefix + NoAttribute(params, "get")))
    else if Present(params.entries, route.needs) then CallsAlong(r.invoked, route, params.entries)
    else r.invoked == [] && r.result == Ok(JStr(route.missing))
  }

  /**
    `ejecutar_accion(parsed)`.  Reading `action` and `params` happens before
    the `try`, so a `parsed` that is not a dictionary lets the AttributeError
    escape; inside the `try`, an exception becomes the error reply.  Both
    paths then log the reply they return.
   */
  function EjecutarAccion<W>(parsed: Json, w: W, call: Call<W>, log: Log<W>): (r: Run<W>)
    ensures r.result.Err? <==> !parsed.JDict?
    ensures r.result.Err? ==> r == Run(Err(NoAttribute(parsed, "get")), [], None, w)
    ensures r.result.Ok? ==>
      var action := GetOr(parsed.entries, "action", JStr("none"));
      var params := GetOr(parsed.entries, "params", JDict([]));
      && r.logged == Some(LogRecord(action, params, r.result.value))
      && |r.invoked| <= 1
      && (|r.invoked| == 1 && call(r.invoked[0], w).0.Raised? ==>
            r.result.value == JStr(ErrorPrefix + call(r.invoked[0], w).0.message))
      && (action.JStr? && Routed(action.s) ==> Dispatched(RouteOf(action.s, EntriesOf(params)), params, r))
      && (action == JStr("none") ==> r.invoked == [] && r.result.value == NoneAnswer(parsed.entries))
      && (!(action.JStr? && Known(action.s)) ==>
            r.invoked == [] && r.result.value == JStr("❌ Acción desconocida: " + PyStr(action)))
  {
    if !parsed.JDict? then Run(Err(NoAttribute(parsed, "get")), [], None, w)
    else
      var action := GetOr(parsed.entries, "action", JStr("none"));
      var params := GetOr(parsed.entries, "params", JDict([]));
      var s := Body(action, params, parsed.entries, w, call);
      var resultado := match s.outcome
        case Ok(v) => v
        case Err(m) => JStr(ErrorPrefix + m);
      var record := LogRecord(action, params, resultado);
      Run(Ok(resultado), s.invoked, Some(record), log(record, s.world))
  }

  // ---------------------------------------------------------------------------
  // Properties
  // ---------------------------------------------------------------------------

  /** An intent without `action` is a plain answer: the `answer` field, or the default text. */
  lemma NoActionAnswers<W>(entries: seq<(string, Json)>, w: W, call: Call<W>, log: Log<W>)
    requires !HasKey(entries, "action")
    ensures var r := EjecutarAccion(JDict(entries), w, call, log);
      && r.result == Ok(GetOr(entries, "answer", JStr("No entiendo qué quieres hacer.")))
      && r.invoked == []
  {
  }

  /** An id outside the chain is reported as unknown, and no operation runs. */
  lemma UnknownActionInvokesNothing<W>(entries: seq<(string, Json)>, w: W, call: Call<W>, log: Log<W>)
    requires var a := GetOr(entries, "action", JStr("none")); !(a.JStr? && Known(a.s))
    ensures var a := GetOr(entries, "action", JStr("none"));
      var r := EjecutarAccion(JDict(entries), w, call, log);
      && r.result == Ok(JStr("❌ Acción desconocida: " + PyStr(a)))
      && r.invoked == []
      && r.world == log(LogRecord(a, GetOr(entries, "params", JDict([])), r.result.value), w)
  {
  }

  /**
    The operation a routed action calls: the one of its own name, except for
    `cerrar_app` and `cerrar_ventana`, which call `cerrar_app_por_nombre` and
    `cerrar_ventana_activa`, and for `crear_carpeta` without a true `ruta`,
    which calls `crear_carpeta_en_escritorio`.
   */
  function OperationName(a: string, entries: seq<(string, Json)>): string
  {
    if a == "cerrar_app" then "cerrar_app_por_nombre"
    else if a == "cerrar_ventana" then "cerrar_ventana_activa"
    else if a == "crear_carpeta" && !Truthy(Get(entries, "ruta")) then "crear_carpeta_en_escritorio"
    else a
  }

  /** Every route calls the operation `OperationName` gives, and one that reads no argument needs none. */
  lemma RouteOperation(a: string, entries: seq<(string, Json)>)
    requires Routed(a)
    ensures RouteOf(a, entries).op == OperationName(a, entries)
    ensures RouteOf(a, entries).args == [] ==> RouteOf(a, entries).needs == []
  {
    if !IsFileAction(a) {
      SystemRouteOperation(a);
    }
  }

  lemma SystemRouteOperation(a: string)
    requires FromSystem(a)
    ensures SystemRoute(a).op == OperationName(a, [])
    ensures SystemRoute(a).args == [] ==> SystemRoute(a).needs == []
  {
    if !IsSystemAction(a) {
      WebRouteOperation(a);
    }
  }

  lemma WebRouteOperation(a: string)
    requires FromWeb(a)
    ensures WebRoute(a).op == a
    ensures WebRoute(a).args == [] ==> WebRoute(a).needs == []
  {
    if !IsWebAction(a) {
      PlatformRouteOperation(a);
    }
  }

  lemma PlatformRouteOperation(a: string)
    requires FromPlatform(a)
    ensures PlatformRoute(a).op == a
    ensures PlatformRoute(a).args == [] ==> PlatformRoute(a).needs == []
  {
    if !IsPlatformAction(a) && !IsOfficeAction(a) {
      IntegrationRouteOperation(a);
    }
  }

  lemma IntegrationRouteOperation(a: string)
    requires FromIntegration(a)
    ensures IntegrationRoute(a).op == a
    ensures IntegrationRoute(a).args == [] ==> IntegrationRoute(a).needs == []
  {
  }

  /**
    A routed action with dictionary parameters runs no operation exactly when
    one of the parameters its branch needs is not true, and otherwise runs
    exactly one: the operation `OperationName` gives.
   */
  lemma RoutedActionCallsItsOperation<W>(entries: seq<(string, Json)>, action: string, params: seq<(string, Json)>,
                                         w: W, call: Call<W>, log: Log<W>)
    requires Routed(action) && Asks(entries, action, params)
    ensures var r := EjecutarAccion(JDict(entries), w, call, log);
      && (r.invoked == [] <==> !Present(params, RouteOf(action, params).needs))
      && (r.invoked != [] ==> |r.invoked| == 1 && r.invoked[0].op == OperationName(action, params))
  {
    RouteOperation(action, params);
  }

  /** An intent for `action` whose parameters form the dictionary `params`. */
  predicate Asks(entries: seq<(string, Json)>, action: string, params: seq<(string, Json)>)
  {
    GetOr(entries, "action", JStr("none")) == JStr(action) && GetOr(entries, "params", JDict([])) == JDict(params)
  }

  /** `crear_txt` without a (true) `ruta` answers with its own message and creates nothing. */
  lemma CrearTxtNeedsRuta<W>(entries: seq<(string, Json)>, params: seq<(string, Json)>, w: W, call: Call<W>, log: Log<W>)
    requires Asks(entries, "crear_txt", params) && !Truthy(Get(params, "ruta"))
    ensures var r := EjecutarAccion(JDict(entries), w, call, log);
      r.result == Ok(JStr("❌ Error: falta la ruta del archivo.")) && r.invoked == []
  {
  }

  /** `copiar_archivo` and `mover_archivo` need both ends, and touch nothing without them. */
  lemma CopyMoveNeedBothEnds<W>(entries: seq<(string, Json)>, action: string, params: seq<(string, Json)>,
                                w: W, call: Call<W>, log: Log<W>)
    requires action == "copiar_archivo" || action == "mover_archivo"
    requires Asks(entries, action, params)
    requires !Truthy(Get(params, "origen")) || !Truthy(Get(params, "destino"))
    ensures var r := EjecutarAccion(JDict(entries), w, call, log);
      r.result == Ok(JStr("❌ Error: falta origen o destino.")) && r.invoked == []
  {
  }

  /** Without `ruta` and `nombre`, `crear_carpeta` makes the desktop folder `CarpetaIA`. */
  lemma CrearCarpetaDefault<W>(entries: seq<(string, Json)>, params: seq<(string, Json)>, w: W, call: Call<W>, log: Log<W>)
    requires Asks(entries, "crear_carpeta", params) && !HasKey(params, "ruta") && !HasKey(params, "nombre")
    ensures var r := EjecutarAccion(JDict(entries), w, call, log);
      var inv := Invocation("crear_carpeta_en_escritorio", [JStr("CarpetaIA")]);
      && r.invoked == [inv]
      && (call(inv, w).0.Returned? ==> r.result == Ok(JStr("✅ Carpeta '" + "CarpetaIA" + "' creada en el escritorio.")))
  {
  }

  /** What the log oracle does never shows in the reply or in the operations run. */
  lemma LogNeverChangesReply<W>(parsed: Json, w: W, call: Call<W>, log1: Log<W>, log2: Log<W>)
    ensures EjecutarAccion(parsed, w, call, log1).result == EjecutarAccion(parsed, w, call, log2).result
    ensures EjecutarAccion(parsed, w, call, log1).invoked == EjecutarAccion(parsed, w, call, log2).invoked
  {
  }

  /** The read and command replies keep a short text whole and cut a long one at 500 characters. */
  lemma TruncatedShape(text: string)
    ensures |text| <= 500 ==> Truncated(text) == text
    ensures |text| > 500 ==>
      (Truncated(text)[..500] == text[..500] && Truncated(text)[500..] == "\n... (truncado)")
  {
  }

  /** Two long texts with the same first 500 characters read the same. */
  lemma TruncatedIgnoresTail(t1: string, t2: string)
    requires |t1| > 500 && |t2| > 500 && t1[..500] == t2[..500]
    ensures Truncated(t1) == Truncated(t2)
  {
  }

  /**
    The listing reply names the first 20 entries (at most) and, exactly when
    there are more, says how many were left out.
   */
  lemma ListingReplyShape(items: seq<Json>, names: seq<string>)
    requires |names| == Min(20, |items|)
    requires forall i | 0 <= i < |names| :: PyGetItem(items[i], "nombre") == Ok(JStr(names[i]))
    ensures ListingReply(JList(items)) == Say(
      "✅ Encontrados " + NatToString(|items|) + " elementos:\n" + Join("\n", names)
      + (if |items| > 20 then "\n... y " + NatToString(|items| - 20) + " más" else ""))
  {
    ListingNames(items, names);
    var v := ItemsAt(Take(items, 20), "nombre");
    assert Texts(v.value, 0) == Ok(names);
  }

  /** The names the listing reply joins are those of its first 20 entries. */
  lemma ListingNames(items: seq<Json>, names: seq<string>)
    requires |names| == Min(20, |items|)
    requires forall i | 0 <= i < |names| :: PyGetItem(items[i], "nombre") == Ok(JStr(names[i]))
    ensures var v := ItemsAt(Take(items, 20), "nombre"); v.Ok? && Texts(v.value, 0) == Ok(names)
  {
    var t := Take(items, 20);
    assert |t| == |names|;
    forall i | 0 <= i < |t| ensures PyGetItem(t[i], "nombre") == Ok(JStr(names[i])) {
      assert t[i] == items[i];
    }
    var v := ItemsAt(t, "nombre");
    assert v.Ok?;
    assert forall i | 0 <= i < |names| :: v.value[i] == JStr(names[i]);
    assert |v.value| == |names|;
    var r := Texts(v.value, 0);
    assert r.Ok? && |r.value| == |names|;
    assert forall i | 0 <= i < |names| :: r.value[i] == names[i];
    assert r.value == names;
  }
}

=== FILE: files.dfy ===
/**
  The assistant's basic file and folder operations (`crear_carpeta`,
  `listar_carpeta`, `leer_archivo`, `crear_txt`, `editar_archivo`,
  `copiar_archivo`, `mover_archivo`, `eliminar`, `duplicar`) over the abstract
  filesystem of module `Fs`.

  Every operation returns the new filesystem together with what the Python
  function returns, or the error it raises.  The user's home directory is a
  parameter (`Env`); so is the timestamp `eliminar` puts in front of a name
  sent to the trash.
 */
module Files {
  import opened Base
  import opened Fs

  /** The folders derived from the user's home directory. */
  datatype Env = Env(home: Path)

  /** `DESKTOP = ~/Desktop` */
  function Desktop(env: Env): Path
  {
    env.home + ["Desktop"]
  }

  /** `JARVIS_TRASH = ~/.jarvis/trash` */
  function Trash(env: Env): Path
  {
    env.home + [".jarvis", "trash"]
  }

  // ---------------------------------------------------------------------------
  // crear_carpeta / crear_carpeta_en_escritorio
  // ---------------------------------------------------------------------------

  /** `crear_carpeta(ruta)`: `os.makedirs(ruta, exist_ok=True)`, returning `ruta`. */
  function CrearCarpeta(fs: FS, ruta: Path): (r: Result<(FS, Path), FsError>)
    ensures r.Ok? ==> r.value.1 == ruta && IsDir(r.value.0, ruta)
    ensures r.Ok? ==> forall q | q in fs :: q in r.value.0 && r.value.0[q] == fs[q]
    ensures Valid(fs) ==> (r.Ok? <==> NoFileOnPath(fs, ruta))
  {
    match Mkdirs(fs, ruta)
    case Ok(fs1) => Ok((fs1, ruta))
    case Err(e) => Err(e)
  }

  /** Creating a folder that already exists changes nothing. */
  lemma CrearCarpetaIdempotent(fs: FS, ruta: Path)
    requires CrearCarpeta(fs, ruta).Ok?
    ensures CrearCarpeta(CrearCarpeta(fs, ruta).value.0, ruta) == CrearCarpeta(fs, ruta)
  {
    var fs1 := CrearCarpeta(fs, ruta).value.0;
    assert IsDir(fs1, ruta);
    assert Mkdirs(fs1, ruta) == Ok(fs1);
  }

  /** `crear_carpeta_en_escritorio(nombre)`: a folder `nombre` on the desktop. */
  function CrearCarpetaEnEscritorio(fs: FS, env: Env, nombre: string): (r: Result<(FS, Path), FsError>)
    ensures r.Ok? ==> r.value.1 == Desktop(env) + [nombre] && IsDir(r.value.0, r.value.1)
    ensures Valid(fs) ==> (r.Ok? <==> NoFileOnPath(fs, Desktop(env) + [nombre]))
  {
    CrearCarpeta(fs, Desktop(env) + [nombre])
  }

  // ---------------------------------------------------------------------------
  // listar_carpeta
  // ---------------------------------------------------------------------------

  /** One row of `listar_carpeta`'s answer: `{"nombre", "es_carpeta", "tamaño"}`. */
  datatype Entry = Entry(nombre: string, esCarpeta: bool, tamano: nat)

  /** The row for the child `name` holding `node`: directories report size 0. */
  function EntryOf(name: string, node: Node): Entry
  {
    match node
    case Dir => Entry(name, true, 0)
    case File(c) => Entry(name, false, ByteSize(c))
  }

  /**
    Does the filter let an entry through?  No filter (or an empty one) keeps
    everything; a filter keeps files whose name ends with it, and a filter
    that does not start with "." keeps every entry anyway.
   */
  predicate Keeps(node: Node, name: string, filtro: string)
  {
    filtro == "" || (node.File? && EndsWith(name, filtro)) || !StartsWith(filtro, ".")
  }

  /** `e` is the row of a child of `dir` that the filter keeps. */
  predicate Listed(fs: FS, dir: Path, filtro: string, e: Entry)
  {
    var q := dir + [e.nombre];
    q in fs && Keeps(fs[q], e.nombre, filtro) && e == EntryOf(e.nombre, fs[q])
  }

  function ListEntries(fs: FS, dir: Path, names: seq<string>, filtro: string): (r: seq<Entry>)
    ensures |r| <= |names|
    ensures forall e | e in r :: Listed(fs, dir, filtro, e) && e.nombre in names
    ensures forall i | 0 <= i < |names| && dir + [names[i]] in fs && Keeps(fs[dir + [names[i]]], names[i], filtro) ::
      EntryOf(names[i], fs[dir + [names[i]]]) in r
  {
    if |names| == 0 then []
    else
      var q := dir + [names[0]];
      var rest := ListEntries(fs, dir, names[1..], filtro);
      assert forall i | 1 <= i < |names| :: names[i] == names[1..][i - 1];
      if q in fs && Keeps(fs[q], names[0], filtro) then [EntryOf(names[0], fs[q])] + rest else rest
  }

  /**
    `listar_carpeta(ruta, filtro)`: the rows for the children of `ruta`, in
    the order `os.scandir` yields them (`order`).  The empty filter stands for
    `None`.
   */
  function ListarCarpeta(fs: FS, ruta: Path, filtro: string, order: seq<string>): (r: Result<seq<Entry>, FsError>)
    ensures r.Err? <==> !IsDir(fs, ruta)
    ensures ruta !in fs ==> r == Err(NotFound(ruta))
    ensures IsFile(fs, ruta) ==> r == Err(NotADirectory(ruta))
  {
    if ruta !in fs then Err(NotFound(ruta))
    else if fs[ruta].File? then Err(NotADirectory(ruta))
    else Ok(ListEntries(fs, ruta, order, filtro))
  }

  /** With a faithful directory listing, the answer holds exactly the kept children. */
  lemma ListarCarpetaExact(fs: FS, ruta: Path, filtro: string, order: seq<string>)
    requires IsDir(fs, ruta) && IsListing(fs, ruta, order)
    ensures forall e :: e in ListarCarpeta(fs, ruta, filtro, order).value <==> Listed(fs, ruta, filtro, e)
  {
    var r := ListarCarpeta(fs, ruta, filtro, order).value;
    forall e | Listed(fs, ruta, filtro, e) ensures e in r {
      var q := ruta + [e.nombre];
      assert |q| == |ruta| + 1 && ruta <= q && q[|ruta|] == e.nombre;
      var i :| 0 <= i < |order| && order[i] == e.nombre;
    }
  }

  /** A dot-filter lists files only: every folder is dropped. */
  lemma DotFilterDropsFolders(fs: FS, ruta: Path, filtro: string, order: seq<string>)
    requires IsDir(fs, ruta) && filtro != "" && filtro[0] == '.'
    ensures forall e | e in ListarCarpeta(fs, ruta, filtro, order).value ::
      !e.esCarpeta && EndsWith(e.nombre, filtro)
  {
    assert StartsWith(filtro, ".");
  }

  /** A filter without a leading dot filters nothing out. */
  lemma PlainFilterKeepsAll(fs: FS, ruta: Path, filtro: string, order: seq<string>)
    requires IsDir(fs, ruta) && IsListing(fs, ruta, order) && (filtro == "" || filtro[0] != '.')
    ensures |ListarCarpeta(fs, ruta, filtro, order).value| == |order|
  {
    var r := ListEntries(fs, ruta, order, filtro);
    PlainFilterKeepsAllRec(fs, ruta, order, filtro);
  }

  lemma {:induction false} PlainFilterKeepsAllRec(fs: FS, dir: Path, names: seq<string>, filtro: string)
    requires forall i | 0 <= i < |names| :: dir + [names[i]] in fs
    requires filtro == "" || filtro[0] != '.'
    ensures |ListEntries(fs, dir, names, filtro)| == |names|
  {
    if |names| > 0 {
      assert !StartsWith(filtro, ".") || filtro == "";
      PlainFilterKeepsAllRec(fs, dir, names[1..], filtro);
    }
  }

  // ---------------------------------------------------------------------------
  // leer_archivo
  // ---------------------------------------------------------------------------

  const Mebibyte := 1024 * 1024

  /**
    `leer_archivo(ruta, limite_mb)`: the text of a file whose UTF-8 size is at
    most `limite_mb` MiB.  A directory cannot be opened for reading.
   */
  function LeerArchivo(fs: FS, ruta: Path, limiteMb: int): (r: Result<string, FsError>)
    ensures r.Ok? <==> IsFile(fs, ruta) && ByteSize(fs[ruta].content) <= limiteMb * Mebibyte
    ensures r.Ok? ==> r.value == fs[ruta].content
    ensures ruta !in fs ==> r == Err(NotFound(ruta))
    ensures IsFile(fs, ruta) && ByteSize(fs[ruta].content) > limiteMb * Mebibyte ==>
      r == Err(TooLarge(ByteSize(fs[ruta].content), limiteMb))
  {
    if ruta !in fs then Err(NotFound(ruta))
    else if fs[ruta].Dir? then Err(IsADirectory(ruta))
    else
      var size := ByteSize(fs[ruta].content);
      if size > limiteMb * Mebibyte then Err(TooLarge(size, limiteMb))
      else Ok(fs[ruta].content)
  }

  // ---------------------------------------------------------------------------
  // crear_txt / editar_archivo
  // ---------------------------------------------------------------------------

  /** A directory that exists in a valid filesystem has only directories above it. */
  lemma DirHasNoFileOnPath(fs: FS, p: Path)
    requires Valid(fs) && IsDir(fs, p)
    ensures NoFileOnPath(fs, p)
  {
    forall k | 0 <= k <= |p| ensures !IsFile(fs, p[..k]) {
      if k < |p| { AncestorIsDir(fs, p, k); } else { assert p[..k] == p; }
    }
  }

  /**
    `crear_txt(ruta, contenido)`: the missing parent folders are created, then
    the file is created or overwritten.
   */
  function CrearTxt(fs: FS, ruta: Path, contenido: string): (r: Result<(FS, Path), FsError>)
    ensures r.Ok? ==> r.value.1 == ruta && IsFile(r.value.0, ruta) && r.value.0[ruta].content == contenido
    ensures r.Ok? ==> forall q | q in fs && q != ruta :: q in r.value.0 && r.value.0[q] == fs[q]
    ensures r.Ok? ==> forall q | q in r.value.0 && q !in fs :: q == ruta || (q < ruta && r.value.0[q] == Dir)
    ensures r.Ok? && Valid(fs) ==> Valid(r.value.0)
    ensures Valid(fs) ==> (r.Ok? <==> |ruta| > 0 && !IsDir(fs, ruta) && NoFileOnPath(fs, Parent(ruta)))
  {
    if |ruta| > 0 && Parent(ruta) !in fs then
      match Mkdirs(fs, Parent(ruta))
      case Err(e) => Err(e)
      case Ok(fs1) =>
        assert Valid(fs) ==> ruta !in fs;
        assert ruta !in fs ==> !IsDir(fs1, ruta);
        match WriteFile(fs1, ruta, contenido)
        case Ok(fs2) => Ok((fs2, ruta))
        case Err(e) => Err(e)
    else
      assert Valid(fs) && |ruta| > 0 ==> (IsDir(fs, Parent(ruta)) <==> NoFileOnPath(fs, Parent(ruta))) by {
        if Valid(fs) && |ruta| > 0 && IsDir(fs, Parent(ruta)) { DirHasNoFileOnPath(fs, Parent(ruta)); }
        if Valid(fs) && |ruta| > 0 && NoFileOnPath(fs, Parent(ruta)) { assert Parent(ruta)[..|Parent(ruta)|] == Parent(ruta); }
      }
      match WriteFile(fs, ruta, contenido)
      case Ok(fs2) => Ok((fs2, ruta))
      case Err(e) => Err(e)
  }

  /**
    `editar_archivo(ruta, contenido, modo)`: mode "agregar" appends, every
    other mode overwrites.  Parent folders are not created.
   */
  function EditarArchivo(fs: FS, ruta: Path, contenido: string, modo: string): (r: Result<(FS, Path), FsError>)
    ensures r.Ok? <==> Writable(fs, ruta)
    ensures r.Ok? ==> r.value.1 == ruta && IsFile(r.value.0, ruta)
    ensures r.Ok? && modo == "agregar" && IsFile(fs, ruta) ==> r.value.0[ruta].content == fs[ruta].content + contenido
    ensures r.Ok? && (modo != "agregar" || ruta !in fs) ==> r.value.0[ruta].content == contenido
    ensures r.Ok? ==> forall q | q != ruta :: (q in r.value.0 <==> q in fs) && (q in fs ==> r.value.0[q] == fs[q])
  {
    var w := if modo == "agregar" then AppendFile(fs, ruta, contenido) else WriteFile(fs, ruta, contenido);
    match w
    case Ok(fs1) => Ok((fs1, ruta))
    case Err(e) => Err(e)
  }

  /** Appending twice is appending the concatenation. */
  lemma AppendTwice(fs: FS, ruta: Path, a: string, b: string)
    requires IsFile(fs, ruta) && Writable(fs, ruta)
    ensures var r1 := EditarArchivo(fs, ruta, a, "agregar");
      r1.Ok? && EditarArchivo(r1.value.0, ruta, b, "agregar") == EditarArchivo(fs, ruta, a + b, "agregar")
  {
    var fs1 := EditarArchivo(fs, ruta, a, "agregar").value.0;
    assert Writable(fs1, ruta);
    assert (fs[ruta].content + a) + b == fs[ruta].content + (a + b);
    assert fs1[ruta := File(fs1[ruta].content + b)] == fs[ruta := File(fs[ruta].content + (a + b))];
  }

  // ---------------------------------------------------------------------------
  // copiar_archivo / mover_archivo
  // ---------------------------------------------------------------------------

  /**
    `copiar_archivo(origen, destino)`: `copytree` for a folder, `copy2`
    otherwise.  A file is copied whole or not at all; a folder copy that
    fails part-way keeps the copies already made.
   */
  function CopiarArchivo(fs: FS, origen: Path, destino: Path): (r: Effect<Path>)
    ensures r.result.Ok? ==> r.result.value == destino
    ensures origen !in fs ==> r == Effect(fs, Err(NotFound(origen)))
    ensures !IsDir(fs, origen) ==> var target := MoveTarget(fs, origen, destino);
      && (r.result.Ok? <==> IsFile(fs, origen) && target != origen && Writable(fs, target))
      && (r.result.Ok? ==> r.fs == fs[target := fs[origen]])
      && (r.result.Err? ==> r.fs == fs)
    ensures IsDir(fs, origen) && Valid(fs) ==>
      (r.result.Ok? <==> NoFileOnPath(fs, destino) && !CopyFails(fs, Mkdirs(fs, destino).value, origen, destino))
    ensures IsDir(fs, origen) && Valid(fs) && r.result.Ok? ==> var fs1 := Mkdirs(fs, destino).value;
      forall q | q in fs && origen <= q && q != origen ::
        && (IsDir(fs, q) ==> IsDir(r.fs, Rebase(q, origen, destino)))
        && (IsFile(fs, q) ==> IsFile(r.fs, FileTarget(fs1, origen, destino, q)) && r.fs[FileTarget(fs1, origen, destino, q)] == fs[q])
    ensures IsDir(fs, origen) && Mkdirs(fs, destino).Err? ==> r.fs == fs
    ensures IsDir(fs, origen) && Mkdirs(fs, destino).Ok? ==> var fs1 := Mkdirs(fs, destino).value;
      && (forall q | q in fs1 && !CopyTarget(fs, fs1, origen, destino, q) :: q in r.fs && r.fs[q] == fs1[q])
      && (forall q | q in r.fs && q !in fs :: q <= destino || CopyTarget(fs, fs1, origen, destino, q))
    ensures forall q | q in fs :: q in r.fs && r.fs[q].Dir? == fs[q].Dir?
    ensures forall q | q in fs && !(destino <= q) :: r.fs[q] == fs[q]
    ensures Valid(fs) ==> Valid(r.fs)
  {
    if IsDir(fs, origen) then CopyFolder(fs, origen, destino) else CopyOneFile(fs, origen, destino)
  }

  /** The folder branch of `copiar_archivo`. */
  function CopyFolder(fs: FS, origen: Path, destino: Path): (r: Effect<Path>)
    requires IsDir(fs, origen)
    ensures r.result.Ok? ==> r.result.value == destino
    ensures Valid(fs) ==>
      (r.result.Ok? <==> NoFileOnPath(fs, destino) && !CopyFails(fs, Mkdirs(fs, destino).value, origen, destino))
    ensures Valid(fs) && r.result.Ok? ==> var fs1 := Mkdirs(fs, destino).value;
      forall q | q in fs && origen <= q && q != origen ::
        && (IsDir(fs, q) ==> IsDir(r.fs, Rebase(q, origen, destino)))
        && (IsFile(fs, q) ==> IsFile(r.fs, FileTarget(fs1, origen, destino, q)) && r.fs[FileTarget(fs1, origen, destino, q)] == fs[q])
    ensures Mkdirs(fs, destino).Err? ==> r.fs == fs
    ensures Mkdirs(fs, destino).Ok? ==> var fs1 := Mkdirs(fs, destino).value;
      && (forall q | q in fs1 && !CopyTarget(fs, fs1, origen, destino, q) :: q in r.fs && r.fs[q] == fs1[q])
      && (forall q | q in r.fs && q !in fs :: q <= destino || CopyTarget(fs, fs1, origen, destino, q))
    ensures forall q | q in fs :: q in r.fs && r.fs[q].Dir? == fs[q].Dir?
    ensures forall q | q in fs && !(destino <= q) :: r.fs[q] == fs[q]
    ensures Valid(fs) ==> Valid(r.fs)
  {
    var c := CopyTree(fs, origen, destino);
    assert Valid(fs) && c.result.Ok? ==>
      var fs1 := Mkdirs(fs, destino).value;
      forall q | q in fs && origen <= q && q != origen ::
        && (IsDir(fs, q) ==> IsDir(c.fs, Rebase(q, origen, destino)))
        && (IsFile(fs, q) ==> IsFile(c.fs, FileTarget(fs1, origen, destino, q)) && c.fs[FileTarget(fs1, origen, destino, q)] == fs[q])
    by {
      if Valid(fs) && c.result.Ok? { CopyTreeComplete(fs, origen, destino); }
    }
    Effect(c.fs, if c.result.Ok? then Ok(destino) else Err(c.result.error))
  }

  /** The file branch of `copiar_archivo`: `copy2`, whole or not at all. */
  function CopyOneFile(fs: FS, origen: Path, destino: Path): (r: Effect<Path>)
    requires !IsDir(fs, origen)
    ensures r.result.Ok? ==> r.result.value == destino
    ensures origen !in fs ==> r == Effect(fs, Err(NotFound(origen)))
    ensures var target := MoveTarget(fs, origen, destino);
      && (r.result.Ok? <==> IsFile(fs, origen) && target != origen && Writable(fs, target))
      && (r.result.Ok? ==> r.fs == fs[target := fs[origen]])
      && (r.result.Err? ==> r.fs == fs)
    ensures forall q | q in fs :: q in r.fs && r.fs[q].Dir? == fs[q].Dir?
    ensures forall q | q in fs && !(destino <= q) :: r.fs[q] == fs[q]
    ensures Valid(fs) ==> Valid(r.fs)
  {
    match CopyFile(fs, origen, destino)
    case Ok(fs1) =>
      assert fs1 == fs[MoveTarget(fs, origen, destino) := fs[origen]];
      Effect(fs1, Ok(destino))
    case Err(e) => Effect(fs, Err(e))
  }

  /** `mover_archivo(origen, destino)`: `shutil.move`, returning `destino`. */
  function MoverArchivo(fs: FS, origen: Path, destino: Path): (r: Result<(FS, Path), FsError>)
    ensures r.Ok? ==> r.value.1 == destino
    ensures r.Ok? <==>
      MoveRelocates(fs, origen, destino) || MoveMakesParents(fs, origen, destino) || (IsDir(fs, destino) && origen == destino)
    ensures MoveRelocates(fs, origen, destino) ==>
      r == Ok((Relocate(fs, origen, MoveTarget(fs, origen, destino)), destino))
    ensures MoveMakesParents(fs, origen, destino) ==> var target := MoveTarget(fs, origen, destino);
      r == Ok((Relocate(Mkdirs(fs, Parent(target)).value, origen, target), destino))
    ensures IsDir(fs, destino) && origen != destino && MoveTarget(fs, origen, destino) in fs ==>
      r == Err(AlreadyExists(MoveTarget(fs, origen, destino)))
    ensures origen !in fs && !(IsDir(fs, destino) && MoveTarget(fs, origen, destino) in fs) ==> r == Err(NotFound(origen))
    ensures r.Ok? && Valid(fs) ==> Valid(r.value.0)
  {
    assert Move(fs, origen, destino).Ok? && Valid(fs) ==> Valid(Move(fs, origen, destino).value) by {
      if Move(fs, origen, destino).Ok? && Valid(fs) { MovePreservesValid(fs, origen, destino); }
    }
    match Move(fs, origen, destino)
    case Ok(fs1) => Ok((fs1, destino))
    case Err(e) => Err(e)
  }

  /**
    Moving a folder to a new path whose missing parent folders no file
    blocks: the parents are created, the folder's whole subtree appears at
    the new path, and the folder is gone from its old place.
   */
  lemma MoverFolderMakesParents(fs: FS, origen: Path, destino: Path)
    requires Valid(fs) && IsDir(fs, origen)
    requires destino != [] && destino !in fs && !(origen <= destino)
    requires Parent(destino) !in fs && NoFileOnPath(fs, Parent(destino))
    ensures var r := MoverArchivo(fs, origen, destino);
      && r.Ok?
      && IsDir(r.value.0, Parent(destino))
      && origen !in r.value.0
      && (forall q | q in fs && origen <= q ::
            Rebase(q, origen, destino) in r.value.0 && r.value.0[Rebase(q, origen, destino)] == fs[q])
  {
    var p := Parent(destino);
    assert MoveTarget(fs, origen, destino) == destino;
    assert MoveMakesParents(fs, origen, destino);
    var fs1 := Mkdirs(fs, p).value;
    var m := Relocate(fs1, origen, destino);
    RelocateEffect(fs1, origen, destino);
    ParentIsPrefix(destino);
    assert !(origen <= p);
    assert !(destino <= p);
    AbsentHasNothingBelow(fs, destino, origen);
    forall q | q in fs && origen <= q ensures q in fs1 && fs1[q] == fs[q] {}
  }

  // ---------------------------------------------------------------------------
  // eliminar
  // ---------------------------------------------------------------------------

  /** What `eliminar` reports: a permanent deletion, or where in the trash the entry went. */
  datatype Removal = Deleted(path: Path) | Trashed(dest: Path)

  /** The name an entry gets in the trash: the timestamp, "_", then its own name. */
  function TrashName(stamp: string, nombre: string): string
  {
    stamp + "_" + nombre
  }

  /**
    `eliminar(ruta, permanente)`: a permanent delete removes the whole subtree;
    otherwise the entry is moved into the trash under a timestamped name.
    `stamp` is `datetime.now().strftime("%Y%m%d_%H%M%S")`.
   */
  function Eliminar(fs: FS, env: Env, ruta: Path, permanente: bool, stamp: string): (r: Result<(FS, Removal), FsError>)
    ensures ruta !in fs ==> r == Err(NotFound(ruta))
    ensures ruta in fs && permanente ==> r.Ok? && r.value.1 == Deleted(ruta)
    ensures ruta in fs && permanente ==> forall q :: q in r.value.0 <==> q in fs && !(ruta <= q)
    ensures ruta in fs && permanente ==> forall q | q in r.value.0 :: r.value.0[q] == fs[q]
    ensures r.Ok? && !permanente ==> r.value.1 == Trashed(Trash(env) + [TrashName(stamp, Basename(ruta))])
    ensures ruta in fs && !permanente ==> var destino := Trash(env) + [TrashName(stamp, Basename(ruta))];
      (r.Ok? <==> MoveRelocates(fs, ruta, destino) || MoveMakesParents(fs, ruta, destino) || (IsDir(fs, destino) && ruta == destino))
    ensures !permanente ==> var destino := Trash(env) + [TrashName(stamp, Basename(ruta))];
      MoveRelocates(fs, ruta, destino) ==> r.Ok? && r.value.0 == Relocate(fs, ruta, MoveTarget(fs, ruta, destino))
    ensures !permanente ==> var destino := Trash(env) + [TrashName(stamp, Basename(ruta))];
      var target := MoveTarget(fs, ruta, destino);
      MoveMakesParents(fs, ruta, destino) ==> r.Ok? && r.value.0 == Relocate(Mkdirs(fs, Parent(target)).value, ruta, target)
    ensures r.Ok? && !permanente && Valid(fs) ==> Valid(r.value.0)
  {
    if ruta !in fs then Err(NotFound(ruta))
    else if permanente then Ok((RemoveTree(fs, ruta), Deleted(ruta)))
    else
      var destino := Trash(env) + [TrashName(stamp, Basename(ruta))];
      assert Move(fs, ruta, destino).Ok? && Valid(fs) ==> Valid(Move(fs, ruta, destino).value) by {
        if Move(fs, ruta, destino).Ok? && Valid(fs) { MovePreservesValid(fs, ruta, destino); }
      }
      match Move(fs, ruta, destino)
      case Ok(fs1) => Ok((fs1, Trashed(destino)))
      case Err(e) => Err(e)
  }

  /**
    Sending an entry to the trash: when the trash folder exists, the
    timestamped name is free and the entry is not the trash itself or one of
    its ancestors, the entry disappears from its place, reappears (with its
    whole subtree) in the trash, and nothing else changes.
   */
  lemma EliminarToTrash(fs: FS, env: Env, ruta: Path, stamp: string)
    requires Valid(fs) && ruta in fs
    requires IsDir(fs, Trash(env))
    requires Trash(env) + [TrashName(stamp, Basename(ruta))] !in fs
    requires !(ruta <= Trash(env))
    ensures var d := Trash(env) + [TrashName(stamp, Basename(ruta))];
      var r := Eliminar(fs, env, ruta, false, stamp);
      && r.Ok?
      && ruta !in r.value.0
      && (forall q | q in fs && ruta <= q :: Rebase(q, ruta, d) in r.value.0 && r.value.0[Rebase(q, ruta, d)] == fs[q])
      && (forall q | q in fs && !(ruta <= q) :: q in r.value.0 && r.value.0[q] == fs[q])
      && (forall q | q in r.value.0 :: d <= q || (q in fs && !(ruta <= q)))
      && Valid(r.value.0)
  {
    var d := Trash(env) + [TrashName(stamp, Basename(ruta))];
    assert MoveTarget(fs, ruta, d) == d;
    assert !(ruta <= d);
    assert MoveRelocates(fs, ruta, d);
    MoveResult(fs, ruta, d);
    RelocateEffect(fs, ruta, d);
    AbsentHasNothingBelow(fs, d, ruta);
    MovePreservesValid(fs, ruta, d);
    forall q | q in fs && !(ruta <= q) ensures !(d <= q) {
      AbsentHasNothingBelow(fs, d, q);
    }
  }

  // ---------------------------------------------------------------------------
  // duplicar
  // ---------------------------------------------------------------------------

  /** The character `os.path.splitext` splits at. */
  predicate IsDot(c: char)
  {
    c == '.'
  }

  /** Where the extension starts: the last dot, or the end of the name when there is none. */
  function ExtStart(name: string): (k: nat)
    ensures k <= |name|
    ensures k < |name| ==> name[k] == '.' && '.' !in name[k + 1..] && exists i :: 0 <= i < k && name[i] != '.'
    ensures forall i, j | LastAt(name, '.', j) && 0 <= i < j && name[i] != '.' :: k == j
  {
    LastDotSplits(name);
    var dot := RFind(name, '.');
    if dot >= 0 && LeadCount(name, IsDot) < dot then dot else |name|
  }

  /**
    `os.path.splitext` of a bare name: the extension starts at the last dot,
    provided some character before that dot is not a dot (so ".bashrc" and
    "..x" have no extension).
   */
  function SplitExt(name: string): (r: (string, string))
    ensures r.0 + r.1 == name
    ensures r.1 == "" || (r.1[0] == '.' && '.' !in r.1[1..])
    ensures r.1 != "" ==> exists i :: 0 <= i < |r.0| && r.0[i] != '.'
    ensures forall i, j | LastAt(name, '.', j) && 0 <= i < j && name[i] != '.' :: r == (name[..j], name[j..])
  {
    var k := ExtStart(name);
    assert name[..k] + name[k..] == name;
    assert k < |name| ==> name[k..][1..] == name[k + 1..];
    (name[..k], name[k..])
  }

  /** Past a non-dot character, the last dot starts the extension. */
  lemma LastDotSplits(name: string)
    ensures forall i, j | LastAt(name, '.', j) && 0 <= i < j && name[i] != '.' ::
      j == RFind(name, '.') && LeadCount(name, IsDot) <= i
  {
    RFindLast(name, '.');
    var k := LeadCount(name, IsDot);
    assert forall i | 0 <= i < |name| && name[i] != '.' :: k <= i;
  }

  /** The default name of a duplicate: "_copia" between the stem and the extension. */
  function CopyName(name: string): (r: string)
    ensures |r| == |name| + 6
  {
    var (stem, ext) := SplitExt(name);
    stem + "_copia" + ext
  }

  lemma SplitExtPlain()
    ensures SplitExt("informe.txt") == ("informe", ".txt")
  {
    var n := "informe.txt";
    assert ExtStart(n) == 7 by {
      assert n[10] == 't' && n[9] == 'x' && n[8] == 't' && n[7] == '.';
      assert RFind(n, '.') == 7;
      assert n[0] == 'i' && LeadCount(n, IsDot) == 0;
    }
    assert n[..7] == "informe" && n[7..] == ".txt";
  }

  lemma SplitExtHidden()
    ensures SplitExt(".bashrc") == (".bashrc", "")
  {
    var n := ".bashrc";
    assert n[..|n|] == n && n[|n|..] == "";
    assert ExtStart(n) == |n| by { assert RFind(n, '.') == 0; }
  }

  lemma CopyNameLastDot()
    ensures CopyName("datos.tar.gz") == "datos.tar_copia.gz"
  {
    var n := "datos.tar.gz";
    assert ExtStart(n) == 9 by {
      assert n[11] == 'z' && n[10] == 'g' && n[9] == '.';
      assert RFind(n, '.') == 9;
      assert n[0] == 'd' && LeadCount(n, IsDot) == 0;
    }
    assert n[..9] == "datos.tar" && n[9..] == ".gz";
  }

  lemma CopyNameNoExtension()
    ensures CopyName("Makefile") == "Makefile_copia"
  {
    var n := "Makefile";
    assert n[..|n|] == n && n[|n|..] == "";
    assert ExtStart(n) == |n| by { assert '.' !in n; }
  }

  /** `os.path.dirname` of a path: the root stays the root. */
  function DirName(p: Path): Path
  {
    if |p| == 0 then [] else Parent(p)
  }

  /** Where `duplicar` copies to; the empty new name stands for `None`. */
  function DuplicateTarget(ruta: Path, nuevoNombre: string): Path
  {
    DirName(ruta) + [if nuevoNombre == "" then CopyName(Basename(ruta)) else nuevoNombre]
  }

  /**
    `duplicar(ruta, nuevo_nombre)`: `copiar_archivo` to `DuplicateTarget`, so
    the same outcomes as there, with the target fixed next to the original.
   */
  function Duplicar(fs: FS, ruta: Path, nuevoNombre: string): (r: Effect<Path>)
    ensures ruta !in fs ==> r == Effect(fs, Err(NotFound(ruta)))
    ensures r.result.Ok? ==> r.result.value == DuplicateTarget(ruta, nuevoNombre)
    ensures IsFile(fs, ruta) ==>
      var target := MoveTarget(fs, ruta, DuplicateTarget(ruta, nuevoNombre));
      && (r.result.Ok? <==> target != ruta && Writable(fs, target))
      && (r.result.Ok? ==> r.fs == fs[target := fs[ruta]])
      && (r.result.Err? ==> r.fs == fs)
    ensures IsDir(fs, ruta) && Valid(fs) ==> var t := DuplicateTarget(ruta, nuevoNombre);
      (r.result.Ok? <==> NoFileOnPath(fs, t) && !CopyFails(fs, Mkdirs(fs, t).value, ruta, t))
    ensures IsDir(fs, ruta) && Valid(fs) && r.result.Ok? ==> var t := DuplicateTarget(ruta, nuevoNombre);
      var fs1 := Mkdirs(fs, t).value;
      forall q | q in fs && ruta <= q && q != ruta ::
        && (IsDir(fs, q) ==> IsDir(r.fs, Rebase(q, ruta, t)))
        && (IsFile(fs, q) ==> IsFile(r.fs, FileTarget(fs1, ruta, t, q)) && r.fs[FileTarget(fs1, ruta, t, q)] == fs[q])
    ensures IsDir(fs, ruta) ==> var t := DuplicateTarget(ruta, nuevoNombre);
      Mkdirs(fs, t).Err? ==> r.fs == fs
    ensures IsDir(fs, ruta) ==> var t := DuplicateTarget(ruta, nuevoNombre);
      Mkdirs(fs, t).Ok? ==> var fs1 := Mkdirs(fs, t).value;
      && (forall q | q in fs1 && !CopyTarget(fs, fs1, ruta, t, q) :: q in r.fs && r.fs[q] == fs1[q])
      && (forall q | q in r.fs && q !in fs :: q <= t || CopyTarget(fs, fs1, ruta, t, q))
    ensures forall q | q in fs :: q in r.fs && r.fs[q].Dir? == fs[q].Dir?
    ensures forall q | q in fs && !(DuplicateTarget(ruta, nuevoNombre) <= q) :: r.fs[q] == fs[q]
    ensures Valid(fs) ==> Valid(r.fs)
  {
    if ruta !in fs then Effect(fs, Err(NotFound(ruta)))
    else CopiarArchivo(fs, ruta, DuplicateTarget(ruta, nuevoNombre))
  }

  /** The default copy name never names the original, and sits next to it. */
  lemma DefaultDuplicateIsNew(ruta: Path)
    requires ruta != []
    ensures DuplicateTarget(ruta, "") == Parent(ruta) + [CopyName(Basename(ruta))]
    ensures DuplicateTarget(ruta, "") != ruta
  {
    var t := DuplicateTarget(ruta, "");
    assert Basename(t) != Basename(ruta);
  }

  /**
    Duplicating a file to a name that is neither a folder nor the file
    itself: the copy appears next to it with the same content, and nothing
    else changes.
   */
  lemma DuplicarFile(fs: FS, ruta: Path, nuevoNombre: string)
    requires Valid(fs) && IsFile(fs, ruta)
    requires var t := DuplicateTarget(ruta, nuevoNombre); !IsDir(fs, t) && t != ruta
    ensures ruta != []
    ensures var t := DuplicateTarget(ruta, nuevoNombre);
      var r := Duplicar(fs, ruta, nuevoNombre);
      && Parent(t) == Parent(ruta)
      && r.result == Ok(t)
      && r.fs == fs[t := fs[ruta]]
  {
    var t := DuplicateTarget(ruta, nuevoNombre);
    assert ruta != [];
    assert MoveTarget(fs, ruta, t) == t;
    assert Parent(t) == Parent(ruta);
  }

  /** Duplicating a file under its own name is `copy2`'s same-file error, and changes nothing. */
  lemma DuplicarSameName(fs: FS, ruta: Path)
    requires Valid(fs) && IsFile(fs, ruta) && Basename(ruta) != ""
    ensures Duplicar(fs, ruta, Basename(ruta)) == Effect(fs, Err(SameFile(ruta)))
  {
    assert ruta != [];
    assert DuplicateTarget(ruta, Basename(ruta)) == ruta;
  }

  /**
    Duplicating a folder to a free name: it succeeds, and every entry at or
    below the folder reappears, unchanged, below the copy.
   */
  lemma DuplicarFolder(fs: FS, ruta: Path, nuevoNombre: string)
    requires Valid(fs) && IsDir(fs, ruta) && ruta != []
    requires DuplicateTarget(ruta, nuevoNombre) !in fs
    ensures var t := DuplicateTarget(ruta, nuevoNombre);
      var r := Duplicar(fs, ruta, nuevoNombre);
      && r.result == Ok(t)
      && forall q | q in fs && ruta <= q :: Rebase(q, ruta, t) in r.fs && r.fs[Rebase(q, ruta, t)] == fs[q]
  {
    var t := DuplicateTarget(ruta, nuevoNombre);
    assert Parent(t) == Parent(ruta);
    CopyTreeIntoFresh(fs, ruta, t);
  }

  /**
    Copying a folder to a path that does not exist yet, in a folder that does:
    it succeeds, and every entry at or below the folder reappears, unchanged,
    below the new path.
   */
  lemma CopiarFolderToFresh(fs: FS, origen: Path, destino: Path)
    requires Valid(fs) && IsDir(fs, origen) && destino !in fs && destino != [] && IsDir(fs, Parent(destino))
    ensures var r := CopiarArchivo(fs, origen, destino);
      && r.result == Ok(destino)
      && forall q | q in fs && origen <= q :: Rebase(q, origen, destino) in r.fs && r.fs[Rebase(q, origen, destino)] == fs[q]
  {
    CopyTreeIntoFresh(fs, origen, destino);
  }

  /**
    `copytree` lists the folder before it creates the destination, so a
    backup copied into a new sub-folder of the folder itself succeeds and
    holds everything the folder held before.
   */
  lemma CopiarIntoOwnSubfolder(fs: FS, origen: Path, nombre: string)
    requires Valid(fs) && IsDir(fs, origen) && origen + [nombre] !in fs
    ensures var destino := origen + [nombre];
      var r := CopiarArchivo(fs, origen, destino);
      && r.result == Ok(destino)
      && forall q | q in fs && origen <= q :: Rebase(q, origen, destino) in r.fs && r.fs[Rebase(q, origen, destino)] == fs[q]
  {
    assert Parent(origen + [nombre]) == origen;
    CopiarFolderToFresh(fs, origen, origen + [nombre]);
  }
}

=== FILE: fs.dfy ===
/**
  An abstract filesystem: an immutable map from absolute paths (sequences of
  name components, the root being `[]`) to nodes.  The primitives here are the
  operating-system and `shutil` behaviours the assistant's file operations are
  built from: `os.makedirs(exist_ok=True)`, `open(p, "w")`, `open(p, "a")`,
  `shutil.rmtree` / `os.remove`, `shutil.move`, `shutil.copy2` and
  `shutil.copytree(dirs_exist_ok=True)`.

  Failures are values of `FsError`; a failing primitive leaves the
  filesystem as it was.
 */
module Fs {
  import opened Base

  type Path = seq<string>

  datatype Node = File(content: string) | Dir

  type FS = map<Path, Node>

  datatype FsError =
    | NotFound(path: Path)            // FileNotFoundError
    | NotADirectory(path: Path)       // a file sits where a directory is needed
    | IsADirectory(path: Path)        // a directory sits where a file is needed
    | AlreadyExists(path: Path)       // FileExistsError, shutil.Error "already exists"
    | SameFile(path: Path)            // shutil.SameFileError
    | IntoItself(src: Path, dst: Path) // a directory copied or moved into its own subtree
    | Conflict(path: Path)            // shutil.Error: copytree could not copy some entries
    | TooLarge(size: nat, limitMb: int) // leer_archivo's size guard
    | NoMatch(name: string)           // restaurar_desde_papelera found nothing

  predicate IsDir(fs: FS, p: Path)
  {
    p in fs && fs[p].Dir?
  }

  predicate IsFile(fs: FS, p: Path)
  {
    p in fs && fs[p].File?
  }

  function Parent(p: Path): Path
    requires |p| > 0
  {
    p[..|p| - 1]
  }

  /** `os.path.basename`: the last component (empty for the root). */
  function Basename(p: Path): string
  {
    if |p| == 0 then "" else p[|p| - 1]
  }

  /** The root is a directory and every other entry hangs from a directory. */
  predicate Valid(fs: FS)
  {
    IsDir(fs, []) && forall p {:trigger Parent(p)} | p in fs && p != [] :: IsDir(fs, Parent(p))
  }

  /** `p` itself and every ancestor of `p` that exists is a directory. */
  predicate NoFileOnPath(fs: FS, p: Path)
  {
    forall k | 0 <= k <= |p| :: !IsFile(fs, p[..k])
  }

  /** The entries at or below `p`. */
  function Subtree(fs: FS, p: Path): set<Path>
  {
    set q | q in fs && p <= q
  }

  /**
    `order` is what `os.scandir` / `os.listdir` yields for directory `dir`:
    each child name exactly once, in an order the operating system chooses.
   */
  predicate IsListing(fs: FS, dir: Path, order: seq<string>)
  {
    && (forall i, j | 0 <= i < j < |order| :: order[i] != order[j])
    && (forall i | 0 <= i < |order| :: dir + [order[i]] in fs)
    && (forall q | q in fs && |q| == |dir| + 1 && dir <= q :: q[|dir|] in order)
  }

  /**
    `walk` is what `Path(root).rglob("*")` yields: every entry strictly below
    `root` exactly once, in an order the operating system chooses.
   */
  predicate IsWalk(fs: FS, root: Path, walk: seq<Path>)
  {
    && (forall i, j | 0 <= i < j < |walk| :: walk[i] != walk[j])
    && (forall i | 0 <= i < |walk| :: walk[i] in fs && root < walk[i])
    && (forall q | q in fs && root < q :: q in walk)
  }

  lemma ParentIsPrefix(p: Path)
    requires |p| > 0
    ensures Parent(p) <= p
  {
  }

  /** In a valid filesystem every proper ancestor of an entry is a directory. */
  lemma {:induction false} AncestorIsDir(fs: FS, p: Path, k: nat)
    requires Valid(fs) && p in fs && k < |p|
    ensures IsDir(fs, p[..k])
    decreases |p|
  {
    if k == |p| - 1 {
      assert p[..k] == Parent(p);
    } else {
      AncestorIsDir(fs, Parent(p), k);
      assert Parent(p)[..k] == p[..k];
    }
  }

  /** A file has nothing below it in a valid filesystem. */
  lemma FileHasNoChildren(fs: FS, f: Path, q: Path)
    requires Valid(fs) && IsFile(fs, f) && q in fs && f <= q
    ensures q == f
  {
    if q != f {
      assert q[..|f|] == f;
      AncestorIsDir(fs, q, |f|);
    }
  }

  // ---------------------------------------------------------------------------
  // os.makedirs(p, exist_ok=True)
  // ---------------------------------------------------------------------------

  function Mkdirs(fs: FS, p: Path): (r: Result<FS, FsError>)
    ensures r.Ok? ==> IsDir(r.value, p)
    ensures r.Ok? ==> forall q | q in fs :: q in r.value && r.value[q] == fs[q]
    ensures r.Ok? ==> forall q | q in r.value && q !in fs :: q <= p && r.value[q] == Dir
    ensures r.Ok? && Valid(fs) ==> Valid(r.value)
    ensures Valid(fs) ==> (r.Ok? <==> NoFileOnPath(fs, p))
    decreases |p|
  {
    if p in fs then
      if fs[p].Dir? then
        assert Valid(fs) ==> NoFileOnPath(fs, p) by {
          if Valid(fs) {
            forall k | 0 <= k <= |p| ensures !IsFile(fs, p[..k]) {
              if k < |p| { AncestorIsDir(fs, p, k); } else { assert p[..k] == p; }
            }
          }
        }
        Ok(fs)
      else
        assert p[..|p|] == p;
        Err(AlreadyExists(p))
    else if |p| == 0 then
      Ok(fs[[] := Dir])
    else if IsFile(fs, Parent(p)) then
      assert p[..|p| - 1] == Parent(p);
      Err(NotADirectory(Parent(p)))
    else
      var r1 := Mkdirs(fs, Parent(p));
      assert Valid(fs) ==> (NoFileOnPath(fs, p) <==> NoFileOnPath(fs, Parent(p))) by {
        if Valid(fs) {
          if NoFileOnPath(fs, Parent(p)) {
            forall k | 0 <= k <= |p| ensures !IsFile(fs, p[..k]) {
              if k < |p| { assert p[..k] == Parent(p)[..k]; } else { assert p[..k] == p; }
            }
          }
          if NoFileOnPath(fs, p) {
            forall k | 0 <= k <= |Parent(p)| ensures !IsFile(fs, Parent(p)[..k]) {
              assert Parent(p)[..k] == p[..k];
            }
          }
        }
      }
      match r1
      case Err(e) => Err(e)
      case Ok(fs1) => Ok(fs1[p := Dir])
  }

  // ---------------------------------------------------------------------------
  // open(p, "w") / open(p, "a")
  // ---------------------------------------------------------------------------

  /** Where `open(p, mode)` for writing can create or truncate a file. */
  predicate Writable(fs: FS, p: Path)
  {
    |p| > 0 && !IsDir(fs, p) && IsDir(fs, Parent(p))
  }

  function WriteError(fs: FS, p: Path): FsError
    requires !Writable(fs, p)
  {
    if |p| == 0 || IsDir(fs, p) then IsADirectory(p)
    else if Parent(p) !in fs then NotFound(p)
    else NotADirectory(Parent(p))
  }

  /** `open(p, "w").write(content)`: create or truncate. */
  function WriteFile(fs: FS, p: Path, content: string): (r: Result<FS, FsError>)
    ensures r.Ok? <==> Writable(fs, p)
    ensures r.Ok? ==> IsFile(r.value, p) && r.value[p].content == content
    ensures r.Ok? ==> forall q | q != p :: (q in r.value <==> q in fs) && (q in fs ==> r.value[q] == fs[q])
    ensures r.Ok? && Valid(fs) ==> Valid(r.value)
  {
    if Writable(fs, p) then Ok(fs[p := File(content)]) else Err(WriteError(fs, p))
  }

  /** `open(p, "a").write(content)`: create, or extend the existing text. */
  function AppendFile(fs: FS, p: Path, content: string): (r: Result<FS, FsError>)
    ensures r.Ok? <==> Writable(fs, p)
    ensures r.Ok? ==> IsFile(r.value, p)
    ensures r.Ok? && IsFile(fs, p) ==> r.value[p].content == fs[p].content + content
    ensures r.Ok? && p !in fs ==> r.value[p].content == content
    ensures r.Ok? ==> forall q | q != p :: (q in r.value <==> q in fs) && (q in fs ==> r.value[q] == fs[q])
  {
    if Writable(fs, p) then
      var old_ := if IsFile(fs, p) then fs[p].content else "";
      Ok(fs[p := File(old_ + content)])
    else Err(WriteError(fs, p))
  }

  // ---------------------------------------------------------------------------
  // Removing and relocating whole subtrees
  // ---------------------------------------------------------------------------

  /** `shutil.rmtree(p)` for a directory, `os.remove(p)` for a file. */
  function RemoveTree(fs: FS, p: Path): (r: FS)
    ensures forall q :: q in r <==> q in fs && !(p <= q)
    ensures forall q | q in r :: r[q] == fs[q]
    ensures Valid(fs) && p != [] ==> Valid(r)
  {
    var r := map q | q in fs && !(p <= q) :: fs[q];
    assert Valid(fs) && p != [] ==> Valid(r) by {
      if Valid(fs) && p != [] {
        forall q | q in r && q != [] ensures IsDir(r, Parent(q)) {
          ParentIsPrefix(q);
        }
      }
    }
    r
  }

  /** Where the entry `q` of the subtree at `src` lands when that subtree is re-rooted at `dst`. */
  function Rebase(q: Path, src: Path, dst: Path): Path
    requires src <= q
  {
    dst + q[|src|..]
  }

  lemma RebaseInjective(q1: Path, q2: Path, src: Path, dst: Path)
    requires src <= q1 && src <= q2
    requires Rebase(q1, src, dst) == Rebase(q2, src, dst)
    ensures q1 == q2
  {
    assert q1[|src|..] == Rebase(q1, src, dst)[|dst|..];
    assert q2[|src|..] == Rebase(q2, src, dst)[|dst|..];
    assert q1 == src + q1[|src|..];
    assert q2 == src + q2[|src|..];
  }

  /** The subtree at `src`, re-rooted at `dst`. */
  function Transplant(fs: FS, src: Path, dst: Path): (m: FS)
    ensures forall q | q in fs && src <= q :: Rebase(q, src, dst) in m && m[Rebase(q, src, dst)] == fs[q]
    ensures forall t | t in m :: exists q :: q in fs && src <= q && t == Rebase(q, src, dst)
  {
    forall q1, q2 | q1 in fs && src <= q1 && q2 in fs && src <= q2 && Rebase(q1, src, dst) == Rebase(q2, src, dst)
      ensures q1 == q2
    {
      RebaseInjective(q1, q2, src, dst);
    }
    var m := map q | q in fs && src <= q :: Rebase(q, src, dst) := fs[q];
    forall q | q in fs && src <= q
      ensures Rebase(q, src, dst) in m && m[Rebase(q, src, dst)] == fs[q]
    {
      forall q2 | q2 in fs && src <= q2 && Rebase(q2, src, dst) == Rebase(q, src, dst)
        ensures q2 == q
      {
        RebaseInjective(q, q2, src, dst);
      }
    }
    m
  }

  lemma TransplantKeysUnder(fs: FS, src: Path, dst: Path, t: Path)
    requires t in Transplant(fs, src, dst)
    ensures dst <= t
  {
  }

  /** The entries at or below `src` removed, and re-created below `dst`. */
  function Relocate(fs: FS, src: Path, dst: Path): FS
  {
    RemoveTree(fs, src) + Transplant(fs, src, dst)
  }

  // ---------------------------------------------------------------------------
  // shutil.move(src, dst)
  // ---------------------------------------------------------------------------

  /** The path `shutil.move` actually writes to: inside `dst` when `dst` is a directory. */
  function MoveTarget(fs: FS, src: Path, dst: Path): Path
  {
    if IsDir(fs, dst) then dst + [Basename(src)] else dst
  }

  /**
    A folder whose target's parent folder is missing: `os.rename` fails, and
    `shutil.move` falls back to `copytree`, whose `os.makedirs` creates the
    missing folders, followed by `rmtree` of the original.
   */
  predicate MoveMakesParents(fs: FS, src: Path, dst: Path)
  {
    var target := MoveTarget(fs, src, dst);
    && IsDir(fs, src)
    && !(src <= target)
    && |target| > 0 && target !in fs
    && !IsDir(fs, Parent(target))
    && Mkdirs(fs, Parent(target)).Ok?
  }

  /**
    `shutil.move(src, dst)`: into `dst` when it is a directory (refusing an
    existing entry of the same name there before `src` is looked at),
    otherwise onto `dst`, replacing a file there when `src` is a file.  A
    directory cannot be moved into itself; one whose target's parents are
    missing is copied there, the parents created, and then removed.
   */
  function Move(fs: FS, src: Path, dst: Path): (r: Result<FS, FsError>)
  {
    var target := MoveTarget(fs, src, dst);
    if IsDir(fs, dst) && src == dst then Ok(fs)
    else if IsDir(fs, dst) && target in fs then Err(AlreadyExists(target))
    else if src !in fs then Err(NotFound(src))
    else if IsDir(fs, src) && src <= target then Err(IntoItself(src, dst))
    else if MoveMakesParents(fs, src, dst) then Ok(Relocate(Mkdirs(fs, Parent(target)).value, src, target))
    else if !Writable(fs, target) then Err(WriteError(fs, target))
    else if IsDir(fs, src) && target in fs then Err(AlreadyExists(target))
    else Ok(Relocate(fs, src, target))
  }

  /** The conditions under which `Move` relocates `src` to its target. */
  predicate MoveRelocates(fs: FS, src: Path, dst: Path)
  {
    var target := MoveTarget(fs, src, dst);
    && src in fs
    && !(IsDir(fs, dst) && src == dst)
    && !(IsDir(fs, dst) && target in fs)
    && !(IsDir(fs, src) && src <= target)
    && Writable(fs, target)
    && !(IsDir(fs, src) && target in fs)
  }

  lemma MoveResult(fs: FS, src: Path, dst: Path)
    requires MoveRelocates(fs, src, dst)
    ensures Move(fs, src, dst) == Ok(Relocate(fs, src, MoveTarget(fs, src, dst)))
  {
  }

  /**
    What a successful relocation does: the subtree at `src` is gone, it
    reappears below the target with the same nodes, and every entry outside
    both subtrees is untouched.
   */
  lemma {:induction false} RelocateEffect(fs: FS, src: Path, target: Path)
    ensures forall q | q in fs && src <= q ::
      Rebase(q, src, target) in Relocate(fs, src, target) && Relocate(fs, src, target)[Rebase(q, src, target)] == fs[q]
    ensures forall q | q in fs && !(src <= q) && !(target <= q) ::
      q in Relocate(fs, src, target) && Relocate(fs, src, target)[q] == fs[q]
    ensures forall q | q in Relocate(fs, src, target) :: target <= q || (q in fs && !(src <= q))
    ensures !(target <= src) ==> src !in Relocate(fs, src, target)
  {
    var t := Transplant(fs, src, target);
    forall q | q in fs && !(src <= q) && !(target <= q)
      ensures q in Relocate(fs, src, target) && Relocate(fs, src, target)[q] == fs[q]
    {
      if q in t { TransplantKeysUnder(fs, src, target, q); }
    }
    forall q | q in Relocate(fs, src, target) ensures target <= q || (q in fs && !(src <= q)) {
      if q in t { TransplantKeysUnder(fs, src, target, q); }
    }
  }

  /** In a valid filesystem every prefix of an entry is an entry. */
  lemma PrefixPresent(fs: FS, p: Path, q: Path)
    requires Valid(fs) && q in fs && p <= q
    ensures p in fs
  {
    if p != q {
      assert q[..|p|] == p;
      AncestorIsDir(fs, q, |p|);
    }
  }

  /** Re-rooting twice is re-rooting once. */
  lemma RebaseTwice(q: Path, a: Path, b: Path, c: Path)
    requires a <= q
    ensures b <= Rebase(q, a, b)
    ensures Rebase(Rebase(q, a, b), b, c) == Rebase(q, a, c)
  {
    assert Rebase(q, a, b)[|b|..] == q[|a|..];
  }

  /** Nothing lives below a path that is absent from a valid filesystem. */
  lemma AbsentHasNothingBelow(fs: FS, d: Path, q: Path)
    requires Valid(fs) && d !in fs && q in fs
    ensures !(d <= q)
  {
    if d <= q {
      assert q[..|d|] == d;
      assert q != d;
      AncestorIsDir(fs, q, |d|);
    }
  }

  /** Nothing lives strictly below a place a file can be written to. */
  lemma NothingBelowWritable(fs: FS, target: Path, q: Path)
    requires Valid(fs) && Writable(fs, target) && q in fs && target <= q
    ensures q == target
  {
    if q != target {
      assert q[..|target|] == target;
      AncestorIsDir(fs, q, |target|);
    }
  }

  /** The directory that receives a moved entry is not part of what moves. */
  lemma TargetParentOutsideSource(fs: FS, src: Path, target: Path)
    requires Valid(fs) && Writable(fs, target) && src in fs
    requires !(IsDir(fs, src) && src <= target)
    ensures !(src <= Parent(target))
  {
    if src <= Parent(target) {
      ParentIsPrefix(target);
      assert src <= target;
      FileHasNoChildren(fs, src, Parent(target));
    }
  }

  lemma RebaseParent(q0: Path, src: Path, target: Path)
    requires src <= q0 && |src| < |q0|
    ensures src <= Parent(q0)
    ensures |Rebase(q0, src, target)| > 0
    ensures Parent(Rebase(q0, src, target)) == Rebase(Parent(q0), src, target)
  {
    var p0 := Parent(q0);
    assert q0[..|src|] == src;
    assert p0[..|src|] == src;
    assert p0[|src|..] == q0[|src|..|q0| - 1];
  }

  /** Relocating a subtree to a writable place keeps every entry hanging from a directory. */
  lemma {:induction false} RelocatePreservesValid(fs: FS, src: Path, target: Path)
    requires Valid(fs) && Writable(fs, target) && src in fs && src != []
    requires !(src <= Parent(target))
    ensures Valid(Relocate(fs, src, target))
  {
    var kept := RemoveTree(fs, src);
    var t := Transplant(fs, src, target);
    var r := Relocate(fs, src, target);
    assert r == kept + t;
    assert [] in kept;
    assert [] !in t by {
      forall x | x in t ensures x != [] { TransplantKeysUnder(fs, src, target, x); }
    }
    forall q | q in r && q != [] ensures IsDir(r, Parent(q)) {
      if q in t {
        TransplantKeysUnder(fs, src, target, q);
        var q0 :| q0 in fs && src <= q0 && q == Rebase(q0, src, target);
        if q0 == src {
          assert q == target;
          assert Parent(target) in kept;
          assert Parent(target) !in t by {
            if Parent(target) in t {
              TransplantKeysUnder(fs, src, target, Parent(target));
            }
          }
        } else {
          RebaseParent(q0, src, target);
          AncestorIsDir(fs, q0, |q0| - 1);
          assert q0[..|q0| - 1] == Parent(q0);
        }
      } else {
        assert q in kept;
        ParentIsPrefix(q);
        assert Parent(q) in kept;
        assert Parent(q) !in t by {
          if Parent(q) in t {
            TransplantKeysUnder(fs, src, target, Parent(q));
            NothingBelowWritable(fs, target, q);
          }
        }
      }
    }
  }

  /** A successful move keeps every entry hanging from a directory. */
  lemma MovePreservesValid(fs: FS, src: Path, dst: Path)
    requires Valid(fs)
    requires Move(fs, src, dst).Ok?
    ensures Valid(Move(fs, src, dst).value)
  {
    var target := MoveTarget(fs, src, dst);
    if MoveMakesParents(fs, src, dst) {
      var fs1 := Mkdirs(fs, Parent(target)).value;
      ParentIsPrefix(target);
      assert !(src <= Parent(target));
      RelocatePreservesValid(fs1, src, target);
    } else if !(IsDir(fs, dst) && src == dst) {
      assert MoveRelocates(fs, src, dst);
      TargetParentOutsideSource(fs, src, target);
      RelocatePreservesValid(fs, src, target);
    }
  }

  // ---------------------------------------------------------------------------
  // shutil.copy2 / shutil.copytree(dirs_exist_ok=True)
  // ---------------------------------------------------------------------------

  /** What an operation that can stop part-way did: the filesystem it left behind, and its result. */
  datatype Effect<T> = Effect(fs: FS, result: Result<T, FsError>)

  /**
    `shutil.copy2(src, dst)` for a file `src`: into `dst` when it is a
    directory, otherwise onto `dst`.  Copying a file onto itself is refused.
   */
  function CopyFile(fs: FS, src: Path, dst: Path): (r: Result<FS, FsError>)
    ensures var target := MoveTarget(fs, src, dst);
      r.Ok? <==> IsFile(fs, src) && target != src && Writable(fs, target)
    ensures r.Ok? ==> var target := MoveTarget(fs, src, dst);
      IsFile(r.value, target) && r.value[target] == fs[src]
    ensures r.Ok? ==> forall q | q != MoveTarget(fs, src, dst) ::
      (q in r.value <==> q in fs) && (q in fs ==> r.value[q] == fs[q])
    ensures r.Ok? && Valid(fs) ==> Valid(r.value)
  {
    var target := MoveTarget(fs, src, dst);
    if src !in fs then Err(NotFound(src))
    else if fs[src].Dir? then Err(IsADirectory(src))
    else if target == src then Err(SameFile(src))
    else WriteFile(fs, target, fs[src].content)
  }

  /**
    A folder between `src` and its entry `q` has a file at its copy's place
    in `fs1`: `copytree` failed to create that copy and skipped the folder,
    `q` with it.
   */
  predicate Blocked(fs1: FS, src: Path, dst: Path, q: Path)
  {
    exists k | |src| < k < |q| :: IsFile(fs1, dst + q[|src|..k])
  }

  /** `copytree` reaches `q`, an entry strictly below `src`. */
  predicate Reached(fs: FS, fs1: FS, src: Path, dst: Path, q: Path)
  {
    q in fs && src <= q && q != src && !Blocked(fs1, src, dst, q)
  }

  /** Where `copy2` writes the file `q`: onto its copy's place, or inside it when that is a folder. */
  function FileTarget(fs1: FS, src: Path, dst: Path, q: Path): Path
    requires src <= q
  {
    var t := Rebase(q, src, dst);
    if IsDir(fs1, t) then t + [Basename(q)] else t
  }

  /** The reached folder `q` gets its copy: a new folder, or one already there. */
  predicate DirCopied(fs: FS, fs1: FS, src: Path, dst: Path, q: Path)
  {
    Reached(fs, fs1, src, dst, q) && IsDir(fs, q) && !IsFile(fs1, Rebase(q, src, dst))
  }

  /** The reached file `q` is written to its target: not a folder, and not `q` itself. */
  predicate FileCopied(fs: FS, fs1: FS, src: Path, dst: Path, q: Path)
  {
    Reached(fs, fs1, src, dst, q) && IsFile(fs, q)
    && !IsDir(fs1, FileTarget(fs1, src, dst, q)) && FileTarget(fs1, src, dst, q) != q
  }

  /** Some reached entry could not be copied: `copytree` collects these and raises `shutil.Error` at the end. */
  predicate CopyFails(fs: FS, fs1: FS, src: Path, dst: Path)
  {
    exists q | q in fs && Reached(fs, fs1, src, dst, q) :: !DirCopied(fs, fs1, src, dst, q) && !FileCopied(fs, fs1, src, dst, q)
  }

  /** `t` is where `copytree` puts the copy of a folder or file it copied. */
  predicate CopyTarget(fs: FS, fs1: FS, src: Path, dst: Path, t: Path)
  {
    || (exists q | q in fs && DirCopied(fs, fs1, src, dst, q) :: t == Rebase(q, src, dst))
    || (exists q | q in fs && FileCopied(fs, fs1, src, dst, q) :: t == FileTarget(fs1, src, dst, q))
  }

  /** Each entry of `fs` below `src`, re-rooted at `dst` and put inside the folder of its copy's name. */
  function TransplantInto(fs: FS, src: Path, dst: Path): (m: FS)
    ensures forall q | q in fs && src <= q ::
      Rebase(q, src, dst) + [Basename(q)] in m && m[Rebase(q, src, dst) + [Basename(q)]] == fs[q]
    ensures forall t | t in m :: exists q :: q in fs && src <= q && t == Rebase(q, src, dst) + [Basename(q)]
  {
    forall q1, q2 | q1 in fs && src <= q1 && q2 in fs && src <= q2
      && Rebase(q1, src, dst) + [Basename(q1)] == Rebase(q2, src, dst) + [Basename(q2)]
      ensures q1 == q2
    {
      IntoInjective(q1, q2, src, dst);
    }
    var m := map q | q in fs && src <= q :: Rebase(q, src, dst) + [Basename(q)] := fs[q];
    forall q | q in fs && src <= q
      ensures Rebase(q, src, dst) + [Basename(q)] in m && m[Rebase(q, src, dst) + [Basename(q)]] == fs[q]
    {
      forall q2 | q2 in fs && src <= q2 && Rebase(q2, src, dst) + [Basename(q2)] == Rebase(q, src, dst) + [Basename(q)]
        ensures q2 == q
      {
        IntoInjective(q, q2, src, dst);
      }
    }
    m
  }

  lemma IntoInjective(q1: Path, q2: Path, src: Path, dst: Path)
    requires src <= q1 && src <= q2
    requires Rebase(q1, src, dst) + [Basename(q1)] == Rebase(q2, src, dst) + [Basename(q2)]
    ensures q1 == q2
  {
    var t1 := Rebase(q1, src, dst);
    var t2 := Rebase(q2, src, dst);
    assert |t1| == |t2|;
    assert t1 == (t1 + [Basename(q1)])[..|t1|] == (t2 + [Basename(q2)])[..|t2|] == t2;
    RebaseInjective(q1, q2, src, dst);
  }

  /** The folders `copytree` creates or merges into, at their copies' places. */
  function CopiedDirs(fs: FS, fs1: FS, src: Path, dst: Path): FS
  {
    Transplant(map q | q in fs && DirCopied(fs, fs1, src, dst, q) :: Dir, src, dst)
  }

  /** The files `copy2` writes onto their copies' places. */
  function FilesOnto(fs: FS, fs1: FS, src: Path, dst: Path): FS
  {
    Transplant(map q | q in fs && FileCopied(fs, fs1, src, dst, q) && !IsDir(fs1, Rebase(q, src, dst)) :: fs[q],
               src, dst)
  }

  /** The files `copy2` writes inside the folders at their copies' places. */
  function FilesInto(fs: FS, fs1: FS, src: Path, dst: Path): FS
  {
    TransplantInto(map q | q in fs && FileCopied(fs, fs1, src, dst, q) && IsDir(fs1, Rebase(q, src, dst)) :: fs[q],
                   src, dst)
  }

  /** `fs1` (the filesystem once `dst` exists) with every copy `copytree` makes. */
  function CopyAll(fs: FS, fs1: FS, src: Path, dst: Path): FS
  {
    fs1 + CopiedDirs(fs, fs1, src, dst) + FilesOnto(fs, fs1, src, dst) + FilesInto(fs, fs1, src, dst)
  }

  /**
    `shutil.copytree(src, dst, dirs_exist_ok=True)`.  The listing of `src`
    comes first, then `dst` is created with its parents, then every entry is
    copied: a folder by the same steps (an existing file at its copy's place
    is an error, and the folder is skipped), a file by `copy2`.  The errors
    are collected, and when there is any `shutil.Error` is raised with the
    copies made so far left in place.
   */
  function CopyTree(fs: FS, src: Path, dst: Path): (r: Effect<()>)
    ensures !IsDir(fs, src) ==> r == Effect(fs, Err(if src in fs then NotADirectory(src) else NotFound(src)))
    ensures IsDir(fs, src) && Mkdirs(fs, dst).Err? ==> r == Effect(fs, Err(Mkdirs(fs, dst).error))
    ensures IsDir(fs, src) && Mkdirs(fs, dst).Ok? ==>
      var fs1 := Mkdirs(fs, dst).value;
      && (r.result.Ok? <==> !CopyFails(fs, fs1, src, dst))
      && IsDir(r.fs, dst)
      && (Valid(fs) ==> forall q | DirCopied(fs, fs1, src, dst, q) :: IsDir(r.fs, Rebase(q, src, dst)))
      && (Valid(fs) ==> forall q | FileCopied(fs, fs1, src, dst, q) ::
            IsFile(r.fs, FileTarget(fs1, src, dst, q)) && r.fs[FileTarget(fs1, src, dst, q)] == fs[q])
      && (forall q | q in fs1 && !CopyTarget(fs, fs1, src, dst, q) :: q in r.fs && r.fs[q] == fs1[q])
      && (forall q | q in r.fs && q !in fs :: q <= dst || CopyTarget(fs, fs1, src, dst, q))
    ensures forall q | q in fs :: q in r.fs && r.fs[q].Dir? == fs[q].Dir?
    ensures forall q | q in fs && !(dst <= q && q != dst) :: r.fs[q] == fs[q]
    ensures forall q | q in r.fs && q !in fs :: q <= dst || dst <= q
    ensures Valid(fs) ==> Valid(r.fs)
  {
    if !IsDir(fs, src) then Effect(fs, Err(if src in fs then NotADirectory(src) else NotFound(src)))
    else
      match Mkdirs(fs, dst)
      case Err(e) => Effect(fs, Err(e))
      case Ok(fs1) =>
        CopyAllEffect(fs, fs1, src, dst);
        CopyAllFrame(fs, fs1, src, dst);
        Effect(CopyAll(fs, fs1, src, dst), if CopyFails(fs, fs1, src, dst) then Err(Conflict(dst)) else Ok(()))
  }

  /** The folder whose copy is `t`. */
  lemma CopiedDirSource(fs: FS, fs1: FS, src: Path, dst: Path, t: Path) returns (q: Path)
    requires t in CopiedDirs(fs, fs1, src, dst)
    ensures DirCopied(fs, fs1, src, dst, q) && t == Rebase(q, src, dst)
  {
    var d := map q | q in fs && DirCopied(fs, fs1, src, dst, q) :: Dir;
    q :| q in d && src <= q && t == Rebase(q, src, dst);
  }

  /** The file whose copy is `t`, written onto its copy's place. */
  lemma FileOntoSource(fs: FS, fs1: FS, src: Path, dst: Path, t: Path) returns (q: Path)
    requires t in FilesOnto(fs, fs1, src, dst)
    ensures FileCopied(fs, fs1, src, dst, q) && !IsDir(fs1, Rebase(q, src, dst)) && t == Rebase(q, src, dst)
    ensures FilesOnto(fs, fs1, src, dst)[t] == fs[q]
  {
    var o := map q | q in fs && FileCopied(fs, fs1, src, dst, q) && !IsDir(fs1, Rebase(q, src, dst)) :: fs[q];
    q :| q in o && src <= q && t == Rebase(q, src, dst);
  }

  /** The file whose copy is `t`, written inside the folder at its copy's place. */
  lemma FileIntoSource(fs: FS, fs1: FS, src: Path, dst: Path, t: Path) returns (q: Path)
    requires t in FilesInto(fs, fs1, src, dst)
    ensures FileCopied(fs, fs1, src, dst, q) && IsDir(fs1, Rebase(q, src, dst))
    ensures t == Rebase(q, src, dst) + [Basename(q)] && t == FileTarget(fs1, src, dst, q)
    ensures FilesInto(fs, fs1, src, dst)[t] == fs[q]
  {
    var i := map q | q in fs && FileCopied(fs, fs1, src, dst, q) && IsDir(fs1, Rebase(q, src, dst)) :: fs[q];
    q :| q in i && src <= q && t == Rebase(q, src, dst) + [Basename(q)];
  }

  /** Every copy lands strictly below `dst`, over nothing of the other kind. */
  lemma CopyKeys(fs: FS, fs1: FS, src: Path, dst: Path, t: Path)
    requires t in CopiedDirs(fs, fs1, src, dst) || t in FilesOnto(fs, fs1, src, dst) || t in FilesInto(fs, fs1, src, dst)
    ensures dst <= t && |t| > |dst|
    ensures t in CopiedDirs(fs, fs1, src, dst) ==> !IsFile(fs1, t)
    ensures t in FilesOnto(fs, fs1, src, dst) || t in FilesInto(fs, fs1, src, dst) ==> !IsDir(fs1, t)
  {
    if t in CopiedDirs(fs, fs1, src, dst) {
      var q := CopiedDirSource(fs, fs1, src, dst, t);
      CopyParent(q, src, dst);
    }
    if t in FilesOnto(fs, fs1, src, dst) {
      var q := FileOntoSource(fs, fs1, src, dst, t);
      CopyParent(q, src, dst);
    }
    if t in FilesInto(fs, fs1, src, dst) {
      var q := FileIntoSource(fs, fs1, src, dst, t);
    }
  }

  /** What `CopyAll` keeps, and what it adds. */
  lemma CopyAllEffect(fs: FS, fs1: FS, src: Path, dst: Path)
    requires IsDir(fs, src) && Mkdirs(fs, dst) == Ok(fs1)
    ensures var m := CopyAll(fs, fs1, src, dst);
      && IsDir(m, dst)
      && (forall q | q in fs1 :: q in m && m[q].Dir? == fs1[q].Dir?)
      && (forall q | q in fs :: q in m && m[q].Dir? == fs[q].Dir?)
      && (forall q | q in fs && !(dst <= q && q != dst) :: m[q] == fs[q])
      && (forall q | q in m && q !in fs :: q <= dst || dst <= q)
      && (Valid(fs) ==> forall q | DirCopied(fs, fs1, src, dst, q) :: IsDir(m, Rebase(q, src, dst)))
      && (Valid(fs) ==> forall q | FileCopied(fs, fs1, src, dst, q) ::
            IsFile(m, FileTarget(fs1, src, dst, q)) && m[FileTarget(fs1, src, dst, q)] == fs[q])
      && (Valid(fs) ==> Valid(m))
  {
    var m := CopyAll(fs, fs1, src, dst);
    var cd := CopiedDirs(fs, fs1, src, dst);
    var fo := FilesOnto(fs, fs1, src, dst);
    var fi := FilesInto(fs, fs1, src, dst);
    forall q | q in fs1 ensures q in m && m[q].Dir? == fs1[q].Dir? {
      if q in cd || q in fo || q in fi { CopyKeys(fs, fs1, src, dst, q); }
    }
    forall q | q in fs && !(dst <= q && q != dst) ensures m[q] == fs[q] {
      if q in cd || q in fo || q in fi { CopyKeys(fs, fs1, src, dst, q); }
    }
    forall q | q in m && q !in fs ensures q <= dst || dst <= q {
      if q in cd || q in fo || q in fi { CopyKeys(fs, fs1, src, dst, q); }
    }
    if Valid(fs) {
      CopiesLand(fs, fs1, src, dst);
      CopyAllValid(fs, fs1, src, dst);
    }
  }

  /** Every key a copy adds or overwrites is a copy target. */
  lemma CopyKeyIsTarget(fs: FS, fs1: FS, src: Path, dst: Path, t: Path)
    requires t in CopiedDirs(fs, fs1, src, dst) || t in FilesOnto(fs, fs1, src, dst) || t in FilesInto(fs, fs1, src, dst)
    ensures CopyTarget(fs, fs1, src, dst, t)
  {
    if t in CopiedDirs(fs, fs1, src, dst) {
      var q := CopiedDirSource(fs, fs1, src, dst, t);
    } else if t in FilesOnto(fs, fs1, src, dst) {
      var q := FileOntoSource(fs, fs1, src, dst, t);
      assert t == FileTarget(fs1, src, dst, q);
    } else {
      var q := FileIntoSource(fs, fs1, src, dst, t);
    }
  }

  /**
    `CopyAll` leaves every entry of `fs1` that is no copy's target as it
    was, and adds nothing but copy targets.
   */
  lemma CopyAllFrame(fs: FS, fs1: FS, src: Path, dst: Path)
    requires IsDir(fs, src) && Mkdirs(fs, dst) == Ok(fs1)
    ensures var m := CopyAll(fs, fs1, src, dst);
      && (forall q | q in fs1 && !CopyTarget(fs, fs1, src, dst, q) :: q in m && m[q] == fs1[q])
      && (forall q | q in m && q !in fs :: q <= dst || CopyTarget(fs, fs1, src, dst, q))
  {
    var m := CopyAll(fs, fs1, src, dst);
    var cd := CopiedDirs(fs, fs1, src, dst);
    var fo := FilesOnto(fs, fs1, src, dst);
    var fi := FilesInto(fs, fs1, src, dst);
    forall q | q in fs1 && !CopyTarget(fs, fs1, src, dst, q) ensures q in m && m[q] == fs1[q] {
      if q in cd || q in fo || q in fi { CopyKeyIsTarget(fs, fs1, src, dst, q); }
    }
    forall q | q in m && q !in fs ensures q <= dst || CopyTarget(fs, fs1, src, dst, q) {
      if q in cd || q in fo || q in fi { CopyKeyIsTarget(fs, fs1, src, dst, q); }
    }
  }

  /** In a valid filesystem each copy keeps the kind and content of its original. */
  lemma CopiesLand(fs: FS, fs1: FS, src: Path, dst: Path)
    requires Valid(fs) && IsDir(fs, src) && Mkdirs(fs, dst) == Ok(fs1)
    ensures var m := CopyAll(fs, fs1, src, dst);
      && (forall q | DirCopied(fs, fs1, src, dst, q) :: IsDir(m, Rebase(q, src, dst)))
      && (forall q | FileCopied(fs, fs1, src, dst, q) ::
            IsFile(m, FileTarget(fs1, src, dst, q)) && m[FileTarget(fs1, src, dst, q)] == fs[q])
  {
    var m := CopyAll(fs, fs1, src, dst);
    forall q | DirCopied(fs, fs1, src, dst, q) ensures IsDir(m, Rebase(q, src, dst)) {
      DirCopyLands(fs, fs1, src, dst, q);
    }
    forall q | FileCopied(fs, fs1, src, dst, q)
      ensures IsFile(m, FileTarget(fs1, src, dst, q)) && m[FileTarget(fs1, src, dst, q)] == fs[q]
    {
      FileCopyLands(fs, fs1, src, dst, q);
    }
  }

  /** A copied file holds its original's content after copying. */
  lemma FileCopyLands(fs: FS, fs1: FS, src: Path, dst: Path, q: Path)
    requires Valid(fs) && FileCopied(fs, fs1, src, dst, q)
    ensures var m := CopyAll(fs, fs1, src, dst);
      IsFile(m, FileTarget(fs1, src, dst, q)) && m[FileTarget(fs1, src, dst, q)] == fs[q]
  {
    var t := Rebase(q, src, dst);
    if !IsDir(fs1, t) && t in FilesInto(fs, fs1, src, dst) {
      var f := FileIntoSource(fs, fs1, src, dst, t);
      FileNotUnderFile(fs, src, dst, f, q);
    }
  }

  /** A copied folder is a folder after copying. */
  lemma DirCopyLands(fs: FS, fs1: FS, src: Path, dst: Path, q: Path)
    requires Valid(fs) && DirCopied(fs, fs1, src, dst, q)
    ensures IsDir(CopyAll(fs, fs1, src, dst), Rebase(q, src, dst))
  {
    var t := Rebase(q, src, dst);
    if t in FilesOnto(fs, fs1, src, dst) {
      var f := FileOntoSource(fs, fs1, src, dst, t);
      RebaseInjective(q, f, src, dst);
    }
    if t in FilesInto(fs, fs1, src, dst) {
      var f := FileIntoSource(fs, fs1, src, dst, t);
      FileNotUnderFile(fs, src, dst, f, q);
    }
  }

  /** A path re-rooted one name deeper than another entry's copy comes from that entry's child. */
  lemma RebaseOneDeeper(q: Path, f: Path, src: Path, dst: Path, name: string)
    requires src <= q && src <= f
    ensures Rebase(q, src, dst) == Rebase(f, src, dst) + [name] ==> q == f + [name]
  {
    if Rebase(q, src, dst) == Rebase(f, src, dst) + [name] {
      assert q[|src|..] == f[|src|..] + [name] by {
        assert Rebase(q, src, dst)[|dst|..] == q[|src|..];
        assert (Rebase(f, src, dst) + [name])[|dst|..] == f[|src|..] + [name];
      }
      assert q == src + q[|src|..];
      assert f == src + f[|src|..];
    }
  }

  /** No entry's copy sits inside the folder named after a file's copy. */
  lemma FileNotUnderFile(fs: FS, src: Path, dst: Path, f: Path, q: Path)
    requires Valid(fs) && IsFile(fs, f) && q in fs && src <= f && src <= q
    ensures Rebase(q, src, dst) != Rebase(f, src, dst) + [Basename(f)]
  {
    RebaseOneDeeper(q, f, src, dst, Basename(f));
    assert !(f <= q && q != f) by {
      if f <= q { FileHasNoChildren(fs, f, q); }
    }
    assert (f + [Basename(f)])[..|f|] == f;
  }

  /** The parent of a copy strictly below `dst` is the copy of the original's parent, or `dst` itself. */
  lemma CopyParent(q: Path, src: Path, dst: Path)
    requires src <= q && q != src
    ensures |Rebase(q, src, dst)| > |dst| && dst <= Rebase(q, src, dst)
    ensures Parent(q) == src ==> Parent(Rebase(q, src, dst)) == dst
    ensures Parent(q) != src ==>
      src <= Parent(q) && Parent(q) != src && Parent(Rebase(q, src, dst)) == Rebase(Parent(q), src, dst)
  {
    assert |q| > |src| by { assert q[..|src|] == src; }
    RebaseParent(q, src, dst);
    if Parent(q) == src {
      assert Rebase(src, src, dst) == dst;
    }
  }

  /** The parent of a reached entry, when it is not `src`, is a reached folder whose copy is a folder. */
  lemma ReachedParent(fs: FS, fs1: FS, src: Path, dst: Path, q: Path)
    requires Valid(fs) && Reached(fs, fs1, src, dst, q) && Parent(q) != src
    ensures DirCopied(fs, fs1, src, dst, Parent(q))
  {
    CopyParent(q, src, dst);
    var a := Parent(q);
    AncestorIsDir(fs, q, |q| - 1);
    assert q[..|q| - 1] == a;
    assert !Blocked(fs1, src, dst, a) by {
      forall k | |src| < k < |a| ensures !IsFile(fs1, dst + a[|src|..k]) {
        assert a[|src|..k] == q[|src|..k];
      }
    }
    assert dst + q[|src|..|a|] == Rebase(a, src, dst);
  }

  /** Copying keeps every entry hanging from a folder. */
  lemma CopyAllValid(fs: FS, fs1: FS, src: Path, dst: Path)
    requires Valid(fs) && IsDir(fs, src) && Mkdirs(fs, dst) == Ok(fs1)
    ensures Valid(CopyAll(fs, fs1, src, dst))
  {
    var m := CopyAll(fs, fs1, src, dst);
    KeptInCopy(fs, fs1, src, dst, []);
    forall t | t in m && t != [] ensures IsDir(m, Parent(t)) {
      CopyHangs(fs, fs1, src, dst, t);
    }
  }

  /** The parent of an entry after copying is a folder. */
  lemma CopyHangs(fs: FS, fs1: FS, src: Path, dst: Path, t: Path)
    requires Valid(fs) && IsDir(fs, src) && Mkdirs(fs, dst) == Ok(fs1)
    requires t in CopyAll(fs, fs1, src, dst) && t != []
    ensures IsDir(CopyAll(fs, fs1, src, dst), Parent(t))
  {
    if t in FilesInto(fs, fs1, src, dst) {
      var f := FileIntoSource(fs, fs1, src, dst, t);
      KeptInCopy(fs, fs1, src, dst, Rebase(f, src, dst));
    } else if t in FilesOnto(fs, fs1, src, dst) || t in CopiedDirs(fs, fs1, src, dst) {
      var q: Path;
      if t in FilesOnto(fs, fs1, src, dst) {
        q := FileOntoSource(fs, fs1, src, dst, t);
      } else {
        q := CopiedDirSource(fs, fs1, src, dst, t);
      }
      CopyParent(q, src, dst);
      if Parent(q) != src {
        ReachedParent(fs, fs1, src, dst, q);
        DirCopyLands(fs, fs1, src, dst, Parent(q));
      } else {
        KeptInCopy(fs, fs1, src, dst, dst);
      }
    } else {
      KeptInCopy(fs, fs1, src, dst, Parent(t));
    }
  }

  /** A folder of `fs1` stays a folder once the copies are added. */
  lemma KeptInCopy(fs: FS, fs1: FS, src: Path, dst: Path, p: Path)
    requires IsDir(fs1, p)
    ensures IsDir(CopyAll(fs, fs1, src, dst), p)
  {
    if p in CopiedDirs(fs, fs1, src, dst) || p in FilesOnto(fs, fs1, src, dst) || p in FilesInto(fs, fs1, src, dst) {
      CopyKeys(fs, fs1, src, dst, p);
    }
  }

  /** A block on the way to `q` starts at a first folder, which is itself reached. */
  lemma {:induction false} FirstBlock(fs1: FS, src: Path, dst: Path, q: Path, n: nat)
    requires |src| < n <= |q|
    requires exists k | |src| < k < n :: IsFile(fs1, dst + q[|src|..k])
    ensures exists k | |src| < k < n :: IsFile(fs1, dst + q[|src|..k]) && !Blocked(fs1, src, dst, q[..k])
    decreases n
  {
    if exists k | |src| < k < n - 1 :: IsFile(fs1, dst + q[|src|..k]) {
      FirstBlock(fs1, src, dst, q, n - 1);
    } else {
      var k := n - 1;
      assert IsFile(fs1, dst + q[|src|..k]);
      assert !Blocked(fs1, src, dst, q[..k]) by {
        forall j | |src| < j < k ensures !IsFile(fs1, dst + q[..k][|src|..j]) {
          assert q[..k][|src|..j] == q[|src|..j];
        }
      }
    }
  }

  /** An entry below `src` that `copytree` skips lies below a folder it failed to copy. */
  lemma BlockedMeansFailure(fs: FS, fs1: FS, src: Path, dst: Path, q: Path)
    requires Valid(fs) && q in fs && src <= q
    ensures Blocked(fs1, src, dst, q) ==> CopyFails(fs, fs1, src, dst)
  {
    if Blocked(fs1, src, dst, q) {
      FirstBlock(fs1, src, dst, q, |q|);
      var k :| |src| < k < |q| && IsFile(fs1, dst + q[|src|..k]) && !Blocked(fs1, src, dst, q[..k]);
      var a := q[..k];
      assert src <= a && a != src;
      assert a in fs by { PrefixPresent(fs, a, q); }
      assert IsDir(fs, a) by { AncestorIsDir(fs, q, k); }
      assert Rebase(a, src, dst) == dst + q[|src|..k];
      assert Reached(fs, fs1, src, dst, a) && !DirCopied(fs, fs1, src, dst, a) && !FileCopied(fs, fs1, src, dst, a);
    }
  }

  /**
    When `copytree` raises nothing, every entry below `src` has its copy:
    a folder for a folder, and the same file at `copy2`'s target for a file.
   */
  lemma CopyTreeComplete(fs: FS, src: Path, dst: Path)
    requires Valid(fs) && CopyTree(fs, src, dst).result.Ok?
    ensures Mkdirs(fs, dst).Ok?
    ensures var fs1 := Mkdirs(fs, dst).value;
      var m := CopyTree(fs, src, dst).fs;
      forall q | q in fs && src <= q && q != src ::
        && (IsDir(fs, q) ==> IsDir(m, Rebase(q, src, dst)))
        && (IsFile(fs, q) ==> IsFile(m, FileTarget(fs1, src, dst, q)) && m[FileTarget(fs1, src, dst, q)] == fs[q])
  {
    var fs1 := Mkdirs(fs, dst).value;
    forall q | q in fs && src <= q && q != src ensures Reached(fs, fs1, src, dst, q) {
      BlockedMeansFailure(fs, fs1, src, dst, q);
    }
  }

  /** Creating a folder whose parent is a folder adds that one folder and nothing below it. */
  lemma MkdirsFresh(fs: FS, dst: Path)
    requires Valid(fs) && dst !in fs && dst != [] && IsDir(fs, Parent(dst))
    ensures Mkdirs(fs, dst).Ok?
    ensures forall p | dst <= p && p != dst :: p !in Mkdirs(fs, dst).value
  {
    forall k | 0 <= k <= |dst| ensures !IsFile(fs, dst[..k]) {
      if k < |dst| {
        assert dst[..k] == Parent(dst)[..k];
        if k < |Parent(dst)| { AncestorIsDir(fs, Parent(dst), k); } else { assert dst[..k] == Parent(dst); }
      } else {
        assert dst[..k] == dst;
      }
    }
    forall p | dst <= p && p != dst ensures p !in Mkdirs(fs, dst).value {
      if p in fs { AbsentHasNothingBelow(fs, dst, p); }
    }
  }

  /** With nothing below `dst`, each entry below `src` is copied to its own place. */
  lemma FreshEntryCopied(fs: FS, fs1: FS, src: Path, dst: Path, q: Path)
    requires forall p | dst <= p && p != dst :: p !in fs1
    requires q in fs && q in fs1 && src <= q && q != src
    ensures FileTarget(fs1, src, dst, q) == Rebase(q, src, dst)
    ensures IsDir(fs, q) ==> DirCopied(fs, fs1, src, dst, q)
    ensures IsFile(fs, q) ==> FileCopied(fs, fs1, src, dst, q)
  {
    CopyParent(q, src, dst);
    assert !Blocked(fs1, src, dst, q) by {
      forall k | |src| < k < |q| ensures !IsFile(fs1, dst + q[|src|..k]) {
        assert dst <= dst + q[|src|..k];
      }
    }
  }

  /** Copying a folder to a fresh place next to existing folders raises nothing. */
  lemma FreshCopySucceeds(fs: FS, src: Path, dst: Path)
    requires Valid(fs) && IsDir(fs, src) && dst !in fs && dst != [] && IsDir(fs, Parent(dst))
    ensures Mkdirs(fs, dst).Ok? && !CopyFails(fs, Mkdirs(fs, dst).value, src, dst)
    ensures forall p | dst <= p && p != dst :: p !in Mkdirs(fs, dst).value
  {
    MkdirsFresh(fs, dst);
    var fs1 := Mkdirs(fs, dst).value;
    forall q | q in fs && Reached(fs, fs1, src, dst, q)
      ensures DirCopied(fs, fs1, src, dst, q) || FileCopied(fs, fs1, src, dst, q)
    {
      FreshEntryCopied(fs, fs1, src, dst, q);
    }
  }

  /**
    Copying a folder to a fresh place next to existing folders succeeds, and
    every entry at or below `src` reappears, unchanged, at its place below `dst`.
   */
  lemma CopyTreeIntoFresh(fs: FS, src: Path, dst: Path)
    requires Valid(fs) && IsDir(fs, src) && dst !in fs && dst != [] && IsDir(fs, Parent(dst))
    ensures CopyTree(fs, src, dst).result.Ok?
    ensures forall q | q in fs && src <= q ::
      Rebase(q, src, dst) in CopyTree(fs, src, dst).fs && CopyTree(fs, src, dst).fs[Rebase(q, src, dst)] == fs[q]
  {
    FreshCopySucceeds(fs, src, dst);
    CopyTreeStarts(fs, src, dst);
    FreshCopyKeeps(fs, Mkdirs(fs, dst).value, src, dst);
  }

  lemma FreshCopyKeeps(fs: FS, fs1: FS, src: Path, dst: Path)
    requires Valid(fs) && IsDir(fs, src) && Mkdirs(fs, dst) == Ok(fs1)
    requires forall p | dst <= p && p != dst :: p !in fs1
    ensures forall q | q in fs && src <= q ::
      Rebase(q, src, dst) in CopyAll(fs, fs1, src, dst) && CopyAll(fs, fs1, src, dst)[Rebase(q, src, dst)] == fs[q]
  {
    forall q | q in fs && src <= q
      ensures Rebase(q, src, dst) in CopyAll(fs, fs1, src, dst) && CopyAll(fs, fs1, src, dst)[Rebase(q, src, dst)] == fs[q]
    {
      if q == src {
        FreshCopyRoot(fs, fs1, src, dst);
      } else {
        FreshCopyBelow(fs, fs1, src, dst, q);
      }
    }
  }

  lemma FreshCopyRoot(fs: FS, fs1: FS, src: Path, dst: Path)
    requires IsDir(fs, src) && IsDir(fs1, dst)
    ensures Rebase(src, src, dst) in CopyAll(fs, fs1, src, dst) && CopyAll(fs, fs1, src, dst)[Rebase(src, src, dst)] == fs[src]
  {
    assert Rebase(src, src, dst) == dst;
    KeptInCopy(fs, fs1, src, dst, dst);
  }

  /** Once `dst` exists, `copytree` leaves every copy it makes. */
  lemma CopyTreeStarts(fs: FS, src: Path, dst: Path)
    requires IsDir(fs, src) && Mkdirs(fs, dst).Ok?
    ensures CopyTree(fs, src, dst).fs == CopyAll(fs, Mkdirs(fs, dst).value, src, dst)
  {
  }

  lemma FreshCopyBelow(fs: FS, fs1: FS, src: Path, dst: Path, q: Path)
    requires Valid(fs) && IsDir(fs, src) && Mkdirs(fs, dst) == Ok(fs1)
    requires forall p | dst <= p && p != dst :: p !in fs1
    requires q in fs && src <= q && q != src
    ensures Rebase(q, src, dst) in CopyAll(fs, fs1, src, dst) && CopyAll(fs, fs1, src, dst)[Rebase(q, src, dst)] == fs[q]
  {
    FreshEntryCopied(fs, fs1, src, dst, q);
    CopiesLand(fs, fs1, src, dst);
  }
}

=== FILE: media.dfy ===
/**
  `control_youtube`, `control_tiktok`, `control_instagram` and
  `control_spotify`: a free-text command is lowered and tested against a list
  of rules in order; the first rule one of whose words occurs in the text
  decides the key pressed or the click made.

  Key presses and clicks are recorded as effects, not performed.  Whether
  pyautogui is installed is a parameter, and `found` is what
  `encontrar_navegador(navegador)` returned (`None` also when no browser was
  named).
 */
module Media {
  import opened Base

  /** What the command does to the screen. */
  datatype Effect =
    | Press(key: string, times: nat)       // pyautogui.press(key, presses=times)
    | Click                                // pyautogui.click()
    | DoubleClick                          // pyautogui.doubleClick()
    | OpenBrowser(path: string, url: string) // the browser opened on the platform's site first
    | OpenSpotify                          // subprocess.Popen("spotify", shell=True)

  datatype MediaError =
    | MissingLibrary(message: string)  // ImportError
    | Unrecognised(message: string)    // ValueError
    | NotSupported(message: string)    // NotImplementedError

  /** The effects that happened, and the exception raised afterwards, if any. */
  datatype Outcome = Outcome(effects: seq<Effect>, error: Option<MediaError>)

  /** One rule: if any of `words` occurs in the lowered command, do `effect`. */
  datatype Rule = Rule(words: seq<string>, effect: Effect)

  predicate Matches(r: Rule, text: string)
  {
    exists w | w in r.words :: Contains(text, w)
  }

  /** The index of the first rule that matches, if any: an `if`/`elif` chain. */
  function FirstRule(rules: seq<Rule>, text: string, i: nat): (r: Option<nat>)
    requires i <= |rules|
    ensures r.None? <==> forall k | i <= k < |rules| :: !Matches(rules[k], text)
    ensures r.Some? ==>
      (i <= r.value < |rules| && Matches(rules[r.value], text)
       && forall k | i <= k < r.value :: !Matches(rules[k], text))
    decreases |rules| - i
  {
    if i == |rules| then None
    else if Matches(rules[i], text) then Some(i)
    else FirstRule(rules, text, i + 1)
  }

  /** The effect of the first matching rule. */
  function Decide(rules: seq<Rule>, accion: string): (d: Option<Effect>)
    ensures d.None? <==> forall k | 0 <= k < |rules| :: !Matches(rules[k], Lower(accion))
    ensures d.Some? ==> exists k | 0 <= k < |rules| ::
      (d.value == rules[k].effect && Matches(rules[k], Lower(accion))
       && forall j | 0 <= j < k :: !Matches(rules[j], Lower(accion)))
  {
    match FirstRule(rules, Lower(accion), 0)
    case Some(k) => Some(rules[k].effect)
    case None => None
  }

  // ---------------------------------------------------------------------------
  // The four rule tables, in source order
  // ---------------------------------------------------------------------------

  const YoutubeRules: seq<Rule> := [
    Rule(["pausar", "pause"], Press("space", 1)),
    Rule(["reproducir", "play"], Press("space", 1)),
    Rule(["siguiente", "next"], Press("shift+n", 1)),
    Rule(["anterior", "previous", "atras"], Press("shift+p", 1)),
    Rule(["lista", "playlist"], Press("shift+l", 1)),
    Rule(["volumen arriba", "subir volumen", "volume up"], Press("up", 5)),
    Rule(["volumen abajo", "bajar volumen", "volume down"], Press("down", 5)),
    Rule(["mute", "silenciar"], Press("m", 1))
  ]

  const TiktokRules: seq<Rule> := [
    Rule(["pausar", "pause"], Click),
    Rule(["siguiente", "next"], Press("down", 1)),
    Rule(["anterior", "previous"], Press("up", 1)),
    Rule(["like"], DoubleClick)
  ]

  const InstagramRules: seq<Rule> := [
    Rule(["siguiente", "next"], Press("right", 1)),
    Rule(["anterior", "previous"], Press("left", 1)),
    Rule(["like"], Press("l", 1)),
    Rule(["comentar"], Press("c", 1))
  ]

  const SpotifyRules: seq<Rule> := [
    Rule(["pausar", "pause"], Press("space", 1)),
    Rule(["reproducir", "play"], Press("space", 1)),
    Rule(["siguiente", "next"], Press("next", 1)),
    Rule(["anterior", "previous"], Press("prev", 1)),
    Rule(["volumen arriba", "subir volumen"], Press("volumeup", 5)),
    Rule(["volumen abajo", "bajar volumen"], Press("volumedown", 5))
  ]

  /** Opening the platform in the named browser, when one was named and found. */
  function Opening(found: Option<string>, url: string): seq<Effect>
  {
    if found.Some? then [OpenBrowser(found.value, url)] else []
  }

  /**
    The shape shared by the three browser platforms: no pyautogui, no effect;
    otherwise open the site if asked, then the first matching rule, or a
    ValueError whose message starts with `unrecognised`.
   */
  function Control(rules: seq<Rule>, missing: string, unrecognised: string, url: string,
                   accion: string, found: Option<string>, pyautogui: bool): (r: Outcome)
    ensures !pyautogui ==> r == Outcome([], Some(MissingLibrary(missing)))
    ensures pyautogui ==> (r.error.None? <==> Decide(rules, accion).Some?)
    ensures pyautogui && r.error.None? ==> r.effects == Opening(found, url) + [Decide(rules, accion).value]
    ensures pyautogui && r.error.Some? ==>
      r == Outcome(Opening(found, url), Some(Unrecognised(unrecognised + accion)))
  {
    if !pyautogui then Outcome([], Some(MissingLibrary(missing)))
    else if Decide(rules, accion).Some? then Outcome(Opening(found, url) + [Decide(rules, accion).value], None)
    else Outcome(Opening(found, url), Some(Unrecognised(unrecognised + accion)))
  }

  function ControlYoutube(accion: string, found: Option<string>, pyautogui: bool): Outcome
  {
    Control(YoutubeRules, "pyautogui no está instalado. Instalá: pip install pyautogui", "Acción de YouTube no reconocida: ",
            "https://www.youtube.com", accion, found, pyautogui)
  }

  function ControlTiktok(accion: string, found: Option<string>, pyautogui: bool): Outcome
  {
    Control(TiktokRules, "pyautogui no está instalado.", "Acción de TikTok no reconocida: ", "https://www.tiktok.com", accion, found, pyautogui)
  }

  function ControlInstagram(accion: string, found: Option<string>, pyautogui: bool): Outcome
  {
    Control(InstagramRules, "pyautogui no está instalado.", "Acción de Instagram no reconocida: ", "https://www.instagram.com", accion, found, pyautogui)
  }

  /**
    `control_spotify(accion)`: an unmatched command opens Spotify, and then
    raises only if it asks for a search.
   */
  function ControlSpotify(accion: string, pyautogui: bool): (r: Outcome)
    ensures !pyautogui ==> r == Outcome([], Some(MissingLibrary("pyautogui no está instalado.")))
    ensures pyautogui ==>
      (r.error.Some? <==> Decide(SpotifyRules, accion).None? && Contains(Lower(accion), "buscar"))
    ensures pyautogui && Decide(SpotifyRules, accion).Some? ==> r.effects == [Decide(SpotifyRules, accion).value]
    ensures pyautogui && Decide(SpotifyRules, accion).None? ==> r.effects == [OpenSpotify]
  {
    if !pyautogui then Outcome([], Some(MissingLibrary("pyautogui no está instalado.")))
    else
      match Decide(SpotifyRules, accion)
      case Some(e) => Outcome([e], None)
      case None =>
        if Contains(Lower(accion), "buscar") then
          Outcome([OpenSpotify], Some(NotSupported("Búsqueda en Spotify requiere más automatización")))
        else Outcome([OpenSpotify], None)
  }

  // ---------------------------------------------------------------------------
  // Properties
  // ---------------------------------------------------------------------------

  /** "playlist" contains "play", so the play rule fires before the playlist rule is reached. */
  lemma YoutubePlaylistIsSpace()
    ensures ControlYoutube("playlist", None, true) == Outcome([Press("space", 1)], None)
  {
    var t := Lower("playlist");
    assert t == "playlist";
    NotContainsByChar(t, "pausar", 'u');
    NotContainsByChar(t, "pause", 'u');
    assert !Matches(YoutubeRules[0], t);
    assert OccursAt(t, "play", 0) && Contains(t, "play");
    assert "play" in YoutubeRules[1].words;
    assert Matches(YoutubeRules[1], t);
    assert FirstRule(YoutubeRules, t, 0) == Some(1);
  }

  /**
    Any YouTube command mentioning "play" presses space: the first two rules
    both do, so the playlist rule is reached only through "lista".
   */
  lemma PlayShadowsPlaylist(accion: string)
    requires Contains(Lower(accion), "play")
    ensures Decide(YoutubeRules, accion) == Some(Press("space", 1))
  {
    assert "play" in YoutubeRules[1].words;
    assert Matches(YoutubeRules[1], Lower(accion));
    var k := FirstRule(YoutubeRules, Lower(accion), 0).value;
    assert k <= 1;
  }

  /** A TikTok "like" is a double click. */
  lemma TiktokLikeIsDoubleClick()
    ensures ControlTiktok("like", None, true) == Outcome([DoubleClick], None)
  {
    var t := Lower("like");
    assert t == "like";
    NotContainsByChar(t, "pausar", 'p');
    NotContainsByChar(t, "pause", 'p');
    NotContainsByChar(t, "siguiente", 's');
    NotContainsByChar(t, "next", 'n');
    NotContainsByChar(t, "anterior", 'a');
    NotContainsByChar(t, "previous", 'p');
    assert !Matches(TiktokRules[0], t) && !Matches(TiktokRules[1], t) && !Matches(TiktokRules[2], t);
    assert OccursAt(t, "like", 0) && Contains(t, "like");
    assert "like" in TiktokRules[3].words && Matches(TiktokRules[3], t);
    assert FirstRule(TiktokRules, t, 0) == Some(3);
  }

  /** A command matching no rule raises the platform's ValueError, after the site was opened. */
  lemma UnmatchedRaises(accion: string, found: Option<string>)
    requires forall k | 0 <= k < |InstagramRules| :: !Matches(InstagramRules[k], Lower(accion))
    ensures ControlInstagram(accion, found, true)
         == Outcome(Opening(found, "https://www.instagram.com"), Some(Unrecognised("Acción de Instagram no reconocida: " + accion)))
  {
  }

  /** A Spotify search is the only unmatched command that raises; others just open Spotify. */
  lemma SpotifySearchRaises()
    ensures ControlSpotify("buscar jazz", true) == Outcome([OpenSpotify], Some(NotSupported("Búsqueda en Spotify requiere más automatización")))
    ensures ControlSpotify("abrir", true) == Outcome([OpenSpotify], None)
  {
    SpotifySearchExample();
    SpotifyOpenExample();
  }

  lemma SpotifySearchExample()
    ensures ControlSpotify("buscar jazz", true) == Outcome([OpenSpotify], Some(NotSupported("Búsqueda en Spotify requiere más automatización")))
  {
    var t := Lower("buscar jazz");
    assert t == "buscar jazz";
    SpotifyMisses(t);
    assert OccursAt(t, "buscar", 0) && Contains(t, "buscar");
  }

  lemma SpotifyOpenExample()
    ensures ControlSpotify("abrir", true) == Outcome([OpenSpotify], None)
  {
    var u := Lower("abrir");
    assert u == "abrir";
    SpotifyMisses(u);
    NotContainsByChar(u, "buscar", 'u');
  }

  /** Texts without the letters e, n, l and p match no Spotify rule. */
  lemma SpotifyMisses(t: string)
    requires 'e' !in t && 'n' !in t && 'l' !in t && 'p' !in t
    ensures forall k | 0 <= k < |SpotifyRules| :: !Matches(SpotifyRules[k], t)
  {
    forall k, w | 0 <= k < |SpotifyRules| && w in SpotifyRules[k].words ensures !Contains(t, w) {
      if 'e' in w { NotContainsByChar(t, w, 'e'); }
      else if 'n' in w { NotContainsByChar(t, w, 'n'); }
      else if 'l' in w { NotContainsByChar(t, w, 'l'); }
      else { NotContainsByChar(t, w, 'p'); }
    }
  }
}

=== FILE: pyvalue.dfy ===
/**
  JSON values as the assistant sees them after `json.loads`, together with the
  few Python operations the dispatcher and the chat endpoint apply to them:
  truthiness (`if x:`), `str(x)` / `repr(x)`, `key in x`, `x[key]`,
  `x.get(key, default)` and iteration.  Python's exception messages are kept
  exactly, because they end up in the replies shown to the user.

  Numbers are integers only; floats are not modelled.
 */
module PyValue {
  import opened Base

  datatype Json =
    | JNull
    | JBool(b: bool)
    | JInt(i: int)
    | JStr(s: string)
    | JList(items: seq<Json>)
    | JDict(entries: seq<(string, Json)>)

  /** `type(x).__name__` */
  function TypeName(j: Json): string
  {
    match j
    case JNull => "NoneType"
    case JBool(_) => "bool"
    case JInt(_) => "int"
    case JStr(_) => "str"
    case JList(_) => "list"
    case JDict(_) => "dict"
  }

  /** Python truthiness: `None`, `False`, `0`, `""`, `[]` and `{}` are false. */
  predicate Truthy(j: Json)
  {
    match j
    case JNull => false
    case JBool(b) => b
    case JInt(i) => i != 0
    case JStr(s) => s != ""
    case JList(xs) => xs != []
    case JDict(es) => es != []
  }

  /**
    No dictionary, at any depth, binds a key twice.  `json.loads` keeps the
    last binding of a repeated key, so every value it returns has this shape.
   */
  predicate NoDupKeys(j: Json)
  {
    match j
    case JList(xs) => forall i | 0 <= i < |xs| :: NoDupKeys(xs[i])
    case JDict(es) =>
      && (forall a, b | 0 <= a < b < |es| :: es[a].0 != es[b].0)
      && (forall i | 0 <= i < |es| :: NoDupKeys(es[i].1))
    case _ => true
  }

  /** Looks a key up in a dictionary's entries (first binding wins). */
  function Lookup(entries: seq<(string, Json)>, key: string): (r: Option<Json>)
    ensures r.Some? <==> exists i :: 0 <= i < |entries| && entries[i].0 == key
    ensures r.Some? ==> exists i :: 0 <= i < |entries| && entries[i] == (key, r.value)
  {
    if |entries| == 0 then None
    else if entries[0].0 == key then Some(entries[0].1)
    else
      var r := Lookup(entries[1..], key);
      if r.Some? then
        var i :| 0 <= i < |entries[1..]| && entries[1..][i] == (key, r.value);
        assert entries[i + 1] == (key, r.value);
        r
      else r
  }

  predicate HasKey(entries: seq<(string, Json)>, key: string)
  {
    Lookup(entries, key).Some?
  }

  /** `d.get(key, default)` on a dictionary's entries. */
  function GetOr(entries: seq<(string, Json)>, key: string, default: Json): Json
  {
    match Lookup(entries, key)
    case Some(v) => v
    case None => default
  }

  /** `d.get(key)` on a dictionary's entries: `None` when absent. */
  function Get(entries: seq<(string, Json)>, key: string): Json
  {
    GetOr(entries, key, JNull)
  }

  /** The AttributeError message for calling a missing method on `j`. */
  function NoAttribute(j: Json, name: string): string
  {
    "'" + TypeName(j) + "' object has no attribute '" + name + "'"
  }

  /** `x.get(key, default)` on any value: only dictionaries have `get`. */
  function PyGet(j: Json, key: string, default: Json): (r: Result<Json, string>)
    ensures r.Ok? <==> j.JDict?
    ensures j.JDict? && !HasKey(j.entries, key) ==> r == Ok(default)
  {
    match j
    case JDict(es) => Ok(GetOr(es, key, default))
    case _ => Err(NoAttribute(j, "get"))
  }

  /** `key in x` for a string key. */
  function PyIn(key: string, j: Json): (r: Result<bool, string>)
    ensures r.Err? <==> j.JNull? || j.JBool? || j.JInt?
    ensures j.JDict? ==> r == Ok(HasKey(j.entries, key))
    ensures j.JStr? ==> r == Ok(Contains(j.s, key))
    ensures j.JList? ==> r == Ok(JStr(key) in j.items)
  {
    match j
    case JDict(es) => Ok(HasKey(es, key))
    case JList(xs) => Ok(JStr(key) in xs)
    case JStr(s) => Ok(Contains(s, key))
    case _ => Err("argument of type '" + TypeName(j) + "' is not iterable")
  }

  /** `x[key]` for a string key. */
  function PyGetItem(j: Json, key: string): (r: Result<Json, string>)
    ensures r.Ok? <==> j.JDict? && HasKey(j.entries, key)
    ensures r.Ok? ==> Lookup(j.entries, key) == Some(r.value)
  {
    match j
    case JDict(es) =>
      (match Lookup(es, key)
       case Some(v) => Ok(v)
       case None => Err(ReprStr(key)))
    case JList(_) => Err("list indices must be integers or slices, not str")
    case JStr(_) => Err("string indices must be integers, not 'str'")
    case _ => Err("'" + TypeName(j) + "' object is not subscriptable")
  }

  /** `for x in j`: list items, dictionary keys, or the characters of a string. */
  function PyIter(j: Json): (r: Result<seq<Json>, string>)
    ensures r.Err? <==> j.JNull? || j.JBool? || j.JInt?
    ensures j.JList? ==> r == Ok(j.items)
  {
    match j
    case JList(xs) => Ok(xs)
    case JDict(es) => Ok(seq(|es|, i requires 0 <= i < |es| => JStr(es[i].0)))
    case JStr(s) => Ok(seq(|s|, i requires 0 <= i < |s| => JStr([s[i]])))
    case _ => Err("'" + TypeName(j) + "' object is not iterable")
  }

  // ---------------------------------------------------------------------------
  // str() and repr()
  // ---------------------------------------------------------------------------

  const HexDigits := "0123456789abcdef"

  /** One character of a string literal as `repr` writes it, inside quotes `q`. */
  function EscapeChar(c: char, q: char): string
  {
    if c == q || c == '\\' then ['\\', c]
    else if c == '\t' then "\\t"
    else if c == '\n' then "\\n"
    else if c == '\r' then "\\r"
    else if c < ' ' || c as int == 0x7F then
      "\\x" + [HexDigits[c as int / 16], HexDigits[c as int % 16]]
    else [c]
  }

  function EscapeAll(s: string, q: char): string
  {
    if |s| == 0 then "" else EscapeChar(s[0], q) + EscapeAll(s[1..], q)
  }

  /** `repr(s)`: single quotes, unless the text has a single quote and no double quote. */
  function ReprStr(s: string): (r: string)
    ensures |r| >= 2
  {
    var q := if '\'' in s && '"' !in s then '"' else '\'';
    [q] + EscapeAll(s, q) + [q]
  }

  /** `repr(x)` of a JSON value. */
  function Repr(j: Json): string
  {
    match j
    case JNull => "None"
    case JBool(b) => if b then "True" else "False"
    case JInt(i) => IntToString(i)
    case JStr(s) => ReprStr(s)
    case JList(xs) => "[" + ReprItems(xs) + "]"
    case JDict(es) => "{" + ReprEntries(es) + "}"
  }

  function ReprItems(xs: seq<Json>): string
  {
    if |xs| == 0 then ""
    else if |xs| == 1 then Repr(xs[0])
    else Repr(xs[0]) + ", " + ReprItems(xs[1..])
  }

  function ReprEntries(es: seq<(string, Json)>): string
  {
    if |es| == 0 then ""
    else
      var k := es[0].0;
      var v := es[0].1;
      assert es[0] in es;
      assert v < es[0];
      var head := ReprStr(k) + ": " + Repr(v);
      if |es| == 1 then head else head + ", " + ReprEntries(es[1..])
  }

  /** `str(x)`: a string is itself, everything else is its `repr`. */
  function PyStr(j: Json): (r: string)
    ensures j.JStr? ==> r == j.s
  {
    match j
    case JStr(s) => s
    case _ => Repr(j)
  }

  /** `str(x)` of a list of integers, as in `f"{[3, 7]}"`. */
  function ReprInts(xs: seq<int>): string
  {
    Repr(JList(seq(|xs|, i requires 0 <= i < |xs| => JInt(xs[i]))))
  }
}

=== FILE: scaffold.dfy ===
/**
  `crear_proyecto`: a project folder laid out after one of three templates
  ("react", "python", and the basic one used for any other name).
 */
module Scaffold {
  import opened Base
  import opened Fs
  import opened Files

  /** One creation step inside the project folder. */
  datatype Step = MakeDir(name: string) | WriteText(name: string, text: string)

  function StepNode(s: Step): Node
  {
    match s
    case MakeDir(_) => Dir
    case WriteText(_, t) => File(t)
  }

  function Readme(nombre: string): string
  {
    "# " + nombre + "\n\nProyecto creado por Jarvis."
  }

  function PackageJson(nombre: string): string
  {
    "{\"name\": \"" + nombre + "\", \"version\": \"1.0.0\"}"
  }

  const GitIgnore := "__pycache__/\n*.pyc\n.env\n"

  /** The steps each template performs inside the project folder, in order. */
  function Steps(template: string, nombre: string): seq<Step>
  {
    if template == "react" then
      [MakeDir("src"), MakeDir("public"),
       WriteText("package.json", PackageJson(nombre)),
       WriteText("README.md", Readme(nombre))]
    else if template == "python" then
      [MakeDir("src"),
       WriteText("requirements.txt", ""),
       WriteText("README.md", Readme(nombre)),
       WriteText(".gitignore", GitIgnore)]
    else
      [WriteText("README.md", Readme(nombre))]
  }

  /** Every template names each entry once. */
  predicate DistinctNames(steps: seq<Step>)
  {
    forall i, j | 0 <= i < j < |steps| :: steps[i].name != steps[j].name
  }

  lemma TemplatesDistinct(template: string, nombre: string)
    ensures DistinctNames(Steps(template, nombre))
  {
  }

  /** One step: `os.makedirs(join(root, name), exist_ok=True)` or `crear_txt(join(root, name), text)`. */
  function RunStep(fs: FS, root: Path, s: Step): Result<FS, FsError>
  {
    match s
    case MakeDir(n) => Mkdirs(fs, root + [n])
    case WriteText(n, t) =>
      match CrearTxt(fs, root + [n], t)
      case Ok((fs1, _)) => Ok(fs1)
      case Err(e) => Err(e)
  }

  /** The steps in order; the first that raises stops the rest and keeps what the earlier ones did. */
  function RunSteps(fs: FS, root: Path, steps: seq<Step>): Effect<()>
    decreases |steps|
  {
    if |steps| == 0 then Effect(fs, Ok(()))
    else
      match RunStep(fs, root, steps[0])
      case Err(e) => Effect(fs, Err(e))
      case Ok(fs1) => RunSteps(fs1, root, steps[1..])
  }

  /** The folder a project goes to: `ruta`, or the desktop folder named after the project. */
  function ProjectRoot(env: Env, nombre: string, ruta: Option<Path>): Path
  {
    match ruta
    case Some(r) => r
    case None => Desktop(env) + [nombre]
  }

  /**
    `crear_proyecto(nombre, template, ruta)`: the project folder is created
    (with its parents), then the template's steps run inside it.  `None`
    stands for a missing or empty `ruta`.  A step that raises leaves the
    folder and the earlier steps' entries in place.
   */
  function CrearProyecto(fs: FS, env: Env, nombre: string, template: string, ruta: Option<Path>): (r: Effect<Path>)
    ensures r.result.Ok? ==> r.result.value == ProjectRoot(env, nombre, ruta)
    ensures Valid(fs) && !NoFileOnPath(fs, ProjectRoot(env, nombre, ruta)) ==> r.fs == fs && r.result.Err?
    ensures Valid(fs) && NoFileOnPath(fs, ProjectRoot(env, nombre, ruta)) ==>
      Valid(r.fs) && IsDir(r.fs, ProjectRoot(env, nombre, ruta))
    ensures Valid(fs) ==> var root := ProjectRoot(env, nombre, ruta);
      && (forall q | q in fs && !(root < q) :: q in r.fs && r.fs[q] == fs[q])
      && (forall q | q in r.fs && q !in fs :: q <= root || root < q)
    ensures Valid(fs) && NoFileOnPath(fs, ProjectRoot(env, nombre, ruta)) && EmptyBelow(fs, ProjectRoot(env, nombre, ruta)) ==>
      var root := ProjectRoot(env, nombre, ruta);
      var steps := Steps(template, nombre);
      && r.result == Ok(root)
      && (forall i | 0 <= i < |steps| :: root + [steps[i].name] in r.fs && r.fs[root + [steps[i].name]] == StepNode(steps[i]))
      && (forall q | q in r.fs && root < q :: exists i | 0 <= i < |steps| :: q == root + [steps[i].name])
  {
    var root := ProjectRoot(env, nombre, ruta);
    match Mkdirs(fs, root)
    case Err(e) => Effect(fs, Err(e))
    case Ok(fs1) =>
      var done := RunSteps(fs1, root, Steps(template, nombre));
      CreatedRootFrame(fs, root);
      assert Valid(fs) ==> RunStepsFrame(fs1, root, Steps(template, nombre)) by {
        if Valid(fs) { RunStepsKeep(fs1, root, Steps(template, nombre)); }
      }
      assert Valid(fs) && NoFileOnPath(fs, root) && EmptyBelow(fs, root) ==> FreshLayout(fs1, root, Steps(template, nombre)) by {
        if Valid(fs) && NoFileOnPath(fs, root) && EmptyBelow(fs, root) { FreshProject(fs, root, template, nombre); }
      }
      Effect(done.fs, if done.result.Ok? then Ok(root) else Err(done.result.error))
  }

  /** What running `steps` in the folder `root` of `fs` keeps: everything outside the folder. */
  predicate RunStepsFrame(fs: FS, root: Path, steps: seq<Step>)
  {
    var r := RunSteps(fs, root, steps);
    && Valid(r.fs) && IsDir(r.fs, root)
    && (forall q | q in fs && !(root < q) :: q in r.fs && r.fs[q] == fs[q])
    && (forall q | q in r.fs && q !in fs :: root < q)
  }

  /** What running `steps` in the empty folder `root` of `fs` creates: one entry per step. */
  predicate FreshLayout(fs: FS, root: Path, steps: seq<Step>)
  {
    var r := RunSteps(fs, root, steps);
    && r.result.Ok?
    && (forall i | 0 <= i < |steps| :: root + [steps[i].name] in r.fs && r.fs[root + [steps[i].name]] == StepNode(steps[i]))
    && (forall q | q in r.fs && root < q :: exists i | 0 <= i < |steps| :: q == root + [steps[i].name])
  }

  /** Creating the project folder adds only it and its missing parents. */
  lemma CreatedRootFrame(fs: FS, root: Path)
    requires Mkdirs(fs, root).Ok?
    ensures var fs1 := Mkdirs(fs, root).value;
      && IsDir(fs1, root)
      && (forall q | q in fs :: q in fs1 && fs1[q] == fs[q])
      && (forall q | q in fs1 && q !in fs :: q <= root)
  {
  }

  /** A step changes only the entry it names, inside the folder. */
  lemma RunStepKeeps(fs: FS, root: Path, s: Step)
    requires Valid(fs) && IsDir(fs, root)
    requires RunStep(fs, root, s).Ok?
    ensures var fs1 := RunStep(fs, root, s).value;
      && Valid(fs1) && IsDir(fs1, root)
      && (forall q | q in fs && q != root + [s.name] :: q in fs1 && fs1[q] == fs[q])
      && (forall q | q in fs1 && q !in fs :: q == root + [s.name])
  {
    var p := root + [s.name];
    assert Parent(p) == root;
    var fs1 := RunStep(fs, root, s).value;
    forall q | q in fs1 && q !in fs ensures q == p {
      assert q <= p;
      if q != p {
        assert q <= root;
        PrefixPresent(fs, q, root);
      }
    }
  }

  /** Running steps inside a folder keeps everything outside it, and the folder itself. */
  lemma {:induction false} RunStepsKeep(fs: FS, root: Path, steps: seq<Step>)
    requires Valid(fs) && IsDir(fs, root)
    ensures RunStepsFrame(fs, root, steps)
    decreases |steps|
  {
    if |steps| > 0 && RunStep(fs, root, steps[0]).Ok? {
      var fs1 := RunStep(fs, root, steps[0]).value;
      RunStepKeeps(fs, root, steps[0]);
      RunStepsKeep(fs1, root, steps[1..]);
      assert root < root + [steps[0].name];
    }
  }

  /** A project folder created where nothing was runs every step of its template. */
  lemma FreshProject(fs: FS, root: Path, template: string, nombre: string)
    requires Valid(fs) && NoFileOnPath(fs, root) && EmptyBelow(fs, root)
    ensures FreshLayout(Mkdirs(fs, root).value, root, Steps(template, nombre))
  {
    var steps := Steps(template, nombre);
    TemplatesDistinct(template, nombre);
    FreshRoot(fs, root);
    var fs1 := Mkdirs(fs, root).value;
    forall i | 0 <= i < |steps| ensures root + [steps[i].name] !in fs1 {
      assert root < root + [steps[i].name];
    }
    RunStepsLayout(fs1, root, steps);
  }

  // ---------------------------------------------------------------------------
  // The layout a template produces
  // ---------------------------------------------------------------------------

  /** Nothing lives below `root` yet. */
  predicate EmptyBelow(fs: FS, root: Path)
  {
    forall q | q in fs :: !(root < q)
  }

  /** A single step into a fresh name adds exactly that entry. */
  lemma RunStepEffect(fs: FS, root: Path, s: Step)
    requires Valid(fs) && IsDir(fs, root) && root + [s.name] !in fs
    ensures RunStep(fs, root, s).Ok?
    ensures var fs1 := RunStep(fs, root, s).value;
      && Valid(fs1)
      && (forall q | q in fs :: q in fs1 && fs1[q] == fs[q])
      && (forall q | q in fs1 :: q in fs || q == root + [s.name])
      && root + [s.name] in fs1 && fs1[root + [s.name]] == StepNode(s)
  {
    var p := root + [s.name];
    assert Parent(p) == root;
    DirHasNoFileOnPath(fs, root);
    match s
    case MakeDir(n) =>
      assert NoFileOnPath(fs, p) by {
        forall k | 0 <= k <= |p| ensures !IsFile(fs, p[..k]) {
          if k <= |root| { assert p[..k] == root[..k]; } else { assert p[..k] == p; }
        }
      }
      var fs1 := Mkdirs(fs, p).value;
      forall q | q in fs1 ensures q in fs || q == p {
        if q !in fs && q != p {
          assert q <= p;
          assert q <= root;
          PrefixPresent(fs, q, root);
        }
      }
    case WriteText(n, t) =>
      assert CrearTxt(fs, p, t).Ok?;
  }

  /**
    Running steps with distinct names inside an empty folder creates exactly
    one entry per step, holding what that step writes.
   */
  lemma {:induction false} RunStepsLayout(fs: FS, root: Path, steps: seq<Step>)
    requires Valid(fs) && IsDir(fs, root) && DistinctNames(steps)
    requires forall i | 0 <= i < |steps| :: root + [steps[i].name] !in fs
    ensures RunSteps(fs, root, steps).result.Ok?
    ensures var fs2 := RunSteps(fs, root, steps).fs;
      && Valid(fs2)
      && (forall q | q in fs :: q in fs2 && fs2[q] == fs[q])
      && (forall i | 0 <= i < |steps| :: root + [steps[i].name] in fs2 && fs2[root + [steps[i].name]] == StepNode(steps[i]))
      && (forall q | q in fs2 && q !in fs :: exists i | 0 <= i < |steps| :: q == root + [steps[i].name])
    decreases |steps|
  {
    if |steps| > 0 {
      RunStepEffect(fs, root, steps[0]);
      var fs1 := RunStep(fs, root, steps[0]).value;
      var rest := steps[1..];
      forall i | 0 <= i < |rest| ensures root + [rest[i].name] !in fs1 {
        assert rest[i] == steps[i + 1];
        assert root + [rest[i].name] != root + [steps[0].name] by {
          assert (root + [rest[i].name])[|root|] == rest[i].name;
        }
      }
      assert DistinctNames(rest) by {
        forall i, j | 0 <= i < j < |rest| ensures rest[i].name != rest[j].name {
          assert rest[i] == steps[i + 1] && rest[j] == steps[j + 1];
        }
      }
      RunStepsLayout(fs1, root, rest);
      var fs2 := RunSteps(fs1, root, rest).fs;
      forall i | 0 <= i < |steps|
        ensures root + [steps[i].name] in fs2 && fs2[root + [steps[i].name]] == StepNode(steps[i])
      {
        if i > 0 { assert steps[i] == rest[i - 1]; }
      }
      forall q | q in fs2 && q !in fs ensures exists i | 0 <= i < |steps| :: q == root + [steps[i].name] {
        if q in fs1 {
          assert q == root + [steps[0].name];
        } else {
          var k :| 0 <= k < |rest| && q == root + [rest[k].name];
          assert rest[k] == steps[k + 1];
        }
      }
    }
  }

  /** Creating the project folder keeps it empty and touches nothing else. */
  lemma FreshRoot(fs: FS, root: Path)
    requires Valid(fs) && NoFileOnPath(fs, root) && EmptyBelow(fs, root)
    ensures Mkdirs(fs, root).Ok?
    ensures var fs1 := Mkdirs(fs, root).value;
      && Valid(fs1) && IsDir(fs1, root) && EmptyBelow(fs1, root)
      && (forall q | q in fs :: q in fs1 && fs1[q] == fs[q])
      && (forall q | q in fs1 && q !in fs :: q <= root)
  {
  }

  lemma BasicTemplateIsReadme(nombre: string)
    ensures Steps("basico", nombre) == [WriteText("README.md", "# " + nombre + "\n\nProyecto creado por Jarvis.")]
    ensures Steps("vue", nombre) == Steps("basico", nombre)
  {
  }
}

=== FILE: search.dfy ===
/**
  `buscar_texto_en_archivos`: a local, case-insensitive grep.  Every file
  below a folder whose extension is accepted and whose text contains the
  searched text is reported, together with the first ten line numbers
  (1-based) on which the text occurs.
 */
module Search {
  import opened Base
  import opened Fs
  import opened PyValue

  /** The extensions searched when none are given. */
  const DefaultExtensions: seq<string> := [".txt", ".py", ".js", ".html", ".md", ".json"]

  function DefaultExtensionsJson(): (j: Json)
    ensures j.JList? && forall e :: JStr(e) in j.items <==> e in DefaultExtensions
  {
    var xs := seq(|DefaultExtensions|, i requires 0 <= i < |DefaultExtensions| => JStr(DefaultExtensions[i]));
    forall e ensures JStr(e) in xs <==> e in DefaultExtensions {
      if e in DefaultExtensions {
        var i :| 0 <= i < |DefaultExtensions| && DefaultExtensions[i] == e;
        assert xs[i] == JStr(e);
      }
    }
    JList(xs)
  }

  /**
    `PurePath.suffix`: from the last dot of the name, unless that dot is the
    first or the last character.
   */
  function Suffix(name: string): (r: string)
    ensures r == "" || (|r| >= 2 && r[0] == '.' && '.' !in r[1..] && EndsWith(name, r) && |r| < |name|)
    ensures forall i | 0 < i < |name| - 1 && LastAt(name, '.', i) :: r == name[i..]
  {
    RFindLast(name, '.');
    var i := RFind(name, '.');
    if 0 < i < |name| - 1 then name[i..] else ""
  }

  /** One reported file: `{"archivo": ..., "lineas": [...]}`. */
  datatype Hit = Hit(archivo: Path, lineas: seq<nat>)

  /** Why a search fails: the folder is missing, or `ext in extensiones` raises a TypeError. */
  datatype SearchError = Missing(path: Path) | BadExtensions(message: string)

  /**
    The 1-based numbers of the lines after the first `i` that satisfy `has`,
    in increasing order.
   */
  function MatchingLines(lines: seq<string>, has: string -> bool, i: nat): (r: seq<nat>)
    requires i <= |lines|
    ensures forall j | 0 <= j < |r| :: i < r[j] <= |lines| && has(lines[r[j] - 1])
    ensures forall j, k | 0 <= j < k < |r| :: r[j] < r[k]
    ensures forall n | i < n <= |lines| && has(lines[n - 1]) :: n in r
    decreases |lines| - i
  {
    if i == |lines| then []
    else
      var rest := MatchingLines(lines, has, i + 1);
      if has(lines[i]) then [i + 1] + rest else rest
  }

  /** `t in line.lower()` */
  predicate LineHas(line: string, t: string)
  {
    Contains(Lower(line), t)
  }

  /** The line numbers reported for a file: at most ten of them. */
  function LineNumbers(content: string, texto: string): seq<nat>
  {
    Take(MatchingLines(Split(content, '\n'), line => LineHas(line, Lower(texto)), 0), 10)
  }

  /**
    What a file's "lineas" say: at most ten line numbers, increasing, each of
    a line containing the text; and when fewer than ten are listed, every such
    line is listed.
   */
  lemma LineNumbersMeaning(content: string, texto: string)
    ensures var lines := Split(content, '\n');
      var ns := LineNumbers(content, texto);
      && |ns| <= 10
      && (forall j | 0 <= j < |ns| :: 1 <= ns[j] <= |lines| && LineHas(lines[ns[j] - 1], Lower(texto)))
      && (forall j, k | 0 <= j < k < |ns| :: ns[j] < ns[k])
      && (|ns| < 10 ==> forall n | 1 <= n <= |lines| && LineHas(lines[n - 1], Lower(texto)) :: n in ns)
  {
    var has := line => LineHas(line, Lower(texto));
    FirstTenMatching(Split(content, '\n'), has);
  }

  /** Cutting the matching line numbers to ten keeps their meaning. */
  lemma FirstTenMatching(lines: seq<string>, has: string -> bool)
    ensures var ns := Take(MatchingLines(lines, has, 0), 10);
      && |ns| <= 10
      && (forall j | 0 <= j < |ns| :: 1 <= ns[j] <= |lines| && has(lines[ns[j] - 1]))
      && (forall j, k | 0 <= j < k < |ns| :: ns[j] < ns[k])
      && (|ns| < 10 ==> forall n | 1 <= n <= |lines| && has(lines[n - 1]) :: n in ns)
  {
    var all := MatchingLines(lines, has, 0);
    var ns := Take(all, 10);
    assert forall j | 0 <= j < |ns| :: ns[j] == all[j];
    if |ns| < 10 {
      assert ns == all;
    }
  }

  /** Is the (lowered) extension of `q` among the accepted ones? */
  function Accepts(exts: Json, q: Path): Result<bool, string>
  {
    PyIn(Lower(Suffix(Basename(q))), exts)
  }

  /** The file `q` is reported: its extension is accepted and it contains the text. */
  predicate Reported(fs: FS, texto: string, exts: Json, q: Path)
  {
    IsFile(fs, q) && Accepts(exts, q) == Ok(true) && Contains(Lower(fs[q].content), Lower(texto))
  }

  /** The files of `walk` that are reported, in walk order. */
  function SearchFiles(fs: FS, texto: string, exts: Json, walk: seq<Path>): (r: Result<seq<Hit>, SearchError>)
    ensures r.Err? <==> exists i | 0 <= i < |walk| :: IsFile(fs, walk[i]) && Accepts(exts, walk[i]).Err?
    ensures r.Ok? ==> forall h | h in r.value ::
      h.archivo in walk && Reported(fs, texto, exts, h.archivo) && h.lineas == LineNumbers(fs[h.archivo].content, texto)
    ensures r.Ok? ==> forall i | 0 <= i < |walk| && Reported(fs, texto, exts, walk[i]) ::
      Hit(walk[i], LineNumbers(fs[walk[i]].content, texto)) in r.value
  {
    if |walk| == 0 then Ok([])
    else
      var q := walk[0];
      var rest := SearchFiles(fs, texto, exts, walk[1..]);
      assert forall i | 1 <= i < |walk| :: walk[i] == walk[1..][i - 1];
      if !IsFile(fs, q) then rest
      else
        match Accepts(exts, q)
        case Err(m) => Err(BadExtensions(m))
        case Ok(ok) =>
          if ok && Contains(Lower(fs[q].content), Lower(texto)) then
            match rest
            case Ok(hits) => Ok([Hit(q, LineNumbers(fs[q].content, texto))] + hits)
            case Err(e) => Err(e)
          else rest
  }

  /**
    `buscar_texto_en_archivos(ruta, texto, extensiones)`: `walk` is the
    `rglob("*")` order below `ruta`; a falsy `extensiones` means the default
    list.
   */
  function BuscarTexto(fs: FS, ruta: Path, texto: string, extensiones: Json, walk: seq<Path>): (r: Result<seq<Hit>, SearchError>)
    ensures ruta !in fs ==> r == Err(Missing(ruta))
    ensures ruta in fs ==> r == SearchFiles(fs, texto, EffectiveExtensions(extensiones), walk)
  {
    if ruta !in fs then Err(Missing(ruta))
    else SearchFiles(fs, texto, EffectiveExtensions(extensiones), walk)
  }

  /** `extensiones or [".txt", ".py", ".js", ".html", ".md", ".json"]` */
  function EffectiveExtensions(extensiones: Json): (j: Json)
    ensures Truthy(j)
  {
    if Truthy(extensiones) then extensiones else DefaultExtensionsJson()
  }

  /**
    With a faithful walk and a list of extensions, the search reports exactly
    the files below `ruta` that are accepted and contain the text.
   */
  lemma BuscarTextoExact(fs: FS, ruta: Path, texto: string, extensiones: Json, walk: seq<Path>, q: Path)
    requires ruta in fs && IsWalk(fs, ruta, walk)
    requires !Truthy(extensiones) || extensiones.JList?
    ensures var exts := EffectiveExtensions(extensiones);
      var r := BuscarTexto(fs, ruta, texto, extensiones, walk);
      && r.Ok?
      && (Hit(q, if IsFile(fs, q) then LineNumbers(fs[q].content, texto) else []) in r.value <==>
            q in fs && ruta < q && Reported(fs, texto, exts, q))
  {
    var exts := EffectiveExtensions(extensiones);
    assert exts.JList?;
    var r := BuscarTexto(fs, ruta, texto, extensiones, walk);
    if q in fs && ruta < q && Reported(fs, texto, exts, q) {
      var i :| 0 <= i < |walk| && walk[i] == q;
    }
  }

  /** With no extensions given, exactly the six default extensions are searched, in any letter case. */
  lemma DefaultExtensionFilter(q: Path)
    ensures Accepts(EffectiveExtensions(JNull), q) == Ok(Lower(Suffix(Basename(q))) in DefaultExtensions)
  {
  }

  lemma DefaultExtensionExamples()
    ensures Accepts(EffectiveExtensions(JNull), ["notas.TXT"]) == Ok(true)
    ensures Accepts(EffectiveExtensions(JNull), ["Makefile"]) == Ok(false)
  {
    var n := "notas.TXT";
    assert RFind(n, '.') == 5 by {
      assert n[8] == 'T' && n[7] == 'X' && n[6] == 'T' && n[5] == '.';
    }
    assert Lower(n[5..]) == ".txt";
    assert '.' !in "Makefile";
    assert "" !in DefaultExtensions;
  }

  /**
    A single string given as `extensiones` is tested with substring `in`, so
    a file with no extension at all passes the filter ".py".
   */
  lemma StringExtensionsQuirk()
    ensures Accepts(JStr(".py"), ["Makefile"]) == Ok(true)
  {
    assert '.' !in "Makefile";
    assert OccursAt(".py", "", 0);
  }

  // ---------------------------------------------------------------------------
  // A reported file has a reported line
  // ---------------------------------------------------------------------------

  lemma LowerKeepsNoNewline(t: string)
    requires '\n' !in t
    ensures '\n' !in Lower(t)
  {
    forall j | 0 <= j < |t| ensures Lower(t)[j] != '\n' { }
  }

  /**
    A text without line breaks that occurs in (the lowered form of) lines
    joined by "\n" occurs within one of the lines.
   */
  lemma {:induction false} OccursInSomeLine(xs: seq<string>, t: string, i: int)
    requires |xs| >= 1 && '\n' !in t
    requires OccursAt(Lower(Join("\n", xs)), t, i)
    ensures exists k | 0 <= k < |xs| :: Contains(Lower(xs[k]), t)
    decreases |xs|
  {
    if |xs| == 1 {
      ContainsWitness(Lower(xs[0]), t, i);
    } else {
      var j := Join("\n", xs[1..]);
      var l0 := |xs[0]|;
      LowerAppend(xs[0] + "\n", j);
      LowerAppend(xs[0], "\n");
      var low := Lower(Join("\n", xs));
      assert low == Lower(xs[0]) + "\n" + Lower(j);
      assert low[l0] == '\n';
      assert i + |t| <= l0 || i > l0;
      if i + |t| <= l0 {
        assert Lower(xs[0])[i..i + |t|] == low[i..i + |t|];
        ContainsWitness(Lower(xs[0]), t, i);
      } else {
        assert Lower(j)[i - l0 - 1..i - l0 - 1 + |t|] == low[i..i + |t|];
        OccursInSomeLine(xs[1..], t, i - l0 - 1);
        var k :| 0 <= k < |xs[1..]| && Contains(Lower(xs[1..][k]), t);
        assert xs[k + 1] == xs[1..][k];
      }
    }
  }

  /**
    When the searched text has no line break, every reported file lists at
    least one line, and the first line listed contains the text.
   */
  lemma ReportedFileHasLine(content: string, texto: string)
    requires '\n' !in texto
    requires Contains(Lower(content), Lower(texto))
    ensures |LineNumbers(content, texto)| >= 1
    ensures LineHas(Split(content, '\n')[LineNumbers(content, texto)[0] - 1], Lower(texto))
  {
    LowerKeepsNoNewline(texto);
    var t := Lower(texto);
    var lines := Split(content, '\n');
    assert Join("\n", lines) == content;
    var i :| 0 <= i <= |Lower(content)| - |t| && OccursAt(Lower(content), t, i);
    OccursInSomeLine(lines, t, i);
    var k :| 0 <= k < |lines| && Contains(Lower(lines[k]), t);
    SomeMatchListed(lines, line => LineHas(line, t), k);
  }

  /** When some line matches, the first ten matching line numbers are not empty. */
  lemma SomeMatchListed(lines: seq<string>, has: string -> bool, k: nat)
    requires k < |lines| && has(lines[k])
    ensures var ns := Take(MatchingLines(lines, has, 0), 10);
      |ns| >= 1 && has(lines[ns[0] - 1])
  {
    var all := MatchingLines(lines, has, 0);
    assert k + 1 in all;
    assert Take(all, 10)[0] == all[0];
  }
}

=== FILE: trash.dfy ===
/**
  The assistant's own trash folder (`~/.jarvis/trash`): listing it and
  restoring the most recent entry stored under a given name.  Entries get there
  through `Files.Eliminar`, which prefixes their name with a timestamp and "_".
 */
module TrashBin {
  import opened Base
  import opened Fs
  import opened Files

  // ---------------------------------------------------------------------------
  // restaurar_desde_papelera
  // ---------------------------------------------------------------------------

  /** The trash names that end with "_" followed by `nombre`. */
  function Candidates(order: seq<string>, nombre: string): (r: seq<string>)
    ensures forall n :: n in r <==> n in order && EndsWith(n, "_" + nombre)
  {
    if |order| == 0 then []
    else
      var rest := Candidates(order[1..], nombre);
      assert forall n :: n in order <==> n == order[0] || n in order[1..];
      if EndsWith(order[0], "_" + nombre) then [order[0]] + rest else rest
  }

  /**
    The entry `restaurar_desde_papelera` takes: the greatest matching name,
    which with "%Y%m%d_%H%M%S" prefixes is the most recent one.
   */
  function Newest(order: seq<string>, nombre: string): (r: Option<string>)
    ensures r.None? <==> forall n | n in order :: !EndsWith(n, "_" + nombre)
    ensures r.Some? ==> r.value in order && EndsWith(r.value, "_" + nombre)
    ensures r.Some? ==> forall n | n in order && EndsWith(n, "_" + nombre) :: n == r.value || LexLt(n, r.value)
  {
    var c := Candidates(order, nombre);
    if c == [] then None else Some(MaxString(c))
  }

  /** The place an entry is restored to: `destino`, or the desktop under its plain name. */
  function RestoreTarget(env: Env, nombre: string, destino: Option<Path>): Path
  {
    match destino
    case Some(d) => d
    case None => Desktop(env) + [nombre]
  }

  /**
    `restaurar_desde_papelera(nombre_archivo, destino)`: the newest trash
    entry whose name ends with "_" + `nombre` is moved to the target, which is
    returned.  `order` is what `os.listdir` yields for the trash folder;
    `None` stands for a missing or empty `destino`.
   */
  function Restaurar(fs: FS, env: Env, order: seq<string>, nombre: string, destino: Option<Path>): (r: Result<(FS, Path), FsError>)
    ensures Trash(env) !in fs ==> r == Err(NotFound(Trash(env)))
    ensures IsFile(fs, Trash(env)) ==> r == Err(NotADirectory(Trash(env)))
    ensures IsDir(fs, Trash(env)) && Newest(order, nombre).None? ==> r == Err(NoMatch(nombre))
    ensures IsDir(fs, Trash(env)) && Newest(order, nombre).Some? ==>
      var m := Move(fs, Trash(env) + [Newest(order, nombre).value], RestoreTarget(env, nombre, destino));
      && (r.Ok? <==> m.Ok?)
      && (m.Err? ==> r == Err(m.error))
    ensures r.Ok? ==> r.value.1 == RestoreTarget(env, nombre, destino)
    ensures r.Ok? ==> Newest(order, nombre).Some?
    ensures r.Ok? ==>
      Move(fs, Trash(env) + [Newest(order, nombre).value], RestoreTarget(env, nombre, destino)) == Ok(r.value.0)
  {
    var t := Trash(env);
    if t !in fs then Err(NotFound(t))
    else if fs[t].File? then Err(NotADirectory(t))
    else
      match Newest(order, nombre)
      case None => Err(NoMatch(nombre))
      case Some(archivo) =>
        var target := RestoreTarget(env, nombre, destino);
        match Move(fs, t + [archivo], target)
        case Ok(fs1) => Ok((fs1, target))
        case Err(e) => Err(e)
  }

  /**
    Any name that merely ends with "_" + `nombre` counts: asking for "b.txt"
    also matches an entry that was trashed as "x_b.txt".
   */
  lemma SuffixMatchIsLoose()
    ensures Newest(["20250101_120000_x_b.txt"], "b.txt") == Some("20250101_120000_x_b.txt")
  {
    var n := "20250101_120000_x_b.txt";
    assert n[|n| - 6..] == "_b.txt";
    assert n in Candidates([n], "b.txt");
  }

  // ---------------------------------------------------------------------------
  // eliminar followed by restaurar_desde_papelera
  // ---------------------------------------------------------------------------

  /** The desktop and the trash are disjoint subtrees of the home folder. */
  lemma DesktopApartFromTrash(env: Env, a: string, q: Path)
    requires Trash(env) + [a] <= q
    ensures !(Desktop(env) <= q)
  {
    assert q[|env.home|] == ".jarvis";
  }

  /**
    The conditions of the round trip: the entry can be sent to the trash
    (`EliminarToTrash`), the desktop is a folder outside the entry, the desktop
    slot of the entry's name is free once the entry is gone, and the new trash
    name sorts after every older trash entry of the same name.
   */
  ghost predicate RoundTripReady(fs: FS, env: Env, ruta: Path, stamp: string)
  {
    var nombre := Basename(ruta);
    && Valid(fs) && ruta in fs
    && IsDir(fs, Trash(env))
    && Trash(env) + [TrashName(stamp, nombre)] !in fs
    && !(ruta <= Trash(env))
    && IsDir(fs, Desktop(env)) && !(ruta <= Desktop(env))
    && (Desktop(env) + [nombre] in fs ==> ruta == Desktop(env) + [nombre])
    && (forall n | Trash(env) + [n] in fs && EndsWith(n, "_" + nombre) :: LexLt(n, TrashName(stamp, nombre)))
  }

  /**
    `order` names what the trash holds once `ruta` has been sent there: the
    new timestamped entry and every older entry, except `ruta` itself when it
    was a trash entry.
   */
  ghost predicate ListsTrashAfter(fs: FS, env: Env, ruta: Path, stamp: string, order: seq<string>)
  {
    forall n :: n in order <==>
      (n == TrashName(stamp, Basename(ruta)) || (Trash(env) + [n] in fs && Trash(env) + [n] != ruta))
  }

  /** A trash slot is taken after the deletion exactly when it holds the new entry or an older one that stayed. */
  lemma TrashChildAfterDelete(fs: FS, env: Env, ruta: Path, stamp: string, n: string)
    requires RoundTripReady(fs, env, ruta, stamp)
    ensures Eliminar(fs, env, ruta, false, stamp).Ok?
    ensures Trash(env) + [n] in Eliminar(fs, env, ruta, false, stamp).value.0 <==>
      (n == TrashName(stamp, Basename(ruta)) || (Trash(env) + [n] in fs && Trash(env) + [n] != ruta))
  {
    EliminarToTrash(fs, env, ruta, stamp);
    var fs1 := Eliminar(fs, env, ruta, false, stamp).value.0;
    var t := Trash(env);
    var d := t + [TrashName(stamp, Basename(ruta))];
    var q := t + [n];
    if q in fs1 && d <= q {
      assert q[|t|] == d[|t|];
    }
    if n == TrashName(stamp, Basename(ruta)) {
      assert Rebase(ruta, ruta, d) == d;
    }
  }

  /** Every listing of the trash taken right after the deletion names exactly those entries. */
  lemma ListingAfterDelete(fs: FS, env: Env, ruta: Path, stamp: string, order: seq<string>)
    requires RoundTripReady(fs, env, ruta, stamp)
    requires Eliminar(fs, env, ruta, false, stamp).Ok?
    requires IsListing(Eliminar(fs, env, ruta, false, stamp).value.0, Trash(env), order)
    ensures ListsTrashAfter(fs, env, ruta, stamp, order)
  {
    var t := Trash(env);
    forall n ensures n in order <==> (n == TrashName(stamp, Basename(ruta)) || (t + [n] in fs && t + [n] != ruta)) {
      TrashChildAfterDelete(fs, env, ruta, stamp, n);
      var q := t + [n];
      assert |q| == |t| + 1 && t <= q && q[|t|] == n;
    }
  }

  /** A matching name greater than every other matching name is the one restored. */
  lemma NewestIs(order: seq<string>, nombre: string, a: string)
    requires a in order && EndsWith(a, "_" + nombre)
    requires forall n | n in order && EndsWith(n, "_" + nombre) :: n == a || LexLt(n, a)
    ensures Newest(order, nombre) == Some(a)
  {
    MaxStringUnique(Candidates(order, nombre), a);
  }

  /** The entry sent to the trash sits there under its timestamped name. */
  lemma TrashedEntryPresent(fs: FS, env: Env, ruta: Path, stamp: string)
    requires RoundTripReady(fs, env, ruta, stamp)
    ensures Trash(env) + [TrashName(stamp, Basename(ruta))] in Eliminar(fs, env, ruta, false, stamp).value.0
  {
    EliminarToTrash(fs, env, ruta, stamp);
    var d := Trash(env) + [TrashName(stamp, Basename(ruta))];
    assert Rebase(ruta, ruta, d) == d;
  }

  lemma TrashNameMatches(stamp: string, nombre: string)
    ensures EndsWith(TrashName(stamp, nombre), "_" + nombre)
  {
    var a := TrashName(stamp, nombre);
    assert a == stamp + ("_" + nombre);
    assert a[|stamp|..] == "_" + nombre;
  }

  /** After the deletion the new trash entry is the newest of its name. */
  lemma NewestAfterDelete(fs: FS, env: Env, ruta: Path, stamp: string, order: seq<string>)
    requires RoundTripReady(fs, env, ruta, stamp)
    requires ListsTrashAfter(fs, env, ruta, stamp, order)
    ensures Newest(order, Basename(ruta)) == Some(TrashName(stamp, Basename(ruta)))
  {
    TrashNameMatches(stamp, Basename(ruta));
    NewestIs(order, Basename(ruta), TrashName(stamp, Basename(ruta)));
  }

  /** Restoring the new trash entry to the desktop is a plain relocation. */
  lemma RestoreRelocates(fs: FS, env: Env, ruta: Path, stamp: string)
    requires RoundTripReady(fs, env, ruta, stamp)
    ensures var fs1 := Eliminar(fs, env, ruta, false, stamp).value.0;
      var d := Trash(env) + [TrashName(stamp, Basename(ruta))];
      var home := Desktop(env) + [Basename(ruta)];
      MoveRelocates(fs1, d, home) && MoveTarget(fs1, d, home) == home
  {
    EliminarToTrash(fs, env, ruta, stamp);
    var nombre := Basename(ruta);
    var d := Trash(env) + [TrashName(stamp, nombre)];
    var fs1 := Eliminar(fs, env, ruta, false, stamp).value.0;
    var home := Desktop(env) + [nombre];
    assert Rebase(ruta, ruta, d) == d;
    assert home !in fs1 by {
      if home in fs1 {
        if d <= home { DesktopApartFromTrash(env, TrashName(stamp, nombre), home); }
      }
    }
    assert !(d <= Desktop(env)) by {
      if d <= Desktop(env) { DesktopApartFromTrash(env, TrashName(stamp, nombre), Desktop(env)); }
    }
    assert IsDir(fs1, Desktop(env));
    assert Parent(home) == Desktop(env);
  }

  /**
    Deleting an entry to the trash and then restoring it by name (with no
    destination) brings the entry, with its whole subtree, back on the desktop
    under its own name, and leaves every other entry as it was.
   */
  lemma EliminarThenRestaurar(fs: FS, env: Env, ruta: Path, stamp: string, order: seq<string>)
    requires RoundTripReady(fs, env, ruta, stamp)
    requires ListsTrashAfter(fs, env, ruta, stamp, order)
    ensures var fs1 := Eliminar(fs, env, ruta, false, stamp).value.0;
      var home := Desktop(env) + [Basename(ruta)];
      var r := Restaurar(fs1, env, order, Basename(ruta), None);
      && r.Ok? && r.value.1 == home
      && (forall q | q in fs && ruta <= q ::
            Rebase(q, ruta, home) in r.value.0 && r.value.0[Rebase(q, ruta, home)] == fs[q])
      && (forall q | q in fs && !(ruta <= q) :: q in r.value.0 && r.value.0[q] == fs[q])
  {
    var nombre := Basename(ruta);
    var d := Trash(env) + [TrashName(stamp, nombre)];
    var fs1 := Eliminar(fs, env, ruta, false, stamp).value.0;
    var home := Desktop(env) + [nombre];
    EliminarToTrash(fs, env, ruta, stamp);
    NewestAfterDelete(fs, env, ruta, stamp, order);
    RestoreRelocates(fs, env, ruta, stamp);
    MoveResult(fs1, d, home);
    var fs2 := Relocate(fs1, d, home);
    assert Restaurar(fs1, env, order, nombre, None) == Ok((fs2, home));
    RelocateEffect(fs1, d, home);
    forall q | q in fs && ruta <= q
      ensures Rebase(q, ruta, home) in fs2 && fs2[Rebase(q, ruta, home)] == fs[q]
    {
      RebaseTwice(q, ruta, d, home);
    }
    forall q | q in fs && !(ruta <= q) ensures q in fs2 && fs2[q] == fs[q] {
      AbsentHasNothingBelow(fs, d, q);
      assert !(home <= q) by {
        if home <= q { PrefixPresent(fs, home, q); }
      }
    }
  }

  // ---------------------------------------------------------------------------
  // listar_papelera
  // ---------------------------------------------------------------------------

  /** One row of `listar_papelera`: name, modification time (ISO text) and size. */
  datatype TrashItem = TrashItem(nombre: string, fecha: string, tamano: nat)

  function TrashItems(fs: FS, dir: Path, names: seq<string>, mtime: Path -> string): (r: seq<TrashItem>)
    ensures |r| <= |names|
    ensures forall it | it in r :: IsFile(fs, dir + [it.nombre]) && it.nombre in names && it == TrashItem(it.nombre, mtime(dir + [it.nombre]), ByteSize(fs[dir + [it.nombre]].content))
    ensures forall i | 0 <= i < |names| && IsFile(fs, dir + [names[i]]) ::
      TrashItem(names[i], mtime(dir + [names[i]]), ByteSize(fs[dir + [names[i]]].content)) in r
  {
    if |names| == 0 then []
    else
      var q := dir + [names[0]];
      var rest := TrashItems(fs, dir, names[1..], mtime);
      assert forall i | 1 <= i < |names| :: names[i] == names[1..][i - 1];
      if IsFile(fs, q) then [TrashItem(names[0], mtime(q), ByteSize(fs[q].content))] + rest else rest
  }

  /**
    `listar_papelera()`: the files directly inside the trash (folders are not
    listed), in `os.scandir` order.  `mtime` renders an entry's modification
    time the way `datetime.fromtimestamp(...).isoformat()` does.
   */
  function ListarPapelera(fs: FS, env: Env, order: seq<string>, mtime: Path -> string): (r: Result<seq<TrashItem>, FsError>)
    ensures r.Err? <==> !IsDir(fs, Trash(env))
    ensures r.Ok? ==> forall it | it in r.value :: IsFile(fs, Trash(env) + [it.nombre])
  {
    var t := Trash(env);
    if t !in fs then Err(NotFound(t))
    else if fs[t].File? then Err(NotADirectory(t))
    else Ok(TrashItems(fs, t, order, mtime))
  }

  /** With a faithful listing, every file in the trash is listed. */
  lemma ListarPapeleraComplete(fs: FS, env: Env, order: seq<string>, mtime: Path -> string, n: string)
    requires IsDir(fs, Trash(env)) && IsListing(fs, Trash(env), order)
    requires IsFile(fs, Trash(env) + [n])
    ensures exists it | it in ListarPapelera(fs, env, order, mtime).value :: it.nombre == n
  {
    var q := Trash(env) + [n];
    assert |q| == |Trash(env)| + 1 && Trash(env) <= q && q[|Trash(env)|] == n;
    var i :| 0 <= i < |order| && order[i] == n;
    var it := TrashItem(n, mtime(q), ByteSize(fs[q].content));
    assert it in ListarPapelera(fs, env, order, mtime).value;
  }
}

=== FILE: urls.dfy ===
/**
  The search URLs the assistant opens.  `buscar_google` only turns spaces into
  `+`; `buscar_youtube` runs the query through `urllib.parse.quote`, which
  writes the text as UTF-8 and percent-encodes every byte outside the
  unreserved set of section 2.3 of RFC 3986 and `/` (section 2.1 of RFC 3986
  fixes the `%XX` form, upper-case hex).
 */
module Urls {
  import opened Base

  newtype Byte = b: int | 0 <= b < 256

  // ---------------------------------------------------------------------------
  // UTF-8
  // ---------------------------------------------------------------------------

  /** The bytes of one character in UTF-8. */
  function EncodeChar(c: char): (r: seq<Byte>)
    ensures |r| == Utf8Width(c)
  {
    var n := c as int;
    if n < 0x80 then [n as Byte]
    else if n < 0x800 then [(0xC0 + n / 64) as Byte, (0x80 + n % 64) as Byte]
    else if n < 0x10000 then
      [(0xE0 + n / 4096) as Byte, (0x80 + (n / 64) % 64) as Byte, (0x80 + n % 64) as Byte]
    else
      [(0xF0 + n / 262144) as Byte, (0x80 + (n / 4096) % 64) as Byte,
       (0x80 + (n / 64) % 64) as Byte, (0x80 + n % 64) as Byte]
  }

  /** `s.encode("utf-8")` */
  function Utf8(s: string): seq<Byte>
  {
    if |s| == 0 then [] else EncodeChar(s[0]) + Utf8(s[1..])
  }

  /** The scalar value a code-point number stands for, when it is one. */
  function ToChar(n: int): Option<char>
  {
    if 0 <= n < 0xD800 || 0xE000 <= n < 0x110000 then Some(n as char) else None
  }

  predicate IsCont(b: Byte)
  {
    0x80 <= b < 0xC0
  }

  /** How many bytes the sequence starting with lead byte `b` has (0: not a lead byte). */
  function SeqLength(b: Byte): nat
  {
    if b < 0x80 then 1
    else if 0xC2 <= b < 0xE0 then 2
    else if 0xE0 <= b < 0xF0 then 3
    else if 0xF0 <= b < 0xF5 then 4
    else 0
  }

  /** The code point of the `k`-byte sequence at the start of `bs`. */
  function CodePoint(bs: seq<Byte>, k: nat): int
    requires 1 <= k <= 4 && k <= |bs|
  {
    if k == 1 then bs[0] as int
    else if k == 2 then (bs[0] as int - 0xC0) * 64 + (bs[1] as int - 0x80)
    else if k == 3 then (bs[0] as int - 0xE0) * 4096 + (bs[1] as int - 0x80) * 64 + (bs[2] as int - 0x80)
    else (bs[0] as int - 0xF0) * 262144 + (bs[1] as int - 0x80) * 4096 + (bs[2] as int - 0x80) * 64 + (bs[3] as int - 0x80)
  }

  /** Decodes the character at the start of `bs`, with the number of bytes it takes. */
  function DecodeChar(bs: seq<Byte>): (r: Option<(char, nat)>)
    requires |bs| > 0
    ensures r.Some? ==> 1 <= r.value.1 <= |bs|
  {
    var k := SeqLength(bs[0]);
    if k == 0 || |bs| < k || exists j | 1 <= j < k :: !IsCont(bs[j]) then None
    else
      match ToChar(CodePoint(bs, k))
      case Some(c) => Some((c, k))
      case None => None
  }

  /** `bs.decode("utf-8")`: `None` where Python raises UnicodeDecodeError. */
  function Utf8Decode(bs: seq<Byte>): Option<string>
    decreases |bs|
  {
    if |bs| == 0 then Some("")
    else
      match DecodeChar(bs)
      case None => None
      case Some((c, k)) =>
        match Utf8Decode(bs[k..])
        case None => None
        case Some(rest) => Some([c] + rest)
  }

  lemma DecodeTwo(c: char, rest: seq<Byte>)
    requires 0x80 <= c as int < 0x800
    ensures DecodeChar(EncodeChar(c) + rest) == Some((c, 2))
  {
    var n := c as int;
    var a, b := n / 64, n % 64;
    var bs := EncodeChar(c) + rest;
    assert bs[0] as int == 0xC0 + a && bs[1] as int == 0x80 + b;
    assert SeqLength(bs[0]) == 2;
    assert IsCont(bs[1]);
    assert CodePoint(bs, 2) == a * 64 + b == n;
  }

  lemma DecodeThree(c: char, rest: seq<Byte>)
    requires 0x800 <= c as int < 0x10000
    ensures DecodeChar(EncodeChar(c) + rest) == Some((c, 3))
  {
    var n := c as int;
    var a, b, d := n / 4096, (n / 64) % 64, n % 64;
    assert n == a * 4096 + b * 64 + d;
    var bs := EncodeChar(c) + rest;
    assert bs[0] as int == 0xE0 + a && bs[1] as int == 0x80 + b && bs[2] as int == 0x80 + d;
    assert SeqLength(bs[0]) == 3;
    assert IsCont(bs[1]) && IsCont(bs[2]);
    assert CodePoint(bs, 3) == n;
  }

  /** Dividing by 64 twice is dividing by 4096. */
  lemma DivTwice(n: nat)
    ensures n / 4096 == (n / 64) / 64
  {
    var q, r := n / 4096, n % 4096;
    assert n == q * 4096 + r && 0 <= r < 4096;
    assert n / 64 == q * 64 + r / 64;
  }

  lemma DecodeFour(c: char, rest: seq<Byte>)
    requires 0x10000 <= c as int
    ensures DecodeChar(EncodeChar(c) + rest) == Some((c, 4))
  {
    var n := c as int;
    var q1, e := n / 64, n % 64;
    var q2, d := q1 / 64, q1 % 64;
    var q3, b := q2 / 64, q2 % 64;
    DivTwice(n);
    DivTwice(q1);
    DivTwice(n / 64);
    assert n / 262144 == q3 by {
      var q, r := n / 262144, n % 262144;
      assert n == q * 262144 + r && 0 <= r < 262144;
      assert n / 4096 == q * 64 + r / 4096;
    }
    var bs := EncodeChar(c) + rest;
    assert bs[0] as int == 0xF0 + q3 && bs[1] as int == 0x80 + b && bs[2] as int == 0x80 + d && bs[3] as int == 0x80 + e;
    assert SeqLength(bs[0]) == 4;
    assert IsCont(bs[1]) && IsCont(bs[2]) && IsCont(bs[3]);
    assert CodePoint(bs, 4) == q3 * 262144 + b * 4096 + d * 64 + e;
  }

  lemma DecodeEncodeChar(c: char, rest: seq<Byte>)
    ensures DecodeChar(EncodeChar(c) + rest) == Some((c, |EncodeChar(c)|))
  {
    var n := c as int;
    if n < 0x80 {
    } else if n < 0x800 {
      DecodeTwo(c, rest);
    } else if n < 0x10000 {
      DecodeThree(c, rest);
    } else {
      DecodeFour(c, rest);
    }
  }

  /** Decoding undoes encoding. */
  lemma {:induction false} Utf8RoundTrip(s: string)
    ensures Utf8Decode(Utf8(s)) == Some(s)
  {
    if |s| > 0 {
      DecodeEncodeChar(s[0], Utf8(s[1..]));
      var bs := Utf8(s);
      assert bs[|EncodeChar(s[0])|..] == Utf8(s[1..]);
      Utf8RoundTrip(s[1..]);
      assert [s[0]] + s[1..] == s;
    }
  }

  lemma {:induction false} ByteSizeConcat(a: string, b: string)
    ensures ByteSize(a + b) == ByteSize(a) + ByteSize(b)
    decreases |b|
  {
    if |b| > 0 {
      var b' := b[..|b| - 1];
      assert (a + b)[..|a + b| - 1] == a + b';
      ByteSizeConcat(a, b');
    } else {
      assert a + b == a;
    }
  }

  /** The size a file reports is the length of its UTF-8 encoding. */
  lemma {:induction false} Utf8Length(s: string)
    ensures |Utf8(s)| == ByteSize(s)
  {
    if |s| > 0 {
      Utf8Length(s[1..]);
      ByteSizeConcat([s[0]], s[1..]);
      assert [s[0]] + s[1..] == s;
      assert ByteSize([s[0]]) == Utf8Width(s[0]) by {
        assert [s[0]][..0] == [];
      }
    }
  }

  // ---------------------------------------------------------------------------
  // Percent-encoding: urllib.parse.quote(s, safe="/")
  // ---------------------------------------------------------------------------

  /** Letters, digits and `_.-~`: the bytes `quote` never escapes. */
  predicate Unreserved(b: Byte)
  {
    (0x41 <= b <= 0x5A) || (0x61 <= b <= 0x7A) || (0x30 <= b <= 0x39)
    || b == 0x5F || b == 0x2E || b == 0x2D || b == 0x7E
  }

  /** `safe="/"`, the default. */
  predicate Safe(b: Byte)
  {
    Unreserved(b) || b == 0x2F
  }

  const UpperHex := "0123456789ABCDEF"

  function QuoteByte(b: Byte): (r: string)
    ensures |r| == 1 || |r| == 3
  {
    if Safe(b) then [b as int as char] else ['%', UpperHex[b / 16], UpperHex[b % 16]]
  }

  function QuoteBytes(bs: seq<Byte>): string
  {
    if |bs| == 0 then "" else QuoteByte(bs[0]) + QuoteBytes(bs[1..])
  }

  /** `urllib.parse.quote(s)` */
  function Quote(s: string): string
  {
    QuoteBytes(Utf8(s))
  }

  function HexValue(c: char): Option<nat>
  {
    if '0' <= c <= '9' then Some(c as int - '0' as int)
    else if 'A' <= c <= 'F' then Some(c as int - 'A' as int + 10)
    else if 'a' <= c <= 'f' then Some(c as int - 'a' as int + 10)
    else None
  }

  /**
    Strict percent-decoding: `%XY` is the byte with hex value XY, an ASCII
    character other than `%` is its own byte, anything else is rejected.
   */
  function Unquote(s: string): Option<seq<Byte>>
    decreases |s|
  {
    if |s| == 0 then Some([])
    else if s[0] == '%' then
      if |s| < 3 then None
      else
        match (HexValue(s[1]), HexValue(s[2]))
        case (Some(h), Some(l)) =>
          (match Unquote(s[3..])
           case Some(rest) => Some([(h * 16 + l) as Byte] + rest)
           case None => None)
        case _ => None
    else if s[0] as int < 0x80 then
      match Unquote(s[1..])
      case Some(rest) => Some([s[0] as int as Byte] + rest)
      case None => None
    else None
  }

  lemma HexDigitValue(d: nat)
    requires d < 16
    ensures HexValue(UpperHex[d]) == Some(d)
  {
  }

  lemma UnquoteByte(b: Byte, s: string)
    ensures Unquote(QuoteByte(b) + s) == (match Unquote(s) case Some(rest) => Some([b] + rest) case None => None)
  {
    var t := QuoteByte(b) + s;
    if Safe(b) {
      assert t[0] == b as int as char && t[1..] == s;
    } else {
      HexDigitValue(b as int / 16);
      HexDigitValue(b as int % 16);
      assert t[0] == '%' && t[1] == UpperHex[b / 16] && t[2] == UpperHex[b % 16] && t[3..] == s;
    }
  }

  /** Percent-decoding undoes `quote`. */
  lemma {:induction false} QuoteBytesRoundTrip(bs: seq<Byte>)
    ensures Unquote(QuoteBytes(bs)) == Some(bs)
  {
    if |bs| > 0 {
      UnquoteByte(bs[0], QuoteBytes(bs[1..]));
      QuoteBytesRoundTrip(bs[1..]);
      assert [bs[0]] + bs[1..] == bs;
    }
  }

  /** The query can be read back from its quoted form, so distinct queries quote differently. */
  lemma QuoteRoundTrip(s: string)
    ensures Unquote(Quote(s)).Some? && Utf8Decode(Unquote(Quote(s)).value) == Some(s)
  {
    QuoteBytesRoundTrip(Utf8(s));
    Utf8RoundTrip(s);
  }

  lemma QuoteInjective(a: string, b: string)
    requires Quote(a) == Quote(b)
    ensures a == b
  {
    QuoteRoundTrip(a);
    QuoteRoundTrip(b);
  }

  /** The characters a quoted text can hold. */
  predicate UrlChar(c: char)
  {
    ('A' <= c <= 'Z') || ('a' <= c <= 'z') || ('0' <= c <= '9') || c in "_.-~/%"
  }

  lemma {:induction false} QuoteBytesAlphabet(bs: seq<Byte>)
    ensures forall i | 0 <= i < |QuoteBytes(bs)| :: UrlChar(QuoteBytes(bs)[i])
  {
    if |bs| > 0 {
      QuoteBytesAlphabet(bs[1..]);
      var h := QuoteByte(bs[0]);
      assert forall i | 0 <= i < |h| :: UrlChar(h[i]);
      assert QuoteBytes(bs) == h + QuoteBytes(bs[1..]);
    }
  }

  /** A quoted query has no space, `&`, `#`, `?` or `+`: it cannot split the URL's query string. */
  lemma QuoteAlphabet(s: string)
    ensures forall i | 0 <= i < |Quote(s)| :: UrlChar(Quote(s)[i])
    ensures ' ' !in Quote(s) && '&' !in Quote(s) && '+' !in Quote(s) && '#' !in Quote(s) && '?' !in Quote(s)
  {
    QuoteBytesAlphabet(Utf8(s));
  }

  lemma QuoteExamples()
    ensures Quote("lo fi/2") == "lo%20fi/2"
    ensures Quote("\U{00F1}") == "%C3%B1"
  {
    assert Utf8("lo fi/2") == [0x6C, 0x6F, 0x20, 0x66, 0x69, 0x2F, 0x32];
    assert Utf8("\U{00F1}") == [0xC3, 0xB1];
  }

  // ---------------------------------------------------------------------------
  // The two search URLs
  // ---------------------------------------------------------------------------

  const YoutubeSearch := "https://www.youtube.com/results?search_query="
  const GoogleSearch := "https://www.google.com/search?q="

  /** `buscar_youtube`: the query, quoted, after the search prefix. */
  function YoutubeUrl(consulta: string): (url: string)
    ensures StartsWith(url, YoutubeSearch)
  {
    YoutubeSearch + Quote(consulta)
  }

  /** The YouTube URL determines the query it was built from. */
  lemma YoutubeUrlRecoversQuery(consulta: string)
    ensures var q := YoutubeUrl(consulta)[|YoutubeSearch|..];
      Unquote(q).Some? && Utf8Decode(Unquote(q).value) == Some(consulta)
  {
    assert YoutubeUrl(consulta)[|YoutubeSearch|..] == Quote(consulta);
    QuoteRoundTrip(consulta);
  }

  /** `s.replace(a, b)` for single characters. */
  function ReplaceChar(s: string, a: char, b: char): (r: string)
    ensures |r| == |s|
    ensures forall i | 0 <= i < |s| :: r[i] == (if s[i] == a then b else s[i])
  {
    seq(|s|, i requires 0 <= i < |s| => if s[i] == a then b else s[i])
  }

  /** `buscar_google`: spaces become `+`; nothing else is escaped. */
  function GoogleUrl(consulta: string): (url: string)
    ensures StartsWith(url, GoogleSearch)
  {
    GoogleSearch + ReplaceChar(consulta, ' ', '+')
  }

  /** A query without `+` is recovered by turning the `+` back into spaces. */
  lemma GoogleUrlRecoversQuery(consulta: string)
    requires '+' !in consulta
    ensures ' ' !in GoogleUrl(consulta)
    ensures ReplaceChar(GoogleUrl(consulta)[|GoogleSearch|..], '+', ' ') == consulta
  {
    var q := GoogleUrl(consulta)[|GoogleSearch|..];
    assert q == ReplaceChar(consulta, ' ', '+');
    assert forall i | 0 <= i < |GoogleSearch| :: GoogleSearch[i] != ' ';
  }

  /**
    Nothing but spaces is escaped, so a query holding `+` is indistinguishable
    from one holding spaces, and an `&` ends the `q` parameter.
   */
  lemma GoogleUrlQuirks()
    ensures GoogleUrl("c++") == GoogleUrl("c  ")
    ensures GoogleUrl("a&b") == GoogleSearch + "a&b"
  {
  }
}
